=== FILE: README.md ===
# stockrs core, modelled in Dafny

stockrs is a Rust learning repository. Besides a small axum web service it holds a set of
guide modules. This project models the parts of both that carry sequential, checkable logic:

- the double-ended linked list and the iterator built on it;
- the Lomuto quicksort;
- the list variants and iterators in the memory and iterator guides;
- the observer registry, in its synchronous and its async form;
- the const-generic containers and the light-bulb typestate;
- the bicycle builder;
- the decision tables of the web code: the response envelope, the application errors, the
  registration and login handlers, and the request handlers of the server.

There is one Dafny module per source file. Three modules are shared:

- `Wrappers` holds `Option`, `Result` and `Panic`. A Rust `unwrap` that fails, or an index out of
  bounds, becomes an `Err(Panic(..))`.
- `Http` holds the status codes with their values from section 15 of RFC 9110, and the header
  character rules.
- `Decimals` writes a `usize` in decimal, as panic messages print it.

| module | file | source |
|---|---|---|
| `DoubleList` | double_list.dfy | src/guide/linkedlist_double.rs |
| `Quicksort` | quicksort.dfy | src/guide/quicksort.rs |
| `MemLists` | mem_lists.dfy | src/guide/mem.rs |
| `Iters` | iters.dfy | src/guide/iters.rs |
| `Observers` | observers.dfy | src/guide/observer.rs, src/guide/asyncer.rs |
| `ConstGen` | const_gen.dfy | src/guide/constgen.rs |
| `Builder` | builder.dfy | src/guide/builder.rs |
| `Response` | response.dfy | src/common/response.rs |
| `WebErrors` | web_errors.dfy | src/web/errors.rs |
| `MergeRoutes` | merge_routes.dfy | src/web/merge_routes.rs |
| `Server` | server.dfy | src/server.rs |

## How each part is modelled

**Heap-linked lists.**

- The `Rc<RefCell<Node>>` deque is an arena, a `map` from node ids to nodes, with optional
  `prev`/`next` ids.
- Its operations are executable functions. They need only `Closed`: every id the list holds
  points into the heap, which is what a live `Rc` guarantees.
- The ghost predicate `Valid(l, ids)` says the list is the doubly linked chain through `ids`.
- One refinement lemma per operation proves that the operation does to `Elements(l, ids)` what
  its `seq` meaning says.
- The consuming iterator, and the tests at linkedlist_double.rs:162-247, are replayed as
  operation scripts. `RunRefines` maps each script to the `seq` semantics `SeqRun`.

**Quicksort.** It works on `seq<int>`:

- `Partition` is a method; its loop is the Lomuto scan.
- `SortSlice` is the recursion of `_quicksort`. Its termination measure is `|s|, Rank(s)`.
- `Rank` is 1 exactly when the pivot is below the first element. This is the case where the
  right part is the whole slice: it then starts with its minimum, so its rank drops to 0.

**Observers.** A weak handle is an id, and the set of ids still alive is a parameter, so
`upgrade()` succeeds exactly for members of that set. The async `update`:

- first takes the snapshot of the live observers;
- then has every observer finish in some order. `join_all` may complete them in any order, so
  the order is a parameter constrained to be a permutation of the snapshot.

**Compile-time rules.** constgen.rs rejects bad indices and wrong bulb transitions at compile
time. Each such rule is a function that returns `Ok` or `Err(Rejected(message))`, with the
compiler's message.

**Web handlers.**

- The database is a `map` from username to row.
- `servers::show` is the row under the username, unless the parameter `queryFails` makes it err.
- `servers::create` is an `InsertOutcome` parameter.
- The JWT encoder is a function parameter.
- `login`'s `unwrap`s become `Panic` results.

## Model

| member | source | states |
|---|---|---|
| DoubleList.New | src/guide/linkedlist_double.rs:39-44 | a new list is valid for the empty element sequence, with no head and no tail |
| DoubleList.PrependRefines | src/guide/linkedlist_double.rs:46-59 | prepend keeps the list valid and puts the value before all present elements; on an empty list the new node is both head and tail |
| DoubleList.PushRefines | src/guide/linkedlist_double.rs:61-74 | push keeps the list valid and puts the value after all present elements |
| DoubleList.PopRefines | src/guide/linkedlist_double.rs:76-90 | pop never panics on a valid list; it returns the last element and leaves the others in order; empty gives None and no change; removing the only element clears head and tail |
| DoubleList.ShiftRefines | src/guide/linkedlist_double.rs:92-105 | shift never panics on a valid list; it returns the first element and leaves the rest in order; empty gives None; removing the only element clears head and tail |
| DoubleList.HeadUnreferenced | src/guide/linkedlist_double.rs:94-103 | after the head is unlinked no remaining node points at it, so the `Rc::try_unwrap(..).unwrap()` in shift cannot fail |
| DoubleList.TailUnreferenced | src/guide/linkedlist_double.rs:78-88 | after the tail is unlinked no remaining node points at it, so the `try_unwrap` in pop cannot fail |
| DoubleList.PeekFrontRefines | src/guide/linkedlist_double.rs:107-111 | peek_front is the first element (None when empty) and agrees with what shift would return |
| DoubleList.PeekBackRefines | src/guide/linkedlist_double.rs:112-116 | peek_back is the last element (None when empty) and agrees with what pop would return |
| DoubleList.SetBackRefines | src/guide/linkedlist_double.rs:118-122 | a write through peek_back_mut replaces only the last element; length and links are unchanged |
| DoubleList.SetFrontRefines | src/guide/linkedlist_double.rs:124-128 | a write through peek_front_mut replaces only the first element |
| DoubleList.DrainRefines | src/guide/linkedlist_double.rs:135-139 | the Drop loop shifts out every element, front to back, and leaves the heap empty |
| DoubleList.StepRefines | src/guide/linkedlist_double.rs:141-155 | every list operation, including IntoIter next (= shift) and next_back (= pop), refines its sequence meaning |
| DoubleList.RunRefines | src/guide/linkedlist_double.rs:130-155 | any script of operations on a valid list yields the outputs of the sequence semantics and ends in a list valid for its final sequence |
| DoubleList.SeqRunAppend | src/guide/linkedlist_double.rs:162-247 | running two scripts in a row is running their concatenation |
| DoubleList.BasicsScenario | src/guide/linkedlist_double.rs:162-214 | the `basics` test: None on empty, LIFO at the head (3, 2), 1 remains, then LIFO at the tail, None after the drain |
| DoubleList.PeekScenario | src/guide/linkedlist_double.rs:217-232 | the `peek` test: None from all four peeks on empty (the mutable peeks read the same cells), then 3 from both front peeks and 1 from both back peeks |
| DoubleList.IntoIterScenario | src/guide/linkedlist_double.rs:235-247 | the `into_iter` test: on [3, 2, 1], next gives 3, next_back gives 1, next gives 2, then None at both ends |
| Quicksort.BelowAboveSplit | src/guide/quicksort.rs:23-28 | the elements at most the pivot and those above it together form the whole input, as a multiset |
| Quicksort.Swap | src/guide/quicksort.rs:24-31 | a swap exchanges two positions, keeps the others and is a permutation |
| Quicksort.GatherBelow | src/guide/quicksort.rs:22-28 | after the scan the prefix up to `pivot_index` is exactly the elements ≤ the pivot in order, and the rest is a permutation of the elements above it |
| Quicksort.Partition | src/guide/quicksort.rs:20-34 | an empty slice panics with "attempt to subtract with overflow" (the `len() - 1` underflow at line 21, reported before the index in a debug build); otherwise the pivot is the original last element, `pivot_index` ≥ 1, the left part is the elements below in order, the right part starts with the pivot and the rest of it is above the pivot |
| Quicksort.PartitionShrinks | src/guide/quicksort.rs:11-18 | the left part is always shorter; the right part is shorter or, when the pivot was the minimum, the same length with a smaller rank, so the recursion terminates |
| Quicksort.PartsOfSlice | src/guide/quicksort.rs:33 | left followed by right is a permutation of the slice, with left ≤ pivot ≤ right |
| Quicksort.JoinSortedParts | src/guide/quicksort.rs:15-17 | sorting both parts in place sorts the whole slice as a permutation of it |
| Quicksort.SortSlice | src/guide/quicksort.rs:11-18 | `_quicksort` returns a sorted permutation; slices shorter than 2 are unchanged |
| Quicksort.Sort | src/guide/quicksort.rs:5-9 | `quicksort()` sorts ascending as a permutation |
| Quicksort.SortedUnique | src/guide/quicksort.rs:5-18 | two sorted permutations of one slice are equal, so the result is fully determined |
| MemLists.AppendItem | src/guide/mem.rs:57-71 | appending through `mut_tail` adds the value after all values, and the new tail is the new item |
| MemLists.Tail | src/guide/mem.rs:65-71 | `mut_tail` returns the last item of the chain, the unique one whose `next` is None |
| MemLists.AppendLinksOldTail | src/guide/mem.rs:85-88 | after append the old tail links to the new item and earlier items keep their data |
| MemLists.SinglyNew | src/guide/mem.rs:79-83 | a new list holds exactly one item |
| MemLists.SinglyAppend | src/guide/mem.rs:85-92 | append adds at the end and keeps the head |
| MemLists.Walk | src/guide/mem.rs:95-108 | walking from `head` along `next` terminates and visits the values in insertion order |
| MemLists.SinglyScenario | src/guide/mem.rs:95-108 | the walk in `run_singlylist` visits head, middle, tail |
| MemLists.CowAppend | src/guide/mem.rs:281-286 | the copy-on-write append returns the original values plus the new one; the receiver is a value and stays as it was |
| MemLists.CowAppendAllValues | src/guide/mem.rs:281-286 | a run of copy-on-write appends adds exactly the appended values, in order |
| MemLists.CowAgreesWithSingly | src/guide/mem.rs:275-286 | the copy-on-write list and the plain singly list give the same values for the same appends |
| MemLists.FindTail | src/guide/mem.rs:159-166 | `find_tail` reaches a node with no `next` at or after the start |
| MemLists.FindTailLinear | src/guide/mem.rs:159-166 | in a list built by appends `find_tail` finds the last node |
| MemLists.DNew | src/guide/mem.rs:152-156 | a new doubly linked list is exactly one node, holding the value, linked to nothing: its values are `[x]` |
| MemLists.DAppend | src/guide/mem.rs:170-175 | the new node's `prev` is the old tail, the old tail's `next` is the new node, and no other node changes |
| MemLists.DAppendLinear | src/guide/mem.rs:170-175 | append keeps the list a chain and adds the value at the end |
| MemLists.DEnds | src/guide/mem.rs:177-183 | `head` is the first value and `tail` the last |
| MemLists.DoublyScenario | src/guide/mem.rs:191-204 | after new("first") and two appends, head is "first" and tail is "third" |
| MemLists.ByteLenIsUtf8Length | src/guide/mem.rs:218-227 | the counted byte length is the length of the UTF-8 encoding |
| MemLists.NewNameLength | src/guide/mem.rs:218-227 | `NameLengthCow::new` keeps the name and stores its UTF-8 byte length, between 1 and 4 bytes per character |
| Iters.CounterNext | src/guide/iters.rs:19-26 | each call increments the count; the value yielded is Some of the incremented count while that is below 6, else None |
| Iters.CounterRunYields | src/guide/iters.rs:19-26 | the k-th of any run of calls is Some(count + k + 1) while below 6, else None |
| Iters.CounterFromNew | src/guide/iters.rs:97-103 | a new counter yields 1, 2, 3, 4, 5 and then None for every later call |
| Iters.ProductIndex | src/guide/iters.rs:53-62 | the cartesian product holds (x[a], y[b]) at position b·|x| + a |
| Iters.GridRunRemaining | src/guide/iters.rs:64-78 | from any position, the iterator yields the rest of the product row by row, then None |
| Iters.GridYieldsProduct | src/guide/iters.rs:80-90 | with both vectors nonempty the iterator yields exactly the |x|·|y| product pairs, then None |
| Iters.GridPanicsAfterEnd | src/guide/iters.rs:66-74 | the iterator is not fused: a call after the None indexes `y` at its length and panics with "index out of bounds: the len is L but the index is L" |
| Iters.GridEmptyCases | src/guide/iters.rs:66-74 | an empty `y`, or an empty `x` with two or more rows, panics on the first call with "the len is 0 but the index is 0"; otherwise an empty grid ends at once |
| Iters.New | src/guide/iters.rs:160-165 | a new list holds just its value |
| Iters.AppendWalk | src/guide/iters.rs:167-179 | append walks to the last node and links the value there, keeping earlier elements |
| Iters.AppendElements | src/guide/iters.rs:167-179 | the elements after append are the old elements plus the value |
| Iters.Next | src/guide/iters.rs:204-258 | `next` on `Iter`, `IterMut` and `IntoIter` yields the current node's value and moves the cursor to that node's `next`, so what is left to walk is the rest of the walk; a finished cursor yields None and stays put |
| Iters.NextWalksOn | src/guide/iters.rs:204-258 | after `next` yields a node's value, what remains to walk from the moved cursor is the rest of the walk from that node |
| Iters.IterYieldsElements | src/guide/iters.rs:181-258 | iterating yields every element once, in insertion order, then None |
| Iters.LinkedListScenario | src/guide/iters.rs:317-341 | the test list iterates as first, second, third, fourth |
| Iters.SplitJoin | src/guide/iters.rs:404-415 | splitting on ',' yields comma-free fields that join back to the line |
| Iters.ParseLine | src/guide/iters.rs:404-415 | a line becomes an entry exactly when it splits into three fields; the entry's fields join back to the line |
| Iters.LogEntriesAreParsed | src/guide/iters.rs:404-415 | every entry comes from a line that parses, and every line that parses gives an entry |
| Iters.LogEntriesOne | src/guide/iters.rs:406-414 | one line gives its parsed entry, or nothing when it is unreadable or does not have three fields |
| Iters.LogEntriesAppend | src/guide/iters.rs:404-415 | `filter_map` works line by line: the entries of two runs of lines are those of the first followed by those of the second, keeping order and repetitions |
| Iters.LogEntriesPerUser | src/guide/iters.rs:404-423 | each user has exactly as many entries as there are lines parsing to an entry of theirs |
| Iters.CountUsersAdds | src/guide/iters.rs:417-423 | counting adds each entry's username to the running map |
| Iters.UserAccessCount | src/guide/iters.rs:417-423 | a user's count is the number of entries with that username, and only such users appear |
| Observers.New | src/guide/observer.rs:66-71 | a new subject has no observers and the given state |
| Observers.Attach | src/guide/observer.rs:52-55 | attach appends one handle and keeps everything else |
| Observers.Detach | src/guide/observer.rs:57-62 | detach removes the handle, keeps every other registered handle and the state |
| Observers.DetachCounts | src/guide/observer.rs:57-62 | detach removes every entry identical to the argument and no other |
| Observers.RetainAppend | src/guide/observer.rs:57-62 | the `retain` filter keeps the remaining entries in their order |
| Observers.DetachUnregistered | src/guide/observer.rs:57-62 | detaching an unregistered observer changes nothing |
| Observers.DetachUndoesAttach | src/guide/observer.rs:52-62 | detaching a newly attached, previously absent observer restores the subject |
| Observers.Update | src/guide/observer.rs:43-50 | each notification carries the subject's state and goes to a registered observer that is still alive |
| Observers.UpdateCounts | src/guide/observer.rs:43-50 | each live observer is notified once per registration; dead ones are skipped |
| Observers.UpdateInOrder | src/guide/observer.rs:43-50 | notifications follow registration order |
| Observers.NewNotifiesNobody | src/guide/observer.rs:66-71 | a new subject notifies nobody |
| Observers.AttachDeadObserver | src/guide/observer.rs:52-55 | attaching an observer that is already dropped adds no notification: the handle does not keep it alive |
| Observers.AttachTwiceObservesTwice | src/guide/observer.rs:43-55 | attaching the same observer twice gives two notifications per update |
| Observers.ObserverScenario | src/guide/observer.rs:100-115 | `run` notifies observers 1 and 2, in that order |
| Observers.Snapshot | src/guide/asyncer.rs:166 | the snapshot holds only live, registered observers |
| Observers.AsyncUpdate | src/guide/asyncer.rs:164-172 | in any completion order, one observation per snapshot entry, each with the subject's state |
| Observers.AsyncObservesSnapshotOnce | src/guide/asyncer.rs:168-171 | every snapshot member is observed exactly as many times as it is in the snapshot |
| Observers.AsyncMatchesSync | src/guide/asyncer.rs:164-181 | the async update makes the same observations as the synchronous one, up to order |
| ConstGen.FromArray | src/guide/constgen.rs:12-16 | a buffer from an array keeps the array exactly, with its length as `LENGTH` |
| ConstGen.FromVec | src/guide/constgen.rs:52-62 | a buffer from a `Vec` panics unless the lengths agree, with the `assert_eq!` text "assertion `left == right` failed" followed by the two lengths on their own lines; otherwise it has `buf[i] == v[i]` and equals the array conversion |
| ConstGen.BulbRoundTrip | src/guide/constgen.rs:107-122 | `turn_on` then `turn_off`, and the reverse, return to the start; the state text changes with each transition |
| ConstGen.State | src/guide/constgen.rs:110-121 | the state text is "on" exactly for On and "off" exactly for Off |
| ConstGen.CustomIndex | src/guide/constgen.rs:132-145 | the index is accepted exactly when it is below the length, and then gives that element |
| ConstGen.CustomRangeIndex | src/guide/constgen.rs:154-169 | the range is accepted exactly when start + length fits, and then gives those elements |
| ConstGen.RangeOfOneIsIndex | src/guide/constgen.rs:132-169 | a range of length 1 is accepted exactly when the single index is, with the same element |
| ConstGen.RangesConcatenate | src/guide/constgen.rs:154-169 | adjacent ranges concatenate to the combined range |
| ConstGen.LeBytesRoundTrip | src/guide/constgen.rs:181-183 | the little-endian `u16` decode and encode are inverse |
| ConstGen.ConstGenScenario | src/guide/constgen.rs:171-184 | `run`: "off", then "on"; `CustomIndex::<8>` on six bytes is rejected; bytes 4..6 decode to 0x7788 |
| Builder.New | src/guide/builder.rs:31-40 | a new builder has empty make, model and colour and size 0 |
| Builder.WithMake | src/guide/builder.rs:125-154 | `with_make` sets make and keeps the other fields |
| Builder.WithModelAsWritten | src/guide/builder.rs:155 | `with_model` as written sets make and leaves model unchanged |
| Builder.WithModel | src/guide/builder.rs:125-138 | the intended `with_model` sets model and keeps the other fields |
| Builder.WithSize | src/guide/builder.rs:140-156 | `with_size` sets size and keeps the other fields |
| Builder.WithColour | src/guide/builder.rs:125-157 | `with_colour` sets colour and keeps the other fields |
| Builder.ApplyLastWins | src/guide/builder.rs:153-158 | building after any chain of setters gives, per field, the last value set (or the starting one); `build` returns the accumulated bicycle |
| Builder.AccessorsReadChain | src/guide/builder.rs:160-179 | each accessor reads back the last value its setter chain gave |
| Builder.SettersCommute | src/guide/builder.rs:153-158 | setters of different fields commute; for each of the four fields a later setter overrides an earlier one |
| Builder.RunAsWritten | src/guide/builder.rs:114-119 | the chain in `run` builds make "Madone", model "", size 52, colour "purple" |
| Builder.ModelNeverSet | src/guide/builder.rs:155 | the `with_model` as written never changes the model, and differs from the intended setter |
| Builder.RunCorrected | src/guide/builder.rs:114-119 | with the corrected setter the chain builds Trek / Madone / 52 / purple |
| Response.FromResult | src/common/response.rs:21-27 | code 200, message "ops successful", data the argument |
| Response.FromResultTip | src/common/response.rs:29-35 | code 200, message the argument, no data |
| Response.FromError | src/common/response.rs:37-43 | code 400, message the argument, no data |
| Response.FromErrorInfo | src/common/response.rs:45-51 | the given code, message the argument, no data |
| Response.FromErrorInfos | src/common/response.rs:53-59 | code 400, message the argument, no data |
| Response.ErrorConstructorsAgree | src/common/response.rs:37-59 | `from_error` and `from_error_infos` build the same envelope, `from_error_info` with 400 |
| Response.EnvelopesReadBack | src/common/response.rs:21-59 | every constructor sets code and message, and a client reads back the data, the tip or the error text |
| WebErrors.IntoResponse | src/web/errors.rs:36-46 | 500 / 400 / 404 each exactly for its variant, with the fixed message under the single body key "error" |
| WebErrors.StatusIdentifiesError | src/web/errors.rs:38-42 | distinct variants get distinct statuses, and the status gives back the variant |
| WebErrors.Display | src/web/errors.rs:23-31 | each multipart error displays its fixed message, and only it |
| WebErrors.DisplayInjective | src/web/errors.rs:23-31 | the message identifies the variant |
| MergeRoutes.HandleRouter | src/web/merge_routes.rs:6-9 | a handler is mounted under "/api" followed by the path, without the claims guard |
| MergeRoutes.WithClaims | src/web/merge_routes.rs:17-22 | the auth router puts every one of its routes behind the claims extractor |
| MergeRoutes.Lookup | src/web/merge_routes.rs:12-14 | a lookup finds a route with the path and method, or none exists |
| MergeRoutes.RoutesMounted | src/web/merge_routes.rs:12-61 | register and login are at /api/register and /api/login without claims, user-list at /api/user-list with claims |
| MergeRoutes.NewAuthToken | src/web/merge_routes.rs:74-81 | the token type is always "Bearer" |
| MergeRoutes.Authorize | src/web/merge_routes.rs:156-191 | empty username, then empty password, refused without touching the store; a user the `show` lookup finds gets the "already registered" tip; when the lookup finds nothing or fails, the insert is attempted: success and a store change only when it reports one row, any other row count gives the error "写入数据库失败！" and a database error is echoed as the error message, both leaving the store unchanged; the store stays keyed |
| MergeRoutes.RegisterTwice | src/web/merge_routes.rs:164-173 | a second registration of a name writes nothing while the lookup works; with a failing lookup it succeeds exactly when the insert reports one row |
| MergeRoutes.ClaimsFor | src/web/merge_routes.rs:194-199 | the claims carry the user's name, password and expiry 2000000000 |
| MergeRoutes.InitToken | src/web/merge_routes.rs:194-205 | the token is the encoder's result for those claims; an encoder error panics with the `unwrap` text followed by the `Debug` form of the mapped error, `Json(RespVO { code: Some(400), msg: Some("token创建失败！"), data: None })` |
| MergeRoutes.Login | src/web/merge_routes.rs:194-236 | a name the lookup does not find (absent, or a failing query) gives "用户名无效！" and a wrong password "密码错误！", both without a cookie; it panics exactly when the password matches and the encoder fails or the cookie is not a valid header value, with the `unwrap` text followed by the `Debug` form of the error (the mapped `Json(RespVO { .. "token创建失败！" .. })` for the encoder, `InvalidHeaderValue` for the cookie); every other matching password succeeds with cookie "MERGE_TOKEN=<token>;HTTPOnly", the stored username, that token and "Bearer" |
| MergeRoutes.LoginNamesRequester | src/web/merge_routes.rs:215-230 | in a keyed store a successful login answers with the requested username |
| MergeRoutes.RegisterThenLogin | src/web/merge_routes.rs:156-236 | after registering, logging in with the same credentials (and a working lookup) succeeds with that user's token |
| MergeRoutes.WrongPasswordRefused | src/web/merge_routes.rs:209-214 | after registering, a different password is refused without a cookie |
| Server.PostHandler | src/server.rs:189-199 | bad request exactly when the body is shorter than 5 bytes, otherwise 200 "post done." |
| Server.PostHandlerStatus | src/server.rs:189-199 | the client sees 400 exactly for short bodies and 200 otherwise |
| Server.PerformDeleteUser | src/server.rs:260-268 | deletion fails exactly for id 1 |
| Server.DeleteUser | src/server.rs:245-257 | success echoes the id with the fixed name and e-mail; failure is 500 with the prefixed reason |
| Server.DeleteUserOutcomes | src/server.rs:245-268 | deleting fails for user 1 only, with the full message |
| Server.HeaderText | src/server.rs:319-320 | the content type is read only when it is all visible ASCII |
| Server.ChooseDecoder | src/server.rs:319-334 | JSON exactly for the "application/json" prefix; form exactly for the form prefix when not JSON |
| Server.PrefixesExclusive | src/server.rs:322-331 | no content type has both prefixes |
| Server.JsonOrForm | src/server.rs:318-335 | the chosen decoder's outcome, or 415 when none applies |
| Server.DecoderOrderIrrelevant | src/server.rs:322-331 | testing the form prefix first would choose the same decoder |
| Server.HandleError | src/server.rs:75-84 | a timeout becomes 408; any other error becomes 500 "Unhandled internal error: " and its message |
| Server.HandleErrorResponse | src/server.rs:75-84 | a client sees 408 exactly for a timeout and 500 otherwise, and can recover the message of any other error from the body |

## Left out

- Reference counts, `RefCell` borrow checks and the `unsafe` pointer casts (iters.rs `Iter`/`IterMut`, constgen.rs `index`) are not modelled. Values and links are; a `Weak` handle is an id plus an "alive" set.
- Memory reclamation by `Drop` is not modelled. `DoubleList.Drain` models only the shift loop of `Drop for List`.
- `IntoIter::next` in iters.rs yields `None` when `Rc::try_unwrap` finds another reference to the node. Nothing else holds one once the list is consumed, so `Iters.Next` yields the value.
- Async execution is not modelled. `join_all` is a completion order that is a permutation of the snapshot; the tokio demos in asyncer.rs (`spawner`, `sleeper`, `not_async*`, `run_mixed_ops`) are out of scope, as are cancel_task.rs, channels_thread.rs and run.rs.
- `Iters.CounterNext` does not model `usize` overflow of `count`; it would take 2^64 calls.
- Quicksort works on `int`. A `PartialOrd` type with incomparable values (a NaN) is not modelled.
- The `u32` grid values are `int`; nothing in the grid does arithmetic on them.
- The log file is read with `BufReader`; here it is a sequence of lines, each possibly unreadable (`None`, dropped by the `line.ok()?` inside `filter_map`, iters.rs:406-407).
- `servers::show`, `servers::create` and `servers::list` (the sqlx queries) are not modelled as code. The table is a `map` keyed by username. What `show` answers is the row under that key, or an error when there is none or when the flag `queryFails` says the query itself failed. `authorize` and `login` treat both errors alike: `authorize` goes on to `create`, `login` answers "用户名无效！".
- `MergeRoutes.Authorize`: when `create` reports a row count other than 1, the table is assumed unchanged.
- `get_user_list` (merge_routes.rs:238-247) is left out as database access: it only wraps the `servers::list` query (merge_routes.rs:288-296) in `from_result` or `from_error`. The `Claims` extractor's token checks live in src/web/jwt.rs, which is not part of this model; only the claims guard on the route is.
- The JWT encoder is a function parameter; its signing is not modelled.
- Routing, tracing, the listener and the tower layers of src/server.rs, and src/main.rs, are not modelled. Of the timeout layer, only its error mapping is.
- The payload decoders behind `JsonOrForm` are parameters. Only the choice between them is modelled.
- src/helpers.rs (a comment only), src/lib.rs (module declarations), and the guide files effective.rs, strings.rs, generics.rs, macros.rs, lifetimes.rs, ffi.rs and errors.rs are not part of this model: they hold floating point, printing, FFI or file I/O demos and no checkable logic.

## Findings

| source | as written | input that shows it | evidently intended | confidence | as-written member | corrected member |
|---|---|---|---|---|---|---|
| src/guide/builder.rs:155 | `with_str!(make, with_model)` makes `with_model` write the `make` field | the chain in `run`: `.with_make("Trek").with_model("Madone")` builds make "Madone" and an empty model | `with_str!(model, with_model)`, setting `model` | high; not executed | Builder.WithModelAsWritten (Builder.RunAsWritten, Builder.ModelNeverSet) | Builder.WithModel (Builder.RunCorrected, Builder.ApplyLastWins) |

=== FILE: builder.dfy ===
/** The bicycle builder of guide/builder.rs: a record built up by chained
    `with_*` setters, each consuming the builder and returning a new one. */
module Builder {

  /** Rust's `i32`. */
  newtype i32 = x: int | -0x8000_0000 <= x < 0x8000_0000

  datatype Bicycle = Bicycle(make: string, model: string, size: i32, colour: string)

  datatype BicycleBuilder = BicycleBuilder(bicycle: Bicycle)

  /** `BicycleBuilder::new` (and `Builder::new`, `Bicycle::builder`). */
  function New(): (b: BicycleBuilder)
    ensures b.bicycle.make == "" && b.bicycle.model == "" && b.bicycle.colour == ""
    ensures b.bicycle.size == 0
  {
    BicycleBuilder(Bicycle("", "", 0, ""))
  }

  /** `build` hands back the accumulated bicycle. */
  function Build(b: BicycleBuilder): Bicycle {
    b.bicycle
  }

  /** `with_make`: sets `make`; the other fields are kept. */
  function WithMake(b: BicycleBuilder, make: string): (r: BicycleBuilder)
    ensures r.bicycle.make == make
    ensures r.bicycle.model == b.bicycle.model && r.bicycle.size == b.bicycle.size && r.bicycle.colour == b.bicycle.colour
  {
    BicycleBuilder(b.bicycle.(make := make))
  }

  /** `with_model` as the macro invocation `with_str!(make, with_model)`
      expands it: the argument is written to `make`, and `model` is kept. */
  function WithModelAsWritten(b: BicycleBuilder, model: string): (r: BicycleBuilder)
    ensures r.bicycle.make == model
    ensures r.bicycle.model == b.bicycle.model && r.bicycle.size == b.bicycle.size && r.bicycle.colour == b.bicycle.colour
  {
    BicycleBuilder(b.bicycle.(make := model))
  }

  /** `with_model` as its name promises: sets `model`; the other fields are
      kept. */
  function WithModel(b: BicycleBuilder, model: string): (r: BicycleBuilder)
    ensures r.bicycle.model == model
    ensures r.bicycle.make == b.bicycle.make && r.bicycle.size == b.bicycle.size && r.bicycle.colour == b.bicycle.colour
  {
    BicycleBuilder(b.bicycle.(model := model))
  }

  /** `with_size`: sets `size`; the other fields are kept. */
  function WithSize(b: BicycleBuilder, size: i32): (r: BicycleBuilder)
    ensures r.bicycle.size == size
    ensures r.bicycle.make == b.bicycle.make && r.bicycle.model == b.bicycle.model && r.bicycle.colour == b.bicycle.colour
  {
    BicycleBuilder(b.bicycle.(size := size))
  }

  /** `with_colour`: sets `colour`; the other fields are kept. */
  function WithColour(b: BicycleBuilder, colour: string): (r: BicycleBuilder)
    ensures r.bicycle.colour == colour
    ensures r.bicycle.make == b.bicycle.make && r.bicycle.model == b.bicycle.model && r.bicycle.size == b.bicycle.size
  {
    BicycleBuilder(b.bicycle.(colour := colour))
  }

  /** The accessors generated by `accessor!`. */
  function Make(c: Bicycle): string { c.make }
  function Model(c: Bicycle): string { c.model }
  function Size(c: Bicycle): i32 { c.size }
  function Colour(c: Bicycle): string { c.colour }

  /** One setter call in a chain. */
  datatype Setter = SetMake(make: string) | SetModel(model: string) | SetSize(size: i32) | SetColour(colour: string)

  /** One setter applied to a builder. */
  function ApplyOne(b: BicycleBuilder, s: Setter): BicycleBuilder {
    match s
    case SetMake(x) => WithMake(b, x)
    case SetModel(x) => WithModel(b, x)
    case SetSize(x) => WithSize(b, x)
    case SetColour(x) => WithColour(b, x)
  }

  /** A chain of setters, applied left to right. */
  function Apply(b: BicycleBuilder, ss: seq<Setter>): (r: BicycleBuilder)
    decreases |ss|
  {
    if |ss| == 0 then b else Apply(ApplyOne(b, ss[0]), ss[1..])
  }

  /** The independent reading of a chain: each field holds the value of the
      last setter for it, or its prior value when no setter names it. */
  function LastMake(ss: seq<Setter>, prior: string): string {
    if |ss| == 0 then prior
    else if ss[|ss| - 1].SetMake? then ss[|ss| - 1].make
    else LastMake(ss[..|ss| - 1], prior)
  }

  function LastModel(ss: seq<Setter>, prior: string): string {
    if |ss| == 0 then prior
    else if ss[|ss| - 1].SetModel? then ss[|ss| - 1].model
    else LastModel(ss[..|ss| - 1], prior)
  }

  function LastSize(ss: seq<Setter>, prior: i32): i32 {
    if |ss| == 0 then prior
    else if ss[|ss| - 1].SetSize? then ss[|ss| - 1].size
    else LastSize(ss[..|ss| - 1], prior)
  }

  function LastColour(ss: seq<Setter>, prior: string): string {
    if |ss| == 0 then prior
    else if ss[|ss| - 1].SetColour? then ss[|ss| - 1].colour
    else LastColour(ss[..|ss| - 1], prior)
  }

  /** The bicycle that `Apply` describes field by field. */
  function LastWins(ss: seq<Setter>, c: Bicycle): Bicycle {
    Bicycle(LastMake(ss, c.make), LastModel(ss, c.model), LastSize(ss, c.size), LastColour(ss, c.colour))
  }

  /** Applying one more setter at the end updates only its own field of
      the field-by-field reading. */
  lemma LastWinsSnoc(ss: seq<Setter>, s: Setter, c: Bicycle)
    ensures LastWins(ss + [s], c) == ApplyOne(BicycleBuilder(LastWins(ss, c)), s).bicycle
  {
    var t := ss + [s];
    assert t[..|t| - 1] == ss;
  }

  /** `Apply` on a chain split in two is the second part applied after the
      first. */
  lemma {:induction false} ApplyAppend(b: BicycleBuilder, ss: seq<Setter>, s: Setter)
    ensures Apply(b, ss + [s]) == ApplyOne(Apply(b, ss), s)
    decreases |ss|
  {
    if |ss| == 0 {
      assert ss + [s] == [s];
    } else {
      assert (ss + [s])[1..] == ss[1..] + [s];
      ApplyAppend(ApplyOne(b, ss[0]), ss[1..], s);
    }
  }

  /** Whatever the order of the calls, the built bicycle has in each field
      the value given by the last setter for that field; a setter never
      disturbs another field. */
  lemma {:induction false} ApplyLastWins(b: BicycleBuilder, ss: seq<Setter>)
    ensures Build(Apply(b, ss)) == LastWins(ss, b.bicycle)
    decreases |ss|
  {
    if |ss| > 0 {
      var init := ss[..|ss| - 1];
      var s := ss[|ss| - 1];
      assert ss == init + [s];
      ApplyAppend(b, init, s);
      ApplyLastWins(b, init);
      LastWinsSnoc(init, s, b.bicycle);
    }
  }

  /** Read back through the accessors, a bicycle built from `new` by any
      chain shows the last value given to each field, or the empty default. */
  lemma AccessorsReadChain(ss: seq<Setter>)
    ensures Make(Build(Apply(New(), ss))) == LastMake(ss, "")
    ensures Model(Build(Apply(New(), ss))) == LastModel(ss, "")
    ensures Size(Build(Apply(New(), ss))) == LastSize(ss, 0)
    ensures Colour(Build(Apply(New(), ss))) == LastColour(ss, "")
  {
    ApplyLastWins(New(), ss);
  }

  /** Setters of different fields commute, and a second setter of the same
      field overrides the first. */
  lemma SettersCommute(b: BicycleBuilder, make: string, model: string, size: i32, colour: string,
                       earlier: string, earlierSize: i32)
    ensures WithModel(WithMake(b, make), model) == WithMake(WithModel(b, model), make)
    ensures WithSize(WithColour(b, colour), size) == WithColour(WithSize(b, size), colour)
    ensures WithMake(WithMake(b, earlier), make) == WithMake(b, make)
    ensures WithModel(WithModel(b, earlier), model) == WithModel(b, model)
    ensures WithSize(WithSize(b, earlierSize), size) == WithSize(b, size)
    ensures WithColour(WithColour(b, earlier), colour) == WithColour(b, colour)
  {
  }

  /** The chain in `run`, as written: "Madone" lands in `make` and
      `model` stays empty. */
  lemma RunAsWritten()
    ensures Build(WithColour(WithSize(WithModelAsWritten(WithMake(New(), "Trek"), "Madone"), 52), "purple"))
         == Bicycle("Madone", "", 52, "purple")
  {
  }

  /** The as-written `with_model` never changes the model, so no chain of
      the source's setters can build a bicycle with a nonempty model. */
  lemma ModelNeverSet(b: BicycleBuilder, m: string)
    ensures Model(Build(WithModelAsWritten(b, m))) == Model(Build(b))
    ensures m != "" && Make(Build(b)) != m ==> Build(WithModelAsWritten(b, m)) != Build(WithModel(b, m))
  {
  }

  /** The chain in `run` with `with_model` setting the model. */
  lemma RunCorrected()
    ensures Build(Apply(New(), [SetMake("Trek"), SetModel("Madone"), SetSize(52), SetColour("purple")]))
         == Bicycle("Trek", "Madone", 52, "purple")
  {
    ApplyLastWins(New(), [SetMake("Trek"), SetModel("Madone"), SetSize(52), SetColour("purple")]);
  }
}

=== FILE: const_gen.dfy ===
/** The const-generic containers and the typestate light bulb of
    guide/constgen.rs.

    Rust checks several of these rules while compiling. The model turns
    each such check into a function that either accepts (`Ok`) or rejects
    with the compiler's message (`Err(Rejected(..))`), so that the rule
    itself can be stated and proved. */
module ConstGen {
  import opened Wrappers
  import opened Decimals

  /** An unsigned byte, Rust's `u8`. */
  newtype byte = x: int | 0 <= x < 256

  /** A program the compiler refuses, with the message it reports. */
  datatype Rejected = Rejected(message: string)

  /** `Buffer<T, LENGTH>`: `length` is the const parameter, `buf` the array
      of exactly that many elements. */
  datatype Buffer<T> = Buffer(length: nat, buf: seq<T>)

  /** The type `[T; LENGTH]` holds exactly `LENGTH` elements. */
  predicate WellSized<T>(b: Buffer<T>) {
    |b.buf| == b.length
  }

  /** `From<[T; LENGTH]>`: the array is moved in as it is, and `LENGTH` is
      its length. */
  function FromArray<T>(a: seq<T>): (r: Buffer<T>)
    ensures WellSized(r) && r.length == |a|
    ensures forall i | 0 <= i < |a| :: r.buf[i] == a[i]
  {
    Buffer(|a|, a)
  }

  /** The panic of a failed `assert_eq!` on two `usize` values: the
      message, then each operand's `Debug` form on its own line. */
  function AssertEqPanic(left: nat, right: nat): (p: Panic)
    requires left != right
  {
    Panic("assertion `left == right` failed\n  left: " + Decimal(left) + "\n right: " + Decimal(right))
  }

  /** `From<Vec<T>>` for a `Buffer<T, length>`: `assert_eq!(LENGTH, v.len())`
      panics on a length mismatch; otherwise a default-filled array is
      overwritten element by element with `copy_from_slice`. */
  method FromVec<T>(length: nat, v: seq<T>, default: T) returns (r: Result<Buffer<T>, Panic>)
    ensures r.Ok? <==> |v| == length
    ensures r.Err? ==> r.error == AssertEqPanic(length, |v|)
    ensures r.Ok? ==> WellSized(r.value) && r.value.length == length
    ensures r.Ok? ==> forall i | 0 <= i < length :: r.value.buf[i] == v[i]
    ensures r.Ok? ==> r.value == FromArray(v)
  {
    if length != |v| {
      return Err(AssertEqPanic(length, |v|));
    }
    var buf := seq(length, _ => default);
    for i := 0 to length
      invariant |buf| == length
      invariant forall k | 0 <= k < i :: buf[k] == v[k]
      invariant forall k | i <= k < length :: buf[k] == default
    {
      buf := buf[i := v[i]];
    }
    assert buf == v;
    return Ok(Buffer(length, buf));
  }

  // The light bulb typestate

  /** The two tag types `On` and `Off` of `LightBulb<State>`. */
  datatype Bulb = On | Off

  /** `turn_on` exists only on `LightBulb<Off>`; calling it on an `On`
      bulb does not compile. */
  function TurnOn(b: Bulb): (r: Result<Bulb, Rejected>)
    ensures r.Ok? <==> b == Off
    ensures r.Ok? ==> r.value == On
  {
    match b
    case Off => Ok(On)
    case On => Err(Rejected("no method named `turn_on` found for `LightBulb<On>`"))
  }

  /** `turn_off` exists only on `LightBulb<On>`. */
  function TurnOff(b: Bulb): (r: Result<Bulb, Rejected>)
    ensures r.Ok? <==> b == On
    ensures r.Ok? ==> r.value == Off
  {
    match b
    case On => Ok(Off)
    case Off => Err(Rejected("no method named `turn_off` found for `LightBulb<Off>`"))
  }

  /** `state`: "on" for `LightBulb<On>`, "off" for `LightBulb<Off>`. */
  function State(b: Bulb): (s: string)
    ensures s == "on" <==> b == On
    ensures s == "off" <==> b == Off
  {
    match b
    case On => "on"
    case Off => "off"
  }

  /** Every bulb can be switched and switched back, and switching changes
      the reported state. */
  lemma BulbRoundTrip(b: Bulb)
    ensures b == Off ==> TurnOn(b).Ok? && TurnOff(TurnOn(b).value) == Ok(b)
    ensures b == On ==> TurnOff(b).Ok? && TurnOn(TurnOff(b).value) == Ok(b)
    ensures TurnOn(b).Ok? ==> State(TurnOn(b).value) != State(b)
    ensures TurnOff(b).Ok? ==> State(TurnOff(b).value) != State(b)
  {
  }

  // Compile-time checked indexing

  /** `x[CustomIndex::<i>]` on `[T; N]`: accepted only when `N > i`, and then
      it is element `i`. */
  function CustomIndex<T>(i: nat, a: seq<T>): (r: Result<T, Rejected>)
    ensures r.Ok? <==> i < |a|
    ensures r.Ok? ==> r.value == a[i]
  {
    if |a| > i then Ok(a[i]) else Err(Rejected("Index is out of bounds!"))
  }

  /** `x[CustomRangeIndex::<start, length>]` on `[T; N]`: accepted only when
      `N >= start + length`, and then it is the `length` elements from
      `start`. */
  function CustomRangeIndex<T>(start: nat, length: nat, a: seq<T>): (r: Result<seq<T>, Rejected>)
    ensures r.Ok? <==> start + length <= |a|
    ensures r.Ok? ==> |r.value| == length && forall k | 0 <= k < length :: r.value[k] == a[start + k]
  {
    if |a| >= start + length then Ok(a[start..start + length])
    else Err(Rejected("Ending index is out of bounds!"))
  }

  /** A one-element range and a single index accept the same positions and
      agree on the element. */
  lemma RangeOfOneIsIndex<T>(i: nat, a: seq<T>)
    ensures CustomRangeIndex(i, 1, a).Ok? <==> CustomIndex(i, a).Ok?
    ensures CustomIndex(i, a).Ok? ==> CustomRangeIndex(i, 1, a).value == [CustomIndex(i, a).value]
  {
  }

  /** Two adjacent ranges are accepted together exactly when their union
      is, and then they make up the union. */
  lemma RangesConcatenate<T>(start: nat, m: nat, n: nat, a: seq<T>)
    ensures CustomRangeIndex(start, m + n, a).Ok? <==> CustomRangeIndex(start + m, n, a).Ok?
    ensures CustomRangeIndex(start, m + n, a).Ok? ==>
      CustomRangeIndex(start, m, a).Ok? &&
      CustomRangeIndex(start, m + n, a).value == CustomRangeIndex(start, m, a).value + CustomRangeIndex(start + m, n, a).value
  {
    if start + m + n <= |a| {
      assert a[start..start + m + n] == a[start..start + m] + a[start + m..start + m + n];
    }
  }

  // Little-endian `u16`

  /** `u16::from_le_bytes`: the low byte first. */
  function FromLeBytes(b: seq<byte>): (n: nat)
    requires |b| == 2
    ensures n < 0x1_0000
    ensures n % 256 == b[0] as int && n / 256 == b[1] as int
  {
    b[0] as int + 256 * b[1] as int
  }

  /** `u16::to_le_bytes`, the inverse direction. */
  function ToLeBytes(n: nat): (b: seq<byte>)
    requires n < 0x1_0000
    ensures |b| == 2 && b[0] as int + 256 * b[1] as int == n
  {
    [(n % 256) as byte, (n / 256) as byte]
  }

  /** Encoding and decoding are inverse in both directions. */
  lemma LeBytesRoundTrip(n: nat, b: seq<byte>)
    requires n < 0x1_0000 && |b| == 2
    ensures FromLeBytes(ToLeBytes(n)) == n
    ensures ToLeBytes(FromLeBytes(b)) == b
  {
  }

  /** The demo in `run`: the default `LightBulb<Off>` reports "off" and
      turns on; index 8 of a six-element array is refused; the bytes at
      4..6 of the eight-byte array decode to 0x7788. */
  lemma ConstGenScenario()
    ensures State(Off) == "off"
    ensures TurnOn(Off).Ok? && State(TurnOn(Off).value) == "on"
    ensures CustomIndex(8, [1 as byte, 2, 4, 8, 16, 32]) == Err(Rejected("Index is out of bounds!"))
    ensures var x: seq<byte> := [0x01, 0x03, 0x00, 0x00, 0x88, 0x77, 0x66, 0x55];
            CustomRangeIndex(4, 2, x).Ok? && FromLeBytes(CustomRangeIndex(4, 2, x).value) == 0x7788
  {
    var x: seq<byte> := [0x01, 0x03, 0x00, 0x00, 0x88, 0x77, 0x66, 0x55];
    assert CustomRangeIndex(4, 2, x).value == [0x88, 0x77];
  }
}

=== FILE: decimal.dfy ===
/** Decimal rendering of natural numbers, as Rust's `Display` and `Debug`
    write a `usize` in panic messages. */
module Decimals {

  /** A natural number in decimal, most significant digit first, as Rust's
      `Display` writes a `usize`. */
  function Decimal(n: nat): (r: string)
    ensures |r| >= 1 && forall k | 0 <= k < |r| :: '0' <= r[k] <= '9'
    ensures |r| >= 2 ==> r[0] != '0'
    decreases n
  {
    (if n < 10 then "" else Decimal(n / 10)) + [('0' as int + n % 10) as char]
  }

  /** Reading the digits back gives the number. */
  lemma {:induction false} DecimalDigits(n: nat)
    ensures Digits(Decimal(n)) == n
    decreases n
  {
    var r := Decimal(n);
    assert r[..|r| - 1] == if n < 10 then "" else Decimal(n / 10);
    if n >= 10 {
      DecimalDigits(n / 10);
    }
  }

  /** The value of a string of decimal digits: the inverse of `Decimal`. */
  function Digits(s: string): int
    decreases |s|
  {
    if |s| == 0 then 0 else 10 * Digits(s[..|s| - 1]) + (s[|s| - 1] as int - '0' as int)
  }
}

=== FILE: double_list.dfy ===
/** The double-ended linked list of `src/guide/linkedlist_double.rs`.

    The source links `Rc<RefCell<Node<T>>>` cells through `prev`/`next`
    handles. Here every cell lives in an arena `heap: map<nat, Node<T>>` and a
    handle is the arena id of the cell it points at; `nextId` is the first id
    that no cell has used yet. Dropping the last reference to a cell removes it
    from the arena.

    The operations are written against the cheap structural predicate
    `Closed` (every handle names a live cell, which `Rc` guarantees). Their
    meaning is stated by `Valid(l, ids)`, which says that `ids` lists the
    cells from head to tail, and by `Elements(l, ids)`, the values in that
    order: each `...Refines` lemma shows that an operation does to
    `Elements` what the same operation does to a `seq`. */
module DoubleList {
  import opened Wrappers

  /** One cell: the stored value and the handles to its neighbours. */
  datatype Node<T> = Node(data: T, prev: Option<nat>, next: Option<nat>)

  /** The list: the arena of live cells and the head and tail handles. */
  datatype List<T> = List(heap: map<nat, Node<T>>, head: Option<nat>, tail: Option<nat>, nextId: nat)

  /** A handle that is empty or names a live cell. */
  predicate Live<T>(l: List<T>, h: Option<nat>) {
    h.None? || h.value in l.heap
  }

  /** Every handle of the list names a live cell, and every id in use is below
      `nextId` (so `nextId` is never a live id). */
  predicate Closed<T>(l: List<T>) {
    && Live(l, l.head)
    && Live(l, l.tail)
    && forall id {:trigger l.heap[id]} | id in l.heap :: id < l.nextId && Live(l, l.heap[id].prev) && Live(l, l.heap[id].next)
  }

  /** No handle anywhere in the list names cell `id`: at this point the
      source's `Rc::try_unwrap` of that cell succeeds. */
  predicate Unreferenced<T>(l: List<T>, id: nat) {
    && l.head != Some(id)
    && l.tail != Some(id)
    && forall n | n in l.heap :: l.heap[n].prev != Some(id) && l.heap[n].next != Some(id)
  }

  /** No id occurs twice in `ids`. */
  ghost predicate Distinct(ids: seq<nat>) {
    forall i, j | 0 <= i < j < |ids| :: ids[i] != ids[j]
  }

  /** The live cells are exactly those listed in `ids`. */
  ghost predicate Covers<T>(l: List<T>, ids: seq<nat>) {
    forall id :: id in l.heap <==> id in ids
  }

  /** The head and tail handles name the first and last cells of `ids`. */
  ghost predicate Ends<T>(l: List<T>, ids: seq<nat>) {
    && l.head == (if |ids| == 0 then None else Some(ids[0]))
    && l.tail == (if |ids| == 0 then None else Some(ids[|ids| - 1]))
  }

  /** Each listed cell's `prev` names its predecessor in `ids`. */
  ghost predicate PrevLinked<T>(l: List<T>, ids: seq<nat>)
    requires Covers(l, ids)
  {
    forall k {:trigger l.heap[ids[k]]} | 0 <= k < |ids| ::
      l.heap[ids[k]].prev == (if k == 0 then None else Some(ids[k - 1]))
  }

  /** Each listed cell's `next` names its successor in `ids`. */
  ghost predicate NextLinked<T>(l: List<T>, ids: seq<nat>)
    requires Covers(l, ids)
  {
    forall k {:trigger l.heap[ids[k]]} | 0 <= k < |ids| ::
      l.heap[ids[k]].next == (if k == |ids| - 1 then None else Some(ids[k + 1]))
  }

  /** Each listed cell's `prev`/`next` name its neighbours in `ids`. */
  ghost predicate Linked<T>(l: List<T>, ids: seq<nat>)
    requires Covers(l, ids)
  {
    PrevLinked(l, ids) && NextLinked(l, ids)
  }

  /** `ids` lists exactly the live cells, without repetition, from head to
      tail, and each cell's `prev`/`next` name its neighbours in that order. */
  ghost predicate Valid<T>(l: List<T>, ids: seq<nat>) {
    Closed(l) && Distinct(ids) && Covers(l, ids) && Ends(l, ids) && Linked(l, ids)
  }

  /** The values of the cells `ids`, in that order. */
  ghost function Values<T>(l: List<T>, ids: seq<nat>): (vs: seq<T>)
    requires forall k | 0 <= k < |ids| :: ids[k] in l.heap
    ensures |vs| == |ids|
  {
    if |ids| == 0 then [] else [l.heap[ids[0]].data] + Values(l, ids[1..])
  }

  /** The elements of a list described by `ids`, from head to tail. */
  ghost function Elements<T>(l: List<T>, ids: seq<nat>): (vs: seq<T>)
    requires Valid(l, ids)
    ensures |vs| == |ids|
  {
    Values(l, ids)
  }

  /** `List::new`: no cells, no head, no tail. */
  function New<T>(): (r: List<T>)
    ensures Valid(r, [])
    ensures r.head.None? && r.tail.None?
  {
    List(map[], None, None, 0)
  }

  /** `List::prepend`: a new cell becomes the head; on an empty list it is
      also the tail. */
  function Prepend<T>(l: List<T>, data: T): (r: List<T>)
    requires Closed(l)
    ensures Closed(r)
    ensures r.head == Some(l.nextId) && l.nextId !in l.heap
    ensures r.heap.Keys == l.heap.Keys + {l.nextId}
    ensures r.heap[l.nextId].data == data
    ensures l.head.None? ==> r.tail == r.head
    ensures l.head.Some? ==> r.tail == l.tail
  {
    var id := l.nextId;
    match l.head
    case Some(prior) =>
      var heap := l.heap[prior := l.heap[prior].(prev := Some(id))];
      List(heap[id := Node(data, None, Some(prior))], Some(id), l.tail, id + 1)
    case None =>
      List(l.heap[id := Node(data, None, None)], Some(id), Some(id), id + 1)
  }

  /** `List::push`: a new cell becomes the tail; on an empty list it is also
      the head. */
  function Push<T>(l: List<T>, data: T): (r: List<T>)
    requires Closed(l)
    ensures Closed(r)
    ensures r.tail == Some(l.nextId) && l.nextId !in l.heap
    ensures r.heap.Keys == l.heap.Keys + {l.nextId}
    ensures r.heap[l.nextId].data == data
    ensures l.tail.None? ==> r.head == r.tail
    ensures l.tail.Some? ==> r.head == l.head
  {
    var id := l.nextId;
    match l.tail
    case Some(prior) =>
      var heap := l.heap[prior := l.heap[prior].(next := Some(id))];
      List(heap[id := Node(data, Some(prior), None)], l.head, Some(id), id + 1)
    case None =>
      List(l.heap[id := Node(data, None, None)], Some(id), Some(id), id + 1)
  }

  /** Frees cell `id`, which nothing references any more. */
  function Free<T>(l: List<T>, id: nat): (r: List<T>)
    requires Closed(l) && id in l.heap && Unreferenced(l, id)
    ensures Closed(r)
    ensures r.heap.Keys == l.heap.Keys - {id}
    ensures |r.heap| == |l.heap| - 1
    ensures forall n | n in r.heap :: r.heap[n] == l.heap[n]
    ensures r.head == l.head && r.tail == l.tail && r.nextId == l.nextId
  {
    var heap := map n | n in l.heap && n != id :: l.heap[n];
    assert heap.Keys == l.heap.Keys - {id};
    l.(heap := heap)
  }

  /** The unlinking half of `List::pop`: the tail handle is taken, the old
      tail's `prev` is taken, and that predecessor (if any) loses its `next`
      and becomes the tail; with no predecessor the head is cleared. */
  function UnlinkTail<T>(l: List<T>): (r: List<T>)
    requires Closed(l) && l.tail.Some?
    ensures Closed(r)
    ensures r.heap.Keys == l.heap.Keys && r.nextId == l.nextId
  {
    var t := l.tail.value;
    var n := l.heap[t];
    var l1 := l.(tail := None, heap := l.heap[t := n.(prev := None)]);
    match n.prev
    case Some(newTail) => l1.(heap := l1.heap[newTail := l1.heap[newTail].(next := None)], tail := Some(newTail))
    case None => l1.(head := None)
  }

  /** `List::pop`: unlinks the tail cell, then takes the value out of it with
      `Rc::try_unwrap(..).ok().unwrap()`, which panics if any handle to the
      cell is left. The predecessor is borrowed while the old tail's borrow is
      still held, which panics if the two are one cell. */
  function Pop<T>(l: List<T>): (r: Result<(List<T>, Option<T>), Panic>)
    requires Closed(l)
    ensures r.Ok? ==> Closed(r.value.0)
    ensures l.tail.None? ==> r == Ok((l, None))
    ensures l.tail.Some? && r.Ok? ==>
              && r.value.1 == Some(l.heap[l.tail.value].data)
              && r.value.0.heap.Keys == l.heap.Keys - {l.tail.value}
              && |r.value.0.heap| < |l.heap|
  {
    match l.tail
    case None => Ok((l, None))
    case Some(t) =>
      if l.heap[t].prev == Some(t) then Err(Panic("already borrowed: BorrowMutError"))
      else
        var l2 := UnlinkTail(l);
        if Unreferenced(l2, t) then Ok((Free(l2, t), Some(l.heap[t].data)))
        else Err(Panic("called `Option::unwrap()` on a `None` value"))
  }

  /** The unlinking half of `List::shift`, the mirror image of `UnlinkTail`. */
  function UnlinkHead<T>(l: List<T>): (r: List<T>)
    requires Closed(l) && l.head.Some?
    ensures Closed(r)
    ensures r.heap.Keys == l.heap.Keys && r.nextId == l.nextId
  {
    var h := l.head.value;
    var n := l.heap[h];
    var l1 := l.(head := None, heap := l.heap[h := n.(next := None)]);
    match n.next
    case Some(newHead) => l1.(heap := l1.heap[newHead := l1.heap[newHead].(prev := None)], head := Some(newHead))
    case None => l1.(tail := None)
  }

  /** `List::shift`: the mirror image of `Pop` at the head. */
  function Shift<T>(l: List<T>): (r: Result<(List<T>, Option<T>), Panic>)
    requires Closed(l)
    ensures r.Ok? ==> Closed(r.value.0)
    ensures l.head.None? ==> r == Ok((l, None))
    ensures l.head.Some? && r.Ok? ==>
              && r.value.1 == Some(l.heap[l.head.value].data)
              && r.value.0.heap.Keys == l.heap.Keys - {l.head.value}
              && |r.value.0.heap| < |l.heap|
  {
    match l.head
    case None => Ok((l, None))
    case Some(h) =>
      if l.heap[h].next == Some(h) then Err(Panic("already borrowed: BorrowMutError"))
      else
        var l2 := UnlinkHead(l);
        if Unreferenced(l2, h) then Ok((Free(l2, h), Some(l.heap[h].data)))
        else Err(Panic("called `Option::unwrap()` on a `None` value"))
  }

  /** `List::peek_front`: the head cell's value, if any. */
  function PeekFront<T>(l: List<T>): Option<T>
    requires Closed(l)
  {
    match l.head
    case Some(h) => Some(l.heap[h].data)
    case None => None
  }

  /** `List::peek_back`: the tail cell's value, if any. */
  function PeekBack<T>(l: List<T>): Option<T>
    requires Closed(l)
  {
    match l.tail
    case Some(t) => Some(l.heap[t].data)
    case None => None
  }

  /** A write of `v` through the `RefMut` returned by `List::peek_front_mut`;
      with no head there is no `RefMut` and nothing is written. */
  function SetFront<T>(l: List<T>, v: T): (r: List<T>)
    requires Closed(l)
    ensures Closed(r)
  {
    match l.head
    case Some(h) => l.(heap := l.heap[h := l.heap[h].(data := v)])
    case None => l
  }

  /** A write of `v` through the `RefMut` returned by `List::peek_back_mut`. */
  function SetBack<T>(l: List<T>, v: T): (r: List<T>)
    requires Closed(l)
    ensures Closed(r)
  {
    match l.tail
    case Some(t) => l.(heap := l.heap[t := l.heap[t].(data := v)])
    case None => l
  }

  /** `impl Drop for List`: shifts until `shift` returns `None`. The values
      shifted out are returned with the emptied list. */
  function Drain<T>(l: List<T>): (r: Result<(List<T>, seq<T>), Panic>)
    requires Closed(l)
    ensures r.Ok? ==> Closed(r.value.0) && r.value.0.head.None?
    ensures r.Ok? ==> |r.value.1| == |l.heap| - |r.value.0.heap|
    decreases |l.heap|
  {
    match Shift(l)
    case Err(p) => Err(p)
    case Ok((l', v)) =>
      match v
      case None => Ok((l', []))
      case Some(x) =>
        match Drain(l')
        case Err(p) => Err(p)
        case Ok((l'', xs)) => Ok((l'', [x] + xs))
  }

  /** `IntoIter<T>`: the consuming iterator, which owns the list. */
  datatype IntoIter<T> = IntoIter(list: List<T>)

  /** `List::into_iter`. */
  function IntoIterator<T>(l: List<T>): IntoIter<T> {
    IntoIter(l)
  }

  /** `Iterator::next` for `IntoIter`: a `shift` of the owned list. */
  function Next<T>(it: IntoIter<T>): (r: Result<(IntoIter<T>, Option<T>), Panic>)
    requires Closed(it.list)
    ensures r.Ok? ==> Closed(r.value.0.list)
  {
    match Shift(it.list)
    case Ok((l, v)) => Ok((IntoIter(l), v))
    case Err(p) => Err(p)
  }

  /** `DoubleEndedIterator::next_back` for `IntoIter`: a `pop` of the owned list. */
  function NextBack<T>(it: IntoIter<T>): (r: Result<(IntoIter<T>, Option<T>), Panic>)
    requires Closed(it.list)
    ensures r.Ok? ==> Closed(r.value.0.list)
  {
    match Pop(it.list)
    case Ok((l, v)) => Ok((IntoIter(l), v))
    case Err(p) => Err(p)
  }

  // ---------------------------------------------------------------------
  // Each operation against its `seq` meaning
  // ---------------------------------------------------------------------

  /** A list described by `ids` satisfies the preconditions of `Values`. */
  lemma ValidCovers<T>(l: List<T>, ids: seq<nat>)
    requires Valid(l, ids)
    ensures forall k | 0 <= k < |ids| :: ids[k] in l.heap
  {
  }

  /** Position `k` of `Values` is the value of the `k`-th listed cell. */
  lemma {:induction false} ValuesAt<T>(l: List<T>, ids: seq<nat>)
    requires forall k | 0 <= k < |ids| :: ids[k] in l.heap
    ensures |Values(l, ids)| == |ids|
    ensures forall k | 0 <= k < |ids| :: Values(l, ids)[k] == l.heap[ids[k]].data
  {
    if |ids| > 0 {
      ValuesAt(l, ids[1..]);
    }
  }

  /** `Values` reads only the values of the listed cells. */
  lemma {:induction false} ValuesFrame<T>(l: List<T>, r: List<T>, ids: seq<nat>)
    requires forall k | 0 <= k < |ids| :: ids[k] in l.heap && ids[k] in r.heap && r.heap[ids[k]].data == l.heap[ids[k]].data
    ensures Values(r, ids) == Values(l, ids)
  {
    if |ids| > 0 {
      ValuesFrame(l, r, ids[1..]);
    }
  }

  /** `Values` of a concatenation of orders. */
  lemma {:induction false} ValuesAppend<T>(l: List<T>, a: seq<nat>, b: seq<nat>)
    requires forall k | 0 <= k < |a| :: a[k] in l.heap
    requires forall k | 0 <= k < |b| :: b[k] in l.heap
    ensures forall k | 0 <= k < |a + b| :: (a + b)[k] in l.heap
    ensures Values(l, a + b) == Values(l, a) + Values(l, b)
  {
    if |a| > 0 {
      assert (a + b)[1..] == a[1..] + b;
      ValuesAppend(l, a[1..], b);
    } else {
      assert a + b == b;
    }
  }

  /** Cells `extra` added to an arena without touching the values of the
      cells `ids` put `xs` in front of or behind the elements of `ids`. */
  lemma AddValues<T>(l: List<T>, ids: seq<nat>, r: List<T>, extra: seq<nat>, xs: seq<T>)
    requires forall k | 0 <= k < |ids| :: ids[k] in l.heap
    requires forall m | m in l.heap :: m in r.heap && r.heap[m].data == l.heap[m].data
    requires |extra| == |xs|
    requires forall k | 0 <= k < |extra| :: extra[k] in r.heap && r.heap[extra[k]].data == xs[k]
    ensures forall k | 0 <= k < |extra + ids| :: (extra + ids)[k] in r.heap
    ensures forall k | 0 <= k < |ids + extra| :: (ids + extra)[k] in r.heap
    ensures Values(r, extra + ids) == xs + Values(l, ids)
    ensures Values(r, ids + extra) == Values(l, ids) + xs
  {
    ValuesFrame(l, r, ids);
    ValuesAt(r, extra);
    ValuesAppend(r, extra, ids);
    ValuesAppend(r, ids, extra);
  }

  /** `r` is `l` with a cell `id` holding `x` put in front of the cells
      `ids`: the new cell has no `prev` and names the old first cell as its
      `next`, the old first cell names it as `prev`, nothing else changes. */
  ghost predicate ConsShape<T>(l: List<T>, ids: seq<nat>, r: List<T>, id: nat, x: T) {
    && id !in ids && id in r.heap
    && r.heap.Keys == l.heap.Keys + {id}
    && r.heap[id] == Node(x, None, if |ids| == 0 then None else Some(ids[0]))
    && (|ids| > 0 ==> ids[0] in l.heap && ids[0] in r.heap && r.heap[ids[0]] == l.heap[ids[0]].(prev := Some(id)))
    && (forall m | m in l.heap && (|ids| == 0 || m != ids[0]) :: m in r.heap && r.heap[m] == l.heap[m])
    && r.head == Some(id)
    && r.tail == (if |ids| == 0 then Some(id) else l.tail)
  }

  /** `r` is `l` with a cell `id` holding `x` put after the cells `ids`: the
      mirror image of `ConsShape`. */
  ghost predicate SnocShape<T>(l: List<T>, ids: seq<nat>, r: List<T>, id: nat, x: T) {
    && id !in ids && id in r.heap
    && r.heap.Keys == l.heap.Keys + {id}
    && r.heap[id] == Node(x, if |ids| == 0 then None else Some(ids[|ids| - 1]), None)
    && (|ids| > 0 ==> ids[|ids| - 1] in l.heap && ids[|ids| - 1] in r.heap && r.heap[ids[|ids| - 1]] == l.heap[ids[|ids| - 1]].(next := Some(id)))
    && (forall m | m in l.heap && (|ids| == 0 || m != ids[|ids| - 1]) :: m in r.heap && r.heap[m] == l.heap[m])
    && r.tail == Some(id)
    && r.head == (if |ids| == 0 then Some(id) else l.head)
  }

  /** `prepend` on a described list has the shape `ConsShape` with the fresh
      id `nextId`. */
  lemma PrependShape<T>(l: List<T>, ids: seq<nat>, x: T)
    requires Valid(l, ids)
    ensures ConsShape(l, ids, Prepend(l, x), l.nextId, x)
  {
  }

  /** `push` on a described list has the shape `SnocShape` with the fresh id
      `nextId`. */
  lemma PushShape<T>(l: List<T>, ids: seq<nat>, x: T)
    requires Valid(l, ids)
    ensures SnocShape(l, ids, Push(l, x), l.nextId, x)
  {
  }

  /** The order `[id] + ids` lists the cells of `r` without repetition. */
  lemma ConsCovers<T>(l: List<T>, ids: seq<nat>, r: List<T>, id: nat, x: T)
    requires Distinct(ids) && Covers(l, ids) && ConsShape(l, ids, r, id, x)
    ensures Distinct([id] + ids) && Covers(r, [id] + ids)
  {
    var ids' := [id] + ids;
    forall i, j | 0 <= i < j < |ids'|
      ensures ids'[i] != ids'[j]
    {
      assert ids'[j] == ids[j - 1];
      if i > 0 {
        assert ids'[i] == ids[i - 1];
      }
    }
    forall m
      ensures m in r.heap <==> m in ids'
    {
      assert m in ids' <==> m == id || m in ids;
    }
  }

  /** The order `ids + [id]` lists the cells of `r` without repetition. */
  lemma SnocCovers<T>(l: List<T>, ids: seq<nat>, r: List<T>, id: nat, x: T)
    requires Distinct(ids) && Covers(l, ids) && SnocShape(l, ids, r, id, x)
    ensures Distinct(ids + [id]) && Covers(r, ids + [id])
  {
    var ids' := ids + [id];
    forall i, j | 0 <= i < j < |ids'|
      ensures ids'[i] != ids'[j]
    {
      assert ids'[i] == ids[i];
      if j < |ids| {
        assert ids'[j] == ids[j];
      }
    }
    forall m
      ensures m in r.heap <==> m in ids'
    {
      assert m in ids' <==> m == id || m in ids;
    }
  }

  /** After `ConsShape`, each cell's `prev` names its predecessor in
      `[id] + ids`. */
  lemma ConsPrev<T>(l: List<T>, ids: seq<nat>, r: List<T>, id: nat, x: T)
    requires Distinct(ids) && Covers(l, ids) && PrevLinked(l, ids)
    requires ConsShape(l, ids, r, id, x) && Covers(r, [id] + ids)
    ensures PrevLinked(r, [id] + ids)
  {
    var ids' := [id] + ids;
    forall k | 0 < k < |ids'|
      ensures r.heap[ids'[k]].prev == Some(ids'[k - 1])
    {
      assert ids'[k] == ids[k - 1];
      if k > 1 {
        assert ids[k - 1] != ids[0] && ids'[k - 1] == ids[k - 2];
      }
    }
  }

  /** After `ConsShape`, each cell's `next` names its successor in
      `[id] + ids`. */
  lemma ConsNext<T>(l: List<T>, ids: seq<nat>, r: List<T>, id: nat, x: T)
    requires Distinct(ids) && Covers(l, ids) && NextLinked(l, ids)
    requires ConsShape(l, ids, r, id, x) && Covers(r, [id] + ids)
    ensures NextLinked(r, [id] + ids)
  {
    var ids' := [id] + ids;
    forall k | 0 <= k < |ids'|
      ensures r.heap[ids'[k]].next == (if k == |ids'| - 1 then None else Some(ids'[k + 1]))
    {
      if k == 0 {
        if |ids| > 0 {
          assert ids'[1] == ids[0];
        }
      } else {
        assert ids'[k] == ids[k - 1];
        if k < |ids'| - 1 {
          assert ids'[k + 1] == ids[k];
        }
      }
    }
  }

  /** After `SnocShape`, each cell's `prev` names its predecessor in
      `ids + [id]`. */
  lemma SnocPrev<T>(l: List<T>, ids: seq<nat>, r: List<T>, id: nat, x: T)
    requires Distinct(ids) && Covers(l, ids) && PrevLinked(l, ids)
    requires SnocShape(l, ids, r, id, x) && Covers(r, ids + [id])
    ensures PrevLinked(r, ids + [id])
  {
    var ids' := ids + [id];
    forall k | 0 <= k < |ids'|
      ensures r.heap[ids'[k]].prev == (if k == 0 then None else Some(ids'[k - 1]))
    {
      if k == |ids| {
        if |ids| > 0 {
          assert ids'[k - 1] == ids[|ids| - 1];
        }
      } else {
        assert ids'[k] == ids[k];
        if k > 0 {
          assert ids'[k - 1] == ids[k - 1];
        }
      }
    }
  }

  /** After `SnocShape`, each cell's `next` names its successor in
      `ids + [id]`. */
  lemma SnocNext<T>(l: List<T>, ids: seq<nat>, r: List<T>, id: nat, x: T)
    requires Distinct(ids) && Covers(l, ids) && NextLinked(l, ids)
    requires SnocShape(l, ids, r, id, x) && Covers(r, ids + [id])
    ensures NextLinked(r, ids + [id])
  {
    var ids' := ids + [id];
    var last := |ids| - 1;
    forall k | 0 <= k < |ids'| - 1
      ensures r.heap[ids'[k]].next == Some(ids'[k + 1])
    {
      assert ids'[k] == ids[k];
      if k < last {
        assert ids[k] != ids[last] && ids'[k + 1] == ids[k + 1];
      }
    }
  }

  /** After `ConsShape` the new cell is the head; the tail is the old one,
      or the new cell in a list that was empty. */
  lemma ConsEnds<T>(l: List<T>, ids: seq<nat>, r: List<T>, id: nat, x: T)
    requires Ends(l, ids) && ConsShape(l, ids, r, id, x)
    ensures Ends(r, [id] + ids)
  {
    if |ids| > 0 {
      assert ([id] + ids)[|ids|] == ids[|ids| - 1];
    }
  }

  /** After `SnocShape` the new cell is the tail; the head is the old one,
      or the new cell in a list that was empty. */
  lemma SnocEnds<T>(l: List<T>, ids: seq<nat>, r: List<T>, id: nat, x: T)
    requires Ends(l, ids) && SnocShape(l, ids, r, id, x)
    ensures Ends(r, ids + [id])
  {
    if |ids| > 0 {
      assert (ids + [id])[0] == ids[0];
    }
  }

  /** After `ConsShape` or `SnocShape` every old cell keeps its value. */
  lemma AddedKeepsValues<T>(l: List<T>, ids: seq<nat>, r: List<T>, id: nat, x: T)
    requires ConsShape(l, ids, r, id, x) || SnocShape(l, ids, r, id, x)
    ensures forall m | m in l.heap :: m in r.heap && r.heap[m].data == l.heap[m].data
  {
  }

  /** `prepend` puts its value in front of the elements; the new cell is the
      first one of the order. */
  lemma PrependRefines<T>(l: List<T>, ids: seq<nat>, x: T)
    requires Valid(l, ids)
    ensures Valid(Prepend(l, x), [l.nextId] + ids)
    ensures Elements(Prepend(l, x), [l.nextId] + ids) == [x] + Elements(l, ids)
  {
    var r := Prepend(l, x);
    PrependShape(l, ids, x);
    ConsCovers(l, ids, r, l.nextId, x);
    ConsPrev(l, ids, r, l.nextId, x);
    ConsNext(l, ids, r, l.nextId, x);
    ConsEnds(l, ids, r, l.nextId, x);
    ValidCovers(l, ids);
    AddedKeepsValues(l, ids, r, l.nextId, x);
    AddValues(l, ids, r, [l.nextId], [x]);
  }

  /** `push` puts its value after the elements; the new cell is the last one
      of the order. */
  lemma PushRefines<T>(l: List<T>, ids: seq<nat>, x: T)
    requires Valid(l, ids)
    ensures Valid(Push(l, x), ids + [l.nextId])
    ensures Elements(Push(l, x), ids + [l.nextId]) == Elements(l, ids) + [x]
  {
    var r := Push(l, x);
    PushShape(l, ids, x);
    SnocCovers(l, ids, r, l.nextId, x);
    SnocPrev(l, ids, r, l.nextId, x);
    SnocNext(l, ids, r, l.nextId, x);
    SnocEnds(l, ids, r, l.nextId, x);
    ValidCovers(l, ids);
    AddedKeepsValues(l, ids, r, l.nextId, x);
    AddValues(l, ids, r, [l.nextId], [x]);
  }

  /** Every cell of `l` other than `a` and `b` is in `r` unchanged. */
  ghost predicate SameExcept<T>(l: List<T>, r: List<T>, a: nat, b: nat) {
    forall m | m in l.heap && m != a && m != b :: m in r.heap && r.heap[m] == l.heap[m]
  }

  /** What `UnlinkHead` does to the arena: the old head loses its `next`; its
      successor, if it has one other than itself, loses its `prev` and becomes
      the head; without a successor head and tail are cleared. */
  lemma UnlinkHeadShape<T>(l: List<T>)
    requires Closed(l) && l.head.Some?
    ensures var h := l.head.value;
            var r := UnlinkHead(l);
            && r.heap.Keys == l.heap.Keys && r.nextId == l.nextId
            && (l.heap[h].next != Some(h) ==> r.heap[h] == l.heap[h].(next := None))
            && (l.heap[h].next.None? ==> r.head.None? && r.tail.None? && SameExcept(l, r, h, h))
            && (l.heap[h].next.Some? && l.heap[h].next.value != h ==>
                  && r.head == l.heap[h].next
                  && r.tail == l.tail
                  && r.heap[l.heap[h].next.value] == l.heap[l.heap[h].next.value].(prev := None)
                  && SameExcept(l, r, h, l.heap[h].next.value))
  {
  }

  /** What `UnlinkTail` does to the arena: the mirror image of
      `UnlinkHeadShape`. */
  lemma UnlinkTailShape<T>(l: List<T>)
    requires Closed(l) && l.tail.Some?
    ensures var t := l.tail.value;
            var r := UnlinkTail(l);
            && r.heap.Keys == l.heap.Keys && r.nextId == l.nextId
            && (l.heap[t].prev != Some(t) ==> r.heap[t] == l.heap[t].(prev := None))
            && (l.heap[t].prev.None? ==> r.head.None? && r.tail.None? && SameExcept(l, r, t, t))
            && (l.heap[t].prev.Some? && l.heap[t].prev.value != t ==>
                  && r.tail == l.heap[t].prev
                  && r.head == l.head
                  && r.heap[l.heap[t].prev.value] == l.heap[l.heap[t].prev.value].(next := None)
                  && SameExcept(l, r, t, l.heap[t].prev.value))
  {
  }

  /** `r` is a described list `l` with its first cell unlinked as
      `UnlinkHeadShape` says. */
  ghost predicate HeadUnlinked<T>(l: List<T>, ids: seq<nat>, r: List<T>)
    requires |ids| > 0
  {
    && r.heap.Keys == l.heap.Keys
    && ids[0] in l.heap && ids[0] in r.heap
    && r.heap[ids[0]] == l.heap[ids[0]].(next := None)
    && (|ids| == 1 ==> r.head.None? && r.tail.None? && SameExcept(l, r, ids[0], ids[0]))
    && (|ids| > 1 ==>
          && ids[1] in l.heap && ids[1] in r.heap
          && r.head == Some(ids[1]) && r.tail == l.tail
          && r.heap[ids[1]] == l.heap[ids[1]].(prev := None)
          && SameExcept(l, r, ids[0], ids[1]))
  }

  /** `r` is a described list `l` with its last cell unlinked as
      `UnlinkTailShape` says. */
  ghost predicate TailUnlinked<T>(l: List<T>, ids: seq<nat>, r: List<T>)
    requires |ids| > 0
  {
    var last := |ids| - 1;
    && r.heap.Keys == l.heap.Keys
    && ids[last] in l.heap && ids[last] in r.heap
    && r.heap[ids[last]] == l.heap[ids[last]].(prev := None)
    && (|ids| == 1 ==> r.head.None? && r.tail.None? && SameExcept(l, r, ids[last], ids[last]))
    && (|ids| > 1 ==>
          && ids[last - 1] in l.heap && ids[last - 1] in r.heap
          && r.tail == Some(ids[last - 1]) && r.head == l.head
          && r.heap[ids[last - 1]] == l.heap[ids[last - 1]].(next := None)
          && SameExcept(l, r, ids[last], ids[last - 1]))
  }

  /** In a described list the head cell is not its own successor, and
      unlinking it leaves the list `HeadUnlinked`. */
  lemma UnlinkHeadDescribed<T>(l: List<T>, ids: seq<nat>)
    requires Valid(l, ids) && |ids| > 0
    ensures l.heap[ids[0]].next != Some(ids[0])
    ensures HeadUnlinked(l, ids, UnlinkHead(l))
  {
    if |ids| > 1 {
      assert ids[1] != ids[0];
    }
    UnlinkHeadShape(l);
  }

  /** In a described list the tail cell is not its own predecessor, and
      unlinking it leaves the list `TailUnlinked`. */
  lemma UnlinkTailDescribed<T>(l: List<T>, ids: seq<nat>)
    requires Valid(l, ids) && |ids| > 0
    ensures l.heap[ids[|ids| - 1]].prev != Some(ids[|ids| - 1])
    ensures TailUnlinked(l, ids, UnlinkTail(l))
  {
    if |ids| > 1 {
      assert ids[|ids| - 2] != ids[|ids| - 1];
    }
    UnlinkTailShape(l);
  }

  /** Once the first cell is unlinked, no handle names it. */
  lemma HeadUnreferenced<T>(l: List<T>, ids: seq<nat>, r: List<T>)
    requires Distinct(ids) && Covers(l, ids) && Ends(l, ids) && Linked(l, ids) && |ids| > 0
    requires HeadUnlinked(l, ids, r)
    ensures Unreferenced(r, ids[0])
  {
    forall n | n in r.heap
      ensures r.heap[n].prev != Some(ids[0]) && r.heap[n].next != Some(ids[0])
    {
      var k :| 0 <= k < |ids| && ids[k] == n;
      if k > 1 {
        assert ids[k - 1] != ids[0];
      }
      if k + 1 < |ids| {
        assert ids[k + 1] != ids[0];
      }
    }
    if |ids| > 1 {
      assert ids[1] != ids[0] && ids[|ids| - 1] != ids[0];
    }
  }

  /** Once the last cell is unlinked, no handle names it. */
  lemma TailUnreferenced<T>(l: List<T>, ids: seq<nat>, r: List<T>)
    requires Distinct(ids) && Covers(l, ids) && Ends(l, ids) && Linked(l, ids) && |ids| > 0
    requires TailUnlinked(l, ids, r)
    ensures Unreferenced(r, ids[|ids| - 1])
  {
    var last := |ids| - 1;
    forall n | n in r.heap
      ensures r.heap[n].prev != Some(ids[last]) && r.heap[n].next != Some(ids[last])
    {
      var k :| 0 <= k < |ids| && ids[k] == n;
      if 0 < k {
        assert ids[k - 1] != ids[last];
      }
      if k + 1 < last {
        assert ids[k + 1] != ids[last];
      }
    }
    if |ids| > 1 {
      assert ids[last - 1] != ids[last] && ids[0] != ids[last];
    }
  }

  /** `f` is `r` with cell `id` freed, as `Free` says. */
  ghost predicate FreedFrom<T>(r: List<T>, f: List<T>, id: nat) {
    && f.heap.Keys == r.heap.Keys - {id}
    && (forall n | n in f.heap :: f.heap[n] == r.heap[n])
    && f.head == r.head && f.tail == r.tail
  }

  /** Freeing the unlinked first cell leaves exactly the cells `ids[1..]`. */
  lemma RestCoversShift<T>(l: List<T>, ids: seq<nat>, r: List<T>, f: List<T>)
    requires Distinct(ids) && Covers(l, ids) && |ids| > 0
    requires r.heap.Keys == l.heap.Keys && FreedFrom(r, f, ids[0])
    ensures Distinct(ids[1..]) && Covers(f, ids[1..])
  {
    var rest := ids[1..];
    forall id
      ensures id in f.heap <==> id in rest
    {
      if id in rest {
        var k :| 0 <= k < |rest| && rest[k] == id;
        assert ids[k + 1] == id && ids[0] != ids[k + 1];
      }
    }
  }

  /** After the first cell is unlinked and freed, the second cell has lost
      its `prev` and every later cell is as it was. */
  lemma ShiftedCells<T>(l: List<T>, ids: seq<nat>, r: List<T>, f: List<T>)
    requires Distinct(ids) && Covers(l, ids) && |ids| > 0
    requires HeadUnlinked(l, ids, r) && FreedFrom(r, f, ids[0])
    ensures forall k | 1 <= k < |ids| ::
              ids[k] in f.heap && f.heap[ids[k]] == (if k == 1 then l.heap[ids[k]].(prev := None) else l.heap[ids[k]])
  {
    forall k | 1 <= k < |ids|
      ensures ids[k] in f.heap && f.heap[ids[k]] == (if k == 1 then l.heap[ids[k]].(prev := None) else l.heap[ids[k]])
    {
      assert ids[k] != ids[0];
      if k > 1 {
        assert ids[k] != ids[1];
      }
    }
  }

  /** The cells `ids[1..]`, when the first of them has lost its `prev` and the
      others are as in a described list, are linked in that order and hold
      the values they had. */
  lemma RestLinkedShift<T>(l: List<T>, ids: seq<nat>, f: List<T>)
    requires Covers(l, ids) && Ends(l, ids) && Linked(l, ids) && |ids| > 0
    requires forall k | 1 <= k < |ids| ::
               ids[k] in f.heap && f.heap[ids[k]] == (if k == 1 then l.heap[ids[k]].(prev := None) else l.heap[ids[k]])
    requires f.head == (if |ids| == 1 then None else Some(ids[1]))
    requires f.tail == (if |ids| == 1 then None else l.tail)
    requires Covers(f, ids[1..])
    ensures Ends(f, ids[1..]) && Linked(f, ids[1..])
    ensures forall k | 0 <= k < |ids[1..]| :: ids[1..][k] in l.heap && ids[1..][k] in f.heap && f.heap[ids[1..][k]].data == l.heap[ids[1..][k]].data
  {
    var rest := ids[1..];
    forall k | 0 <= k < |rest|
      ensures f.heap[rest[k]].prev == (if k == 0 then None else Some(rest[k - 1]))
      ensures f.heap[rest[k]].next == (if k == |rest| - 1 then None else Some(rest[k + 1]))
      ensures rest[k] in l.heap && f.heap[rest[k]].data == l.heap[rest[k]].data
    {
      assert rest[k] == ids[k + 1];
    }
  }

  /** Freeing the unlinked last cell leaves exactly the cells
      `ids[..|ids| - 1]`. */
  lemma RestCoversPop<T>(l: List<T>, ids: seq<nat>, r: List<T>, f: List<T>)
    requires Distinct(ids) && Covers(l, ids) && |ids| > 0
    requires r.heap.Keys == l.heap.Keys && FreedFrom(r, f, ids[|ids| - 1])
    ensures Distinct(ids[..|ids| - 1]) && Covers(f, ids[..|ids| - 1])
  {
    var last := |ids| - 1;
    var rest := ids[..last];
    forall id
      ensures id in f.heap <==> id in rest
    {
      if id in rest {
        var k :| 0 <= k < |rest| && rest[k] == id;
        assert ids[k] == id && ids[last] != ids[k];
      }
    }
  }

  /** After the last cell is unlinked and freed, the cell before it has lost
      its `next` and every earlier cell is as it was. */
  lemma PoppedCells<T>(l: List<T>, ids: seq<nat>, r: List<T>, f: List<T>)
    requires Distinct(ids) && Covers(l, ids) && |ids| > 0
    requires TailUnlinked(l, ids, r) && FreedFrom(r, f, ids[|ids| - 1])
    ensures forall k | 0 <= k < |ids| - 1 ::
              ids[k] in f.heap && f.heap[ids[k]] == (if k == |ids| - 2 then l.heap[ids[k]].(next := None) else l.heap[ids[k]])
  {
    var last := |ids| - 1;
    forall k | 0 <= k < last
      ensures ids[k] in f.heap && f.heap[ids[k]] == (if k == last - 1 then l.heap[ids[k]].(next := None) else l.heap[ids[k]])
    {
      assert ids[k] != ids[last];
      if k < last - 1 {
        assert ids[k] != ids[last - 1];
      }
    }
  }

  /** The cells `ids[..|ids| - 1]`, when the last of them has lost its `next`
      and the others are as in a described list, keep their predecessors and
      values. */
  lemma RestPrevPop<T>(l: List<T>, ids: seq<nat>, f: List<T>)
    requires Covers(l, ids) && PrevLinked(l, ids) && |ids| > 0
    requires forall k | 0 <= k < |ids| - 1 ::
               ids[k] in f.heap && f.heap[ids[k]] == (if k == |ids| - 2 then l.heap[ids[k]].(next := None) else l.heap[ids[k]])
    requires Covers(f, ids[..|ids| - 1])
    ensures PrevLinked(f, ids[..|ids| - 1])
    ensures var rest := ids[..|ids| - 1];
            forall k | 0 <= k < |rest| :: rest[k] in l.heap && rest[k] in f.heap && f.heap[rest[k]].data == l.heap[rest[k]].data
  {
    var rest := ids[..|ids| - 1];
    forall k | 0 <= k < |rest|
      ensures f.heap[rest[k]].prev == (if k == 0 then None else Some(rest[k - 1]))
      ensures rest[k] in l.heap && f.heap[rest[k]].data == l.heap[rest[k]].data
    {
      assert rest[k] == ids[k];
      if k > 0 {
        assert rest[k - 1] == ids[k - 1];
      }
    }
  }

  /** The cells `ids[..|ids| - 1]`, when the last of them has lost its `next`
      and the others are as in a described list, are linked forward in that
      order. */
  lemma RestNextPop<T>(l: List<T>, ids: seq<nat>, f: List<T>)
    requires Covers(l, ids) && NextLinked(l, ids) && |ids| > 0
    requires forall k | 0 <= k < |ids| - 1 ::
               ids[k] in f.heap && f.heap[ids[k]] == (if k == |ids| - 2 then l.heap[ids[k]].(next := None) else l.heap[ids[k]])
    requires Covers(f, ids[..|ids| - 1])
    ensures NextLinked(f, ids[..|ids| - 1])
  {
    var rest := ids[..|ids| - 1];
    forall k | 0 <= k < |rest|
      ensures f.heap[rest[k]].next == (if k == |rest| - 1 then None else Some(rest[k + 1]))
    {
      assert rest[k] == ids[k];
      if k + 1 < |rest| {
        assert rest[k + 1] == ids[k + 1];
      }
    }
  }

  /** After `pop`, the head is the old head and the tail is the cell before
      the old tail. */
  lemma RestEndsPop<T>(l: List<T>, ids: seq<nat>, f: List<T>)
    requires Ends(l, ids) && |ids| > 0
    requires f.tail == (if |ids| == 1 then None else Some(ids[|ids| - 2]))
    requires f.head == (if |ids| == 1 then None else l.head)
    ensures Ends(f, ids[..|ids| - 1])
  {
    var rest := ids[..|ids| - 1];
    if |rest| > 0 {
      assert rest[0] == ids[0] && rest[|rest| - 1] == ids[|ids| - 2];
    }
  }

  /** The values of a described list split into its first value and the rest,
      or into its last value and the others. */
  lemma ValuesEnds<T>(l: List<T>, ids: seq<nat>)
    requires forall k | 0 <= k < |ids| :: ids[k] in l.heap
    requires |ids| > 0
    ensures Values(l, ids) == [l.heap[ids[0]].data] + Values(l, ids[1..])
    ensures Values(l, ids) == Values(l, ids[..|ids| - 1]) + [l.heap[ids[|ids| - 1]].data]
  {
    var last := |ids| - 1;
    assert ids == ids[..last] + [ids[last]];
    ValuesAppend(l, ids[..last], [ids[last]]);
  }

  /** `shift` on an empty list returns `None` and changes nothing; otherwise
      it never panics, returns the first element and leaves the rest, with
      the removed cell freed. When the last element goes, head and tail are
      both cleared. */
  lemma ShiftRefines<T>(l: List<T>, ids: seq<nat>)
    requires Valid(l, ids)
    ensures Shift(l).Ok?
    ensures |ids| == 0 ==> Shift(l).value == (l, None)
    ensures |ids| > 0 ==>
              && Valid(Shift(l).value.0, ids[1..])
              && Shift(l).value.1 == Some(Elements(l, ids)[0])
              && Elements(Shift(l).value.0, ids[1..]) == Elements(l, ids)[1..]
    ensures |ids| == 1 ==> Shift(l).value.0.head.None? && Shift(l).value.0.tail.None?
  {
    if |ids| > 0 {
      var h := ids[0];
      UnlinkHeadDescribed(l, ids);
      var r := UnlinkHead(l);
      HeadUnreferenced(l, ids, r);
      var f := Free(r, h);
      assert Shift(l) == Ok((f, Some(l.heap[h].data)));
      RestCoversShift(l, ids, r, f);
      ShiftedCells(l, ids, r, f);
      RestLinkedShift(l, ids, f);
      ValuesFrame(l, f, ids[1..]);
      ValidCovers(l, ids);
      ValuesEnds(l, ids);
    }
  }

  /** `pop` on an empty list returns `None` and changes nothing; otherwise it
      never panics, returns the last element and leaves the others. */
  lemma PopRefines<T>(l: List<T>, ids: seq<nat>)
    requires Valid(l, ids)
    ensures Pop(l).Ok?
    ensures |ids| == 0 ==> Pop(l).value == (l, None)
    ensures |ids| > 0 ==>
              && Valid(Pop(l).value.0, ids[..|ids| - 1])
              && Pop(l).value.1 == Some(Elements(l, ids)[|ids| - 1])
              && Elements(Pop(l).value.0, ids[..|ids| - 1]) == Elements(l, ids)[..|ids| - 1]
    ensures |ids| == 1 ==> Pop(l).value.0.head.None? && Pop(l).value.0.tail.None?
  {
    if |ids| > 0 {
      var t := ids[|ids| - 1];
      UnlinkTailDescribed(l, ids);
      var r := UnlinkTail(l);
      TailUnreferenced(l, ids, r);
      var f := Free(r, t);
      assert Pop(l) == Ok((f, Some(l.heap[t].data)));
      RestCoversPop(l, ids, r, f);
      PoppedCells(l, ids, r, f);
      RestPrevPop(l, ids, f);
      RestNextPop(l, ids, f);
      RestEndsPop(l, ids, f);
      ValuesFrame(l, f, ids[..|ids| - 1]);
      ValidCovers(l, ids);
      ValuesEnds(l, ids);
    }
  }

  /** `peek_front` returns the first element (`None` on an empty list), which
      is exactly the value a following `shift` removes. */
  lemma PeekFrontRefines<T>(l: List<T>, ids: seq<nat>)
    requires Valid(l, ids)
    ensures PeekFront(l) == (if |ids| == 0 then None else Some(Elements(l, ids)[0]))
    ensures Shift(l).Ok? && PeekFront(l) == Shift(l).value.1
  {
    ShiftRefines(l, ids);
  }

  /** `peek_back` returns the last element (`None` on an empty list), which
      is exactly the value a following `pop` removes. */
  lemma PeekBackRefines<T>(l: List<T>, ids: seq<nat>)
    requires Valid(l, ids)
    ensures PeekBack(l) == (if |ids| == 0 then None else Some(Elements(l, ids)[|ids| - 1]))
    ensures Pop(l).Ok? && PeekBack(l) == Pop(l).value.1
  {
    PopRefines(l, ids);
  }

  /** `r` has the cells, links, ends and `nextId` of `l`; only stored values
      may differ. */
  ghost predicate SameLinks<T>(l: List<T>, r: List<T>) {
    && r.heap.Keys == l.heap.Keys
    && r.head == l.head && r.tail == l.tail && r.nextId == l.nextId
    && forall m | m in l.heap :: r.heap[m].prev == l.heap[m].prev && r.heap[m].next == l.heap[m].next
  }

  /** A list with the links of a described list is described by the same
      order. */
  lemma SameLinksValid<T>(l: List<T>, r: List<T>, ids: seq<nat>)
    requires Valid(l, ids) && SameLinks(l, r)
    ensures Valid(r, ids)
  {
    assert Covers(r, ids);
    forall k | 0 <= k < |ids|
      ensures r.heap[ids[k]].prev == l.heap[ids[k]].prev && r.heap[ids[k]].next == l.heap[ids[k]].next
    {
    }
  }

  /** The values of `ids` after the value of cell `ids[i]` alone is replaced
      by `v`. */
  lemma ValuesUpdate<T>(l: List<T>, r: List<T>, ids: seq<nat>, i: nat, v: T)
    requires Distinct(ids) && i < |ids|
    requires forall k | 0 <= k < |ids| :: ids[k] in l.heap
    requires r.heap.Keys == l.heap.Keys
    requires r.heap[ids[i]].data == v
    requires forall m | m in l.heap && m != ids[i] :: r.heap[m] == l.heap[m]
    ensures Values(r, ids) == Values(l, ids)[i := v]
  {
    forall k | 0 <= k < |ids| && k != i
      ensures r.heap[ids[k]].data == l.heap[ids[k]].data
    {
      assert ids[k] != ids[i];
    }
    ValuesAt(l, ids);
    ValuesAt(r, ids);
  }

  /** What the writes through `peek_front_mut` and `peek_back_mut` do to the
      arena: only the value of the head (tail) cell changes. */
  lemma SetShape<T>(l: List<T>, v: T)
    requires Closed(l)
    ensures SameLinks(l, SetFront(l, v)) && SameLinks(l, SetBack(l, v))
    ensures l.head.Some? ==> SetFront(l, v).heap[l.head.value].data == v
    ensures l.tail.Some? ==> SetBack(l, v).heap[l.tail.value].data == v
    ensures l.head.Some? ==> forall m | m in l.heap && m != l.head.value :: SetFront(l, v).heap[m] == l.heap[m]
    ensures l.tail.Some? ==> forall m | m in l.heap && m != l.tail.value :: SetBack(l, v).heap[m] == l.heap[m]
  {
  }

  /** Writing through `peek_front_mut` replaces the first element and nothing
      else: same cells, same order, same length. */
  lemma SetFrontRefines<T>(l: List<T>, ids: seq<nat>, v: T)
    requires Valid(l, ids)
    ensures Valid(SetFront(l, v), ids)
    ensures Elements(SetFront(l, v), ids) == if |ids| == 0 then [] else Elements(l, ids)[0 := v]
  {
    var r := SetFront(l, v);
    SetShape(l, v);
    SameLinksValid(l, r, ids);
    if |ids| > 0 {
      ValidCovers(l, ids);
      ValuesUpdate(l, r, ids, 0, v);
    }
  }

  /** Writing through `peek_back_mut` replaces the last element and nothing
      else. */
  lemma SetBackRefines<T>(l: List<T>, ids: seq<nat>, v: T)
    requires Valid(l, ids)
    ensures Valid(SetBack(l, v), ids)
    ensures Elements(SetBack(l, v), ids) == if |ids| == 0 then [] else Elements(l, ids)[|ids| - 1 := v]
  {
    var r := SetBack(l, v);
    SetShape(l, v);
    SameLinksValid(l, r, ids);
    if |ids| > 0 {
      ValidCovers(l, ids);
      ValuesUpdate(l, r, ids, |ids| - 1, v);
    }
  }

  /** Dropping the list shifts out every element, front to back, and frees
      every cell. */
  lemma {:induction false} DrainRefines<T>(l: List<T>, ids: seq<nat>)
    requires Valid(l, ids)
    ensures Drain(l).Ok?
    ensures Drain(l).value.1 == Elements(l, ids)
    ensures Drain(l).value.0.heap == map[]
    decreases |ids|
  {
    ShiftRefines(l, ids);
    if |ids| > 0 {
      var l' := Shift(l).value.0;
      DrainRefines(l', ids[1..]);
      assert Elements(l, ids) == [Elements(l, ids)[0]] + Elements(l', ids[1..]);
    }
  }

  // ---------------------------------------------------------------------
  // Sequences of operations
  // ---------------------------------------------------------------------

  /** One call on the list: the operations of `List` and of its consuming
      iterator. */
  datatype Op<T> =
    | PrependOp(x: T)
    | PushOp(x: T)
    | ShiftOp
    | PopOp
    | PeekFrontOp
    | PeekBackOp
    | SetFrontOp(x: T)
    | SetBackOp(x: T)
    | NextOp
    | NextBackOp

  /** The meaning of one call on a `seq` of elements: the new elements and
      what the call returns (`None` for the calls that return nothing). */
  function SeqStep<T>(s: seq<T>, op: Op<T>): (r: (seq<T>, Option<T>))
    ensures op.PrependOp? || op.PushOp? ==> |r.0| == |s| + 1
    ensures (op.ShiftOp? || op.PopOp? || op.NextOp? || op.NextBackOp?) && |s| > 0 ==> |r.0| == |s| - 1 && r.1.Some?
    ensures !(op.PrependOp? || op.PushOp?) && |s| == 0 ==> r == (s, None)
  {
    match op
    case PrependOp(x) => ([x] + s, None)
    case PushOp(x) => (s + [x], None)
    case ShiftOp => if |s| == 0 then (s, None) else (s[1..], Some(s[0]))
    case NextOp => if |s| == 0 then (s, None) else (s[1..], Some(s[0]))
    case PopOp => if |s| == 0 then (s, None) else (s[..|s| - 1], Some(s[|s| - 1]))
    case NextBackOp => if |s| == 0 then (s, None) else (s[..|s| - 1], Some(s[|s| - 1]))
    case PeekFrontOp => (s, if |s| == 0 then None else Some(s[0]))
    case PeekBackOp => (s, if |s| == 0 then None else Some(s[|s| - 1]))
    case SetFrontOp(x) => (if |s| == 0 then s else s[0 := x], None)
    case SetBackOp(x) => (if |s| == 0 then s else s[|s| - 1 := x], None)
  }

  /** The meaning of a series of calls: the final elements and every call's
      result, in order. */
  function SeqRun<T>(s: seq<T>, ops: seq<Op<T>>): (r: (seq<T>, seq<Option<T>>))
    ensures |r.1| == |ops|
    decreases |ops|
  {
    if |ops| == 0 then (s, [])
    else
      var (s', v) := SeqStep(s, ops[0]);
      var (s'', vs) := SeqRun(s', ops[1..]);
      (s'', [v] + vs)
  }

  /** One call on the linked list. */
  function Step<T>(l: List<T>, op: Op<T>): (r: Result<(List<T>, Option<T>), Panic>)
    requires Closed(l)
    ensures r.Ok? ==> Closed(r.value.0)
  {
    match op
    case PrependOp(x) => Ok((Prepend(l, x), None))
    case PushOp(x) => Ok((Push(l, x), None))
    case ShiftOp => Shift(l)
    case PopOp => Pop(l)
    case PeekFrontOp => Ok((l, PeekFront(l)))
    case PeekBackOp => Ok((l, PeekBack(l)))
    case SetFrontOp(x) => Ok((SetFront(l, x), None))
    case SetBackOp(x) => Ok((SetBack(l, x), None))
    case NextOp =>
      (match Next(IntoIterator(l))
       case Ok((it, v)) => Ok((it.list, v))
       case Err(p) => Err(p))
    case NextBackOp =>
      (match NextBack(IntoIterator(l))
       case Ok((it, v)) => Ok((it.list, v))
       case Err(p) => Err(p))
  }

  /** A series of calls on the linked list; the first panic ends it. */
  function Run<T>(l: List<T>, ops: seq<Op<T>>): (r: Result<(List<T>, seq<Option<T>>), Panic>)
    requires Closed(l)
    ensures r.Ok? ==> Closed(r.value.0) && |r.value.1| == |ops|
    decreases |ops|
  {
    if |ops| == 0 then Ok((l, []))
    else
      match Step(l, ops[0])
      case Err(p) => Err(p)
      case Ok((l', v)) =>
        match Run(l', ops[1..])
        case Err(p) => Err(p)
        case Ok((l'', vs)) => Ok((l'', [v] + vs))
  }

  /** `StepRefines` for one call, given the order that describes the list
      after it. */
  lemma StepWitness<T>(l: List<T>, ids: seq<nat>, op: Op<T>, ids': seq<nat>)
    requires Valid(l, ids) && Step(l, op).Ok?
    requires Valid(Step(l, op).value.0, ids')
    requires Elements(Step(l, op).value.0, ids') == SeqStep(Elements(l, ids), op).0
    ensures exists o :: Valid(Step(l, op).value.0, o) && Elements(Step(l, op).value.0, o) == SeqStep(Elements(l, ids), op).0
  {
  }

  /** `next` of the consuming iterator is `shift`. */
  lemma FrontRemoveIsShift<T>(l: List<T>, op: Op<T>)
    requires Closed(l) && (op.ShiftOp? || op.NextOp?)
    ensures Step(l, op) == Shift(l)
  {
  }

  /** `next_back` of the consuming iterator is `pop`. */
  lemma BackRemoveIsPop<T>(l: List<T>, op: Op<T>)
    requires Closed(l) && (op.PopOp? || op.NextBackOp?)
    ensures Step(l, op) == Pop(l)
  {
  }

  /** `StepRefines` for the calls that remove the first element. */
  lemma FrontRemoveStepRefines<T>(l: List<T>, ids: seq<nat>, op: Op<T>)
    requires Valid(l, ids) && (op.ShiftOp? || op.NextOp?)
    ensures Step(l, op).Ok?
    ensures Step(l, op).value.1 == SeqStep(Elements(l, ids), op).1
    ensures exists ids' :: Valid(Step(l, op).value.0, ids') && Elements(Step(l, op).value.0, ids') == SeqStep(Elements(l, ids), op).0
  {
    FrontRemoveIsShift(l, op);
    ShiftRefines(l, ids);
    var s := Elements(l, ids);
    if |ids| > 0 {
      assert SeqStep(s, op) == (s[1..], Some(s[0]));
      StepWitness(l, ids, op, ids[1..]);
    } else {
      assert SeqStep(s, op) == (s, None);
      StepWitness(l, ids, op, ids);
    }
  }

  /** `StepRefines` for the calls that remove the last element. */
  lemma BackRemoveStepRefines<T>(l: List<T>, ids: seq<nat>, op: Op<T>)
    requires Valid(l, ids) && (op.PopOp? || op.NextBackOp?)
    ensures Step(l, op).Ok?
    ensures Step(l, op).value.1 == SeqStep(Elements(l, ids), op).1
    ensures exists ids' :: Valid(Step(l, op).value.0, ids') && Elements(Step(l, op).value.0, ids') == SeqStep(Elements(l, ids), op).0
  {
    BackRemoveIsPop(l, op);
    PopRefines(l, ids);
    var s := Elements(l, ids);
    if |ids| > 0 {
      assert SeqStep(s, op) == (s[..|s| - 1], Some(s[|s| - 1]));
      StepWitness(l, ids, op, ids[..|ids| - 1]);
    } else {
      assert SeqStep(s, op) == (s, None);
      StepWitness(l, ids, op, ids);
    }
  }

  /** `StepRefines` for the calls that add an element. */
  lemma AddStepRefines<T>(l: List<T>, ids: seq<nat>, op: Op<T>)
    requires Valid(l, ids) && (op.PrependOp? || op.PushOp?)
    ensures Step(l, op).Ok?
    ensures Step(l, op).value.1 == SeqStep(Elements(l, ids), op).1
    ensures exists ids' :: Valid(Step(l, op).value.0, ids') && Elements(Step(l, op).value.0, ids') == SeqStep(Elements(l, ids), op).0
  {
    if op.PrependOp? {
      PrependRefines(l, ids, op.x);
      StepWitness(l, ids, op, [l.nextId] + ids);
    } else {
      PushRefines(l, ids, op.x);
      StepWitness(l, ids, op, ids + [l.nextId]);
    }
  }

  /** `StepRefines` for the calls that keep the cells: peeks and writes
      through `peek_*_mut`. */
  lemma KeepStepRefines<T>(l: List<T>, ids: seq<nat>, op: Op<T>)
    requires Valid(l, ids) && (op.PeekFrontOp? || op.PeekBackOp? || op.SetFrontOp? || op.SetBackOp?)
    ensures Step(l, op).Ok?
    ensures Step(l, op).value.1 == SeqStep(Elements(l, ids), op).1
    ensures exists ids' :: Valid(Step(l, op).value.0, ids') && Elements(Step(l, op).value.0, ids') == SeqStep(Elements(l, ids), op).0
  {
    match op
    case PeekFrontOp =>
      PeekFrontRefines(l, ids);
      StepWitness(l, ids, op, ids);
    case PeekBackOp =>
      PeekBackRefines(l, ids);
      StepWitness(l, ids, op, ids);
    case SetFrontOp(x) =>
      SetFrontRefines(l, ids, x);
      StepWitness(l, ids, op, ids);
    case SetBackOp(x) =>
      SetBackRefines(l, ids, x);
      StepWitness(l, ids, op, ids);
  }

  /** Every call on a described list succeeds, returns what the call returns
      on its elements, and leaves a described list holding the elements the
      call leaves. */
  lemma StepRefines<T>(l: List<T>, ids: seq<nat>, op: Op<T>)
    requires Valid(l, ids)
    ensures Step(l, op).Ok?
    ensures Step(l, op).value.1 == SeqStep(Elements(l, ids), op).1
    ensures exists ids' :: Valid(Step(l, op).value.0, ids') && Elements(Step(l, op).value.0, ids') == SeqStep(Elements(l, ids), op).0
  {
    if op.PrependOp? || op.PushOp? {
      AddStepRefines(l, ids, op);
    } else if op.ShiftOp? || op.NextOp? {
      FrontRemoveStepRefines(l, ids, op);
    } else if op.PopOp? || op.NextBackOp? {
      BackRemoveStepRefines(l, ids, op);
    } else {
      KeepStepRefines(l, ids, op);
    }
  }

  /** A series of calls on a described list never panics and returns what
      the same calls return on its elements; the final list is described by
      some order and holds the elements the calls leave. */
  lemma {:induction false} RunRefines<T>(l: List<T>, ids: seq<nat>, ops: seq<Op<T>>)
    requires Valid(l, ids)
    ensures Run(l, ops).Ok?
    ensures Run(l, ops).value.1 == SeqRun(Elements(l, ids), ops).1
    ensures exists ids' :: Valid(Run(l, ops).value.0, ids') && Elements(Run(l, ops).value.0, ids') == SeqRun(Elements(l, ids), ops).0
    decreases |ops|
  {
    if |ops| > 0 {
      StepRefines(l, ids, ops[0]);
      var l' := Step(l, ops[0]).value.0;
      var ids' :| Valid(l', ids') && Elements(l', ids') == SeqStep(Elements(l, ids), ops[0]).0;
      RunRefines(l', ids', ops[1..]);
      var ids'' :| Valid(Run(l', ops[1..]).value.0, ids'') && Elements(Run(l', ops[1..]).value.0, ids'') == SeqRun(Elements(l', ids'), ops[1..]).0;
      assert Run(l, ops).value.0 == Run(l', ops[1..]).value.0;
    } else {
      assert Valid(Run(l, ops).value.0, ids);
    }
  }

  /** On a new list every series of calls succeeds and returns what it
      returns on the empty `seq`. */
  lemma RunFromNew<T>(ops: seq<Op<T>>)
    ensures Run(New<T>(), ops).Ok?
    ensures Run(New<T>(), ops).value.1 == SeqRun([], ops).1
  {
    RunRefines(New<T>(), [], ops);
  }

  /** Running two series of calls one after the other is running their
      concatenation. */
  lemma {:induction false} SeqRunAppend<T>(s: seq<T>, a: seq<Op<T>>, b: seq<Op<T>>)
    ensures SeqRun(s, a + b).0 == SeqRun(SeqRun(s, a).0, b).0
    ensures SeqRun(s, a + b).1 == SeqRun(s, a).1 + SeqRun(SeqRun(s, a).0, b).1
    decreases |a|
  {
    if |a| == 0 {
      assert a + b == b;
    } else {
      assert (a + b)[0] == a[0] && (a + b)[1..] == a[1..] + b;
      SeqRunAppend(SeqStep(s, a[0]).0, a[1..], b);
    }
  }

  /** The calls of the source's `basics` test, in four parts: the front half
      with `prepend`/`shift`, then the back half with `push`/`pop`. */
  const BasicsFront1: seq<Op<int>> := [ShiftOp, PrependOp(1), PrependOp(2), PrependOp(3), ShiftOp, ShiftOp]
  const BasicsFront2: seq<Op<int>> := [PrependOp(4), PrependOp(5), ShiftOp, ShiftOp, ShiftOp, ShiftOp]
  const BasicsBack1: seq<Op<int>> := [PopOp, PushOp(1), PushOp(2), PushOp(3), PopOp, PopOp]
  const BasicsBack2: seq<Op<int>> := [PushOp(4), PushOp(5), PopOp, PopOp, PopOp, PopOp]

  /** What the four parts of the `basics` test return on a `seq`. */
  lemma BasicsParts()
    ensures SeqRun([], BasicsFront1).0 == [1]
    ensures SeqRun([], BasicsFront1).1 == [None, None, None, None, Some(3), Some(2)]
    ensures SeqRun([1], BasicsFront2).0 == []
    ensures SeqRun([1], BasicsFront2).1 == [None, None, Some(5), Some(4), Some(1), None]
    ensures SeqRun([], BasicsBack1).0 == [1]
    ensures SeqRun([], BasicsBack1).1 == [None, None, None, None, Some(3), Some(2)]
    ensures SeqRun([1], BasicsBack2).0 == []
    ensures SeqRun([1], BasicsBack2).1 == [None, None, Some(5), Some(4), Some(1), None]
  {
  }

  /** Two series of calls with known effects, run one after the other. */
  lemma SeqRunThen<T>(s: seq<T>, a: seq<Op<T>>, b: seq<Op<T>>, mid: seq<T>, fin: seq<T>, oa: seq<Option<T>>, ob: seq<Option<T>>)
    requires SeqRun(s, a).0 == mid && SeqRun(s, a).1 == oa
    requires SeqRun(mid, b).0 == fin && SeqRun(mid, b).1 == ob
    ensures SeqRun(s, a + b).0 == fin && SeqRun(s, a + b).1 == oa + ob
  {
    SeqRunAppend(s, a, b);
  }

  /** The `basics` test: on a new list every call of the test succeeds, and
      the removals return the values the test asserts. */
  lemma BasicsScenario()
    ensures Run(New<int>(), (BasicsFront1 + BasicsFront2) + (BasicsBack1 + BasicsBack2)).Ok?
    ensures Run(New<int>(), (BasicsFront1 + BasicsFront2) + (BasicsBack1 + BasicsBack2)).value.1 ==
              ([None, None, None, None, Some(3), Some(2)] + [None, None, Some(5), Some(4), Some(1), None]) +
              ([None, None, None, None, Some(3), Some(2)] + [None, None, Some(5), Some(4), Some(1), None])
  {
    var o1 := [None, None, None, None, Some(3), Some(2)];
    var o2 := [None, None, Some(5), Some(4), Some(1), None];
    BasicsParts();
    SeqRunThen([], BasicsFront1, BasicsFront2, [1], [], o1, o2);
    SeqRunThen([], BasicsBack1, BasicsBack2, [1], [], o1, o2);
    SeqRunThen([], BasicsFront1 + BasicsFront2, BasicsBack1 + BasicsBack2, [], [], o1 + o2, o1 + o2);
    RunFromNew((BasicsFront1 + BasicsFront2) + (BasicsBack1 + BasicsBack2));
  }

  /** The calls of the source's `peek` test: the four peeks at a new list,
      then three prepends and the four peeks again. `peek_front_mut` and
      `peek_back_mut` borrow the same cell as `peek_front` and `peek_back`;
      the test only reads through them, so each is replayed as the read. */
  const PeekEmptyOps: seq<Op<int>> := [PeekFrontOp, PeekBackOp, PeekFrontOp, PeekBackOp]
  const PeekFilledOps: seq<Op<int>> :=
    [PrependOp(1), PrependOp(2), PrependOp(3), PeekFrontOp, PeekFrontOp, PeekBackOp, PeekBackOp]

  /** The `peek` test: nothing to peek at on a new list, mutably or not;
      after prepending 1, 2, 3 both front peeks give 3 and both back peeks
      give 1. */
  lemma PeekScenario()
    ensures Run(New<int>(), PeekEmptyOps + PeekFilledOps).Ok?
    ensures Run(New<int>(), PeekEmptyOps + PeekFilledOps).value.1 ==
              [None, None, None, None] + [None, None, None, Some(3), Some(3), Some(1), Some(1)]
  {
    var o1: seq<Option<int>> := [None, None, None, None];
    var o2: seq<Option<int>> := [None, None, None, Some(3), Some(3), Some(1), Some(1)];
    assert SeqRun([], PeekEmptyOps).0 == [];
    assert SeqRun([], PeekEmptyOps).1 == o1;
    assert SeqRun([], PeekFilledOps).0 == [3, 2, 1];
    assert SeqRun([], PeekFilledOps).1 == o2;
    SeqRunThen([], PeekEmptyOps, PeekFilledOps, [], [3, 2, 1], o1, o2);
    RunFromNew(PeekEmptyOps + PeekFilledOps);
  }

  /** The calls of the source's `into_iter` test: three prepends, then
      alternating `next` and `next_back`. */
  const IntoIterFill: seq<Op<int>> := [PrependOp(1), PrependOp(2), PrependOp(3)]
  const IntoIterEnds: seq<Op<int>> := [NextOp, NextBackOp]
  const IntoIterRest: seq<Op<int>> := [NextOp, NextBackOp, NextOp]

  /** The three prepends of the `into_iter` test on a `seq`. */
  lemma IntoIterFillPart()
    ensures SeqRun([], IntoIterFill).0 == [3, 2, 1]
    ensures SeqRun([], IntoIterFill).1 == [None, None, None]
  {
  }

  /** The first `next` and `next_back` of the `into_iter` test on a `seq`. */
  lemma IntoIterEndsPart()
    ensures SeqRun([3, 2, 1], IntoIterEnds).0 == [2]
    ensures SeqRun([3, 2, 1], IntoIterEnds).1 == [Some(3), Some(1)]
  {
  }

  /** The last three calls of the `into_iter` test on a `seq`. */
  lemma IntoIterRestPart()
    ensures SeqRun([2], IntoIterRest).0 == []
    ensures SeqRun([2], IntoIterRest).1 == [Some(2), None, None]
  {
  }

  /** The `into_iter` test: the consuming iterator yields 3 from the front,
      1 from the back, 2 from the front, then `None` from both ends. */
  lemma IntoIterScenario()
    ensures Run(New<int>(), IntoIterFill + (IntoIterEnds + IntoIterRest)).Ok?
    ensures Run(New<int>(), IntoIterFill + (IntoIterEnds + IntoIterRest)).value.1 ==
              [None, None, None] + ([Some(3), Some(1)] + [Some(2), None, None])
  {
    IntoIterFillPart();
    IntoIterEndsPart();
    IntoIterRestPart();
    SeqRunThen([3, 2, 1], IntoIterEnds, IntoIterRest, [2], [], [Some(3), Some(1)], [Some(2), None, None]);
    SeqRunThen([], IntoIterFill, IntoIterEnds + IntoIterRest, [3, 2, 1], [], [None, None, None], [Some(3), Some(1)] + [Some(2), None, None]);
    RunFromNew(IntoIterFill + (IntoIterEnds + IntoIterRest));
  }
}

=== FILE: http.dfy ===
/** HTTP status codes used by the web handlers, with the values of
    section 15 of RFC 9110, and the header-value character rule the
    handlers rely on. */
module Http {

  /** A status code is a three-digit number (section 15 of RFC 9110). */
  type StatusCode = c: nat | 100 <= c <= 999 witness 200

  /** 200 OK, section 15.3.1 of RFC 9110. */
  const OK: StatusCode := 200
  /** 400 Bad Request, section 15.5.1 of RFC 9110. */
  const BAD_REQUEST: StatusCode := 400
  /** 404 Not Found, section 15.5.5 of RFC 9110. */
  const NOT_FOUND: StatusCode := 404
  /** 408 Request Timeout, section 15.5.9 of RFC 9110. */
  const REQUEST_TIMEOUT: StatusCode := 408
  /** 415 Unsupported Media Type, section 15.5.16 of RFC 9110. */
  const UNSUPPORTED_MEDIA_TYPE: StatusCode := 415
  /** 500 Internal Server Error, section 15.6.1 of RFC 9110. */
  const INTERNAL_SERVER_ERROR: StatusCode := 500

  /** A character the `http` crate accepts in a header value when it parses
      one from text: a horizontal tab, or any character except the other
      control characters and DEL. */
  predicate HeaderChar(c: char) {
    c == '\t' || (' ' <= c && c != '\U{7F}')
  }

  /** A character `HeaderValue::to_str` gives back: a tab or visible ASCII. */
  predicate VisibleAscii(c: char) {
    c == '\t' || (' ' <= c <= '~')
  }

  /** `s` starts with `p`. */
  predicate StartsWith(s: string, p: string) {
    |p| <= |s| && s[..|p|] == p
  }
}

=== FILE: iters.dfy ===
/** The iterators of `iters.rs`: the `Counter` that counts to five, the
    `Grid` cartesian product, a singly linked list of shared nodes with its
    three iterators, and the log-line filter and per-user count of `usage`. */
module Iters {
  import opened Wrappers
  import opened Decimals

  // ---------------------------------------------------------------------
  // `Counter`
  // ---------------------------------------------------------------------

  /** `Counter`: the number of calls to `next` so far. */
  datatype Counter = Counter(count: nat)

  /** `Counter::new`. */
  function CounterNew(): (c: Counter)
    ensures c.count == 0
  {
    Counter(0)
  }

  /** `Counter::next`: count the call, then yield the count while it is
      below 6. */
  function CounterNext(c: Counter): (r: (Counter, Option<nat>))
    ensures r.0.count == c.count + 1
    ensures r.1.Some? <==> c.count + 1 < 6
    ensures r.1.Some? ==> r.1.value == c.count + 1 && 1 <= r.1.value <= 5
  {
    var count := c.count + 1;
    (Counter(count), if count < 6 then Some(count) else None)
  }

  /** The results of `n` calls to `next`, in order. */
  function CounterRun(c: Counter, n: nat): (r: seq<Option<nat>>)
    ensures |r| == n
    decreases n
  {
    if n == 0 then [] else [CounterNext(c).1] + CounterRun(CounterNext(c).0, n - 1)
  }

  /** The `k`-th of any number of calls, starting from a counter at `c`,
      yields `c + k + 1` while that is below 6, and `None` ever after. */
  lemma {:induction false} CounterRunYields(c: Counter, n: nat)
    ensures forall k | 0 <= k < n :: CounterRun(c, n)[k] == if c.count + k + 1 < 6 then Some(c.count + k + 1) else None
    decreases n
  {
    if n > 0 {
      CounterRunYields(CounterNext(c).0, n - 1);
    }
  }

  /** A new counter yields 1, 2, 3, 4, 5 and then `None` on every later
      call. */
  lemma CounterFromNew(n: nat)
    ensures forall k | 0 <= k < n :: CounterRun(CounterNew(), n)[k] == if k < 5 then Some(k + 1) else None
  {
    CounterRunYields(CounterNew(), n);
  }

  // ---------------------------------------------------------------------
  // `Grid` and `GridIter`
  // ---------------------------------------------------------------------

  /** The panic of indexing a slice of length `len` at `index`. */
  function IndexOutOfBounds(len: nat, index: nat): Panic
  {
    Panic("index out of bounds: the len is " + Decimal(len) + " but the index is " + Decimal(index))
  }

  /** `Grid`: two vectors of `u32`, only ever copied. */
  datatype Grid = Grid(x: seq<int>, y: seq<int>)

  /** `GridIter`: the grid, the column `i` and the row `j`. */
  datatype GridIter = GridIter(grid: Grid, i: nat, j: nat)

  /** `Grid::into_iter`. */
  function GridIntoIter(g: Grid): (it: GridIter)
    ensures it.grid == g && it.i == 0 && it.j == 0
  {
    GridIter(g, 0, 0)
  }

  /** `GridIter::next`: past the end of a row, move to the start of the next
      row, and stop when there is none; then yield `(x[i], y[j])`. Indexing
      past the end of `x` or `y` panics. */
  function GridNext(it: GridIter): (r: Result<(GridIter, Option<(int, int)>), Panic>)
    ensures r.Ok? && r.value.1.Some? ==> r.value.0.i >= 1
  {
    var g := it.grid;
    if it.i >= |g.x| then
      if it.j + 1 >= |g.y| then Ok((GridIter(g, 0, it.j + 1), None))
      else if |g.x| == 0 then Err(IndexOutOfBounds(0, 0))
      else Ok((GridIter(g, 1, it.j + 1), Some((g.x[0], g.y[it.j + 1]))))
    else if it.j >= |g.y| then Err(IndexOutOfBounds(|g.y|, it.j))
    else Ok((GridIter(g, it.i + 1, it.j), Some((g.x[it.i], g.y[it.j]))))
  }

  /** `n` calls to `next`: the final iterator and every result, or the
      first panic. */
  function GridRun(it: GridIter, n: nat): (r: Result<(GridIter, seq<Option<(int, int)>>), Panic>)
    ensures r.Ok? ==> |r.value.1| == n && r.value.0.grid == it.grid
    decreases n
  {
    if n == 0 then Ok((it, []))
    else
      match GridNext(it)
      case Err(p) => Err(p)
      case Ok((it', v)) =>
        match GridRun(it', n - 1)
        case Err(p) => Err(p)
        case Ok((it'', vs)) => Ok((it'', [v] + vs))
  }

  /** One row of the product: `x` paired with `b`. */
  function Row(x: seq<int>, b: int): (r: seq<(int, int)>)
    ensures |r| == |x|
    ensures forall a | 0 <= a < |x| :: r[a] == (x[a], b)
  {
    seq(|x|, a requires 0 <= a < |x| => (x[a], b))
  }

  /** The cartesian product row by row: every `x` with `y[0]`, then every
      `x` with `y[1]`, and so on. */
  function Product(x: seq<int>, y: seq<int>): (r: seq<(int, int)>)
    decreases |y|
  {
    if |y| == 0 then [] else Row(x, y[0]) + Product(x, y[1..])
  }

  /** The product has `|x| * |y|` pairs. */
  lemma {:induction false} ProductLength(x: seq<int>, y: seq<int>)
    ensures |Product(x, y)| == |x| * |y|
    decreases |y|
  {
    if |y| > 0 {
      ProductLength(x, y[1..]);
      assert |x| * |y| == |x| + |x| * (|y| - 1);
    }
  }

  /** `(b + 1) * n` is `b * n + n`. */
  lemma MulSucc(b: nat, n: nat)
    ensures (b + 1) * n == b * n + n
  {
  }

  /** Multiplication by `n` keeps order. */
  lemma MulMono(p: nat, q: nat, n: nat)
    requires p <= q
    ensures p * n <= q * n
  {
  }

  /** The pair at `b * |x| + a` of the product is `(x[a], y[b])`. */
  lemma {:induction false} ProductIndex(x: seq<int>, y: seq<int>, a: nat, b: nat)
    requires a < |x| && b < |y|
    ensures b * |x| + a < |Product(x, y)|
    ensures Product(x, y)[b * |x| + a] == (x[a], y[b])
    decreases b
  {
    ProductLength(x, y);
    MulSucc(b, |x|);
    MulMono(b + 1, |y|, |x|);
    assert |y| * |x| == |x| * |y|;
    if b > 0 {
      ProductIndex(x, y[1..], a, b - 1);
      MulSucc(b - 1, |x|);
      assert y[1..][b - 1] == y[b];
    }
  }

  /** What is left to yield from column `i` of row `j`: the rest of the row,
      then the later rows. */
  function Remaining(g: Grid, i: nat, j: nat): (r: seq<(int, int)>)
    requires i <= |g.x| && j < |g.y|
  {
    Row(g.x, g.y[j])[i..] + Product(g.x, g.y[j + 1..])
  }

  /** Every value of a sequence, wrapped in `Some`: what an iterator
      yields before its first `None`. */
  function Somes<T>(vs: seq<T>): (r: seq<Option<T>>)
    ensures |r| == |vs| && forall k | 0 <= k < |vs| :: r[k] == Some(vs[k])
  {
    seq(|vs|, k requires 0 <= k < |vs| => Some(vs[k]))
  }

  /** A run of `n + 1` calls is one call followed by a run of `n`. */
  lemma GridRunStep(it: GridIter, n: nat, it': GridIter, v: Option<(int, int)>, last: GridIter, vs: seq<Option<(int, int)>>)
    requires GridNext(it) == Ok((it', v))
    requires GridRun(it', n) == Ok((last, vs))
    ensures GridRun(it, n + 1) == Ok((last, [v] + vs))
  {
  }

  /** What `GridRunRemaining` states of column `i` of row `j`. */
  ghost predicate YieldsRemaining(g: Grid, i: nat, j: nat)
    requires i <= |g.x| && j < |g.y|
  {
    GridRun(GridIter(g, i, j), |Remaining(g, i, j)| + 1) == Ok((GridIter(g, 0, |g.y|), Somes(Remaining(g, i, j)) + [None]))
  }

  /** Inside a row: yield `(x[i], y[j])` and go on from column `i + 1`. */
  lemma YieldsInRow(g: Grid, i: nat, j: nat)
    requires i < |g.x| && j < |g.y| && YieldsRemaining(g, i + 1, j)
    ensures YieldsRemaining(g, i, j)
  {
    var next := Remaining(g, i + 1, j);
    var p := (g.x[i], g.y[j]);
    assert Row(g.x, g.y[j])[i..] == [p] + Row(g.x, g.y[j])[i + 1..];
    assert Remaining(g, i, j) == [p] + next;
    GridRunStep(GridIter(g, i, j), |next| + 1, GridIter(g, i + 1, j), Some(p), GridIter(g, 0, |g.y|), Somes(next) + [None]);
    SomesCons(p, next);
  }

  /** Wrapping a pair in front commutes with `Somes`. */
  lemma SomesCons(p: (int, int), ps: seq<(int, int)>)
    ensures Somes([p] + ps) + [None] == [Some(p)] + (Somes(ps) + [None])
  {
    assert Somes([p] + ps) == [Some(p)] + Somes(ps);
  }

  /** A nonempty row starts with the pair of `x[0]`. */
  lemma RowCons(x: seq<int>, b: int)
    requires |x| >= 1
    ensures Row(x, b) == [(x[0], b)] + Row(x, b)[1..]
  {
    var r := Row(x, b);
    assert r == [r[0]] + r[1..];
  }

  /** The product of `x` with the rows from `k` is row `k`, then the rows
      from `k + 1`. */
  lemma ProductFrom(x: seq<int>, y: seq<int>, k: nat)
    requires k < |y|
    ensures Product(x, y[k..]) == Row(x, y[k]) + Product(x, y[k + 1..])
  {
    assert y[k..][0] == y[k] && y[k..][1..] == y[k + 1..];
  }

  /** Past the end of row `j` what remains is row `j + 1` from column 0. */
  lemma RemainingNextRow(g: Grid, j: nat)
    requires |g.x| >= 1 && j + 1 < |g.y|
    ensures Remaining(g, |g.x|, j) == [(g.x[0], g.y[j + 1])] + Remaining(g, 1, j + 1)
  {
    var x := g.x;
    var rest := Product(x, g.y[j + 2..]);
    assert Row(x, g.y[j])[|x|..] == [];
    ProductFrom(x, g.y, j + 1);
    RowCons(x, g.y[j + 1]);
    assert Remaining(g, |x|, j) == Row(x, g.y[j + 1]) + rest;
    assert Remaining(g, 1, j + 1) == Row(x, g.y[j + 1])[1..] + rest;
  }

  /** At the end of a row with a row after it: yield `(x[0], y[j + 1])` and
      go on from column 1 of the next row. */
  lemma YieldsNextRow(g: Grid, j: nat)
    requires |g.x| >= 1 && j + 1 < |g.y| && YieldsRemaining(g, 1, j + 1)
    ensures YieldsRemaining(g, |g.x|, j)
  {
    var next := Remaining(g, 1, j + 1);
    var p := (g.x[0], g.y[j + 1]);
    RemainingNextRow(g, j);
    assert GridNext(GridIter(g, |g.x|, j)) == Ok((GridIter(g, 1, j + 1), Some(p)));
    GridRunStep(GridIter(g, |g.x|, j), |next| + 1, GridIter(g, 1, j + 1), Some(p), GridIter(g, 0, |g.y|), Somes(next) + [None]);
    SomesCons(p, next);
  }

  /** At the end of the last row: `None`. */
  lemma YieldsEnd(g: Grid)
    requires |g.x| >= 1 && |g.y| >= 1
    ensures YieldsRemaining(g, |g.x|, |g.y| - 1)
  {
    var j := |g.y| - 1;
    assert g.y[j + 1..] == [];
    assert Row(g.x, g.y[j])[|g.x|..] == [];
    assert Remaining(g, |g.x|, j) == [];
    GridRunStep(GridIter(g, |g.x|, j), 0, GridIter(g, 0, |g.y|), None, GridIter(g, 0, |g.y|), []);
    assert Somes<(int, int)>([]) + [None] == [None] + [];
  }

  /** From column `i` of row `j` the iterator yields what remains, then
      `None`, and ends at column 0 of row `|y|`. */
  lemma {:induction false} GridRunRemaining(g: Grid, i: nat, j: nat)
    requires |g.x| >= 1 && i <= |g.x| && j < |g.y|
    ensures GridRun(GridIter(g, i, j), |Remaining(g, i, j)| + 1) == Ok((GridIter(g, 0, |g.y|), Somes(Remaining(g, i, j)) + [None]))
    decreases |g.y| - j, |g.x| - i
  {
    if i < |g.x| {
      GridRunRemaining(g, i + 1, j);
      YieldsInRow(g, i, j);
    } else if j + 1 >= |g.y| {
      YieldsEnd(g);
    } else {
      GridRunRemaining(g, 1, j + 1);
      YieldsNextRow(g, j);
    }
  }

  /** With both vectors nonempty, iterating the grid yields its `|x| * |y|`
      pairs row by row, the pair at `b * |x| + a` being `(x[a], y[b])`, and
      then `None`. */
  lemma GridYieldsProduct(g: Grid)
    requires |g.x| >= 1 && |g.y| >= 1
    ensures GridRun(GridIntoIter(g), |g.x| * |g.y| + 1) == Ok((GridIter(g, 0, |g.y|), Somes(Product(g.x, g.y)) + [None]))
  {
    GridRunRemaining(g, 0, 0);
    assert Row(g.x, g.y[0])[0..] == Row(g.x, g.y[0]);
    ProductLength(g.x, g.y);
  }

  /** The iterator is not fused: once it has returned `None` with both
      vectors nonempty, the next call reads `y[|y|]` and panics. */
  lemma GridPanicsAfterEnd(g: Grid)
    requires |g.x| >= 1 && |g.y| >= 1
    ensures GridNext(GridIter(g, 0, |g.y|)) == Err(IndexOutOfBounds(|g.y|, |g.y|))
  {
  }

  /** The cases that do not index in bounds: an empty `y` with a nonempty
      `x` panics on the first call, and so does an empty `x` with two or more
      rows; an empty `x` with at most one row yields `None` at once. */
  lemma GridEmptyCases(g: Grid)
    ensures |g.x| >= 1 && |g.y| == 0 ==> GridNext(GridIntoIter(g)) == Err(IndexOutOfBounds(0, 0))
    ensures |g.x| == 0 && |g.y| >= 2 ==> GridNext(GridIntoIter(g)) == Err(IndexOutOfBounds(0, 0))
    ensures |g.x| == 0 && |g.y| <= 1 ==> GridNext(GridIntoIter(g)) == Ok((GridIter(g, 0, 1), None))
  {
  }

  // ---------------------------------------------------------------------
  // `LinkedList` of shared nodes and its iterators
  // ---------------------------------------------------------------------

  /** `Node<T>`: the shared handle of the next node is an index into the
      arena of all nodes created. */
  datatype LNode<T> = LNode(data: T, next: Option<nat>)

  /** `LinkedList<T>`: the arena and the handle of the head. */
  datatype LinkedList<T> = LinkedList(nodes: seq<LNode<T>>, head: nat)

  /** Every handle is live, and `next` moves to a later node, so walks end. */
  predicate Forward<T>(l: LinkedList<T>)
  {
    && l.head < |l.nodes|
    && forall i | 0 <= i < |l.nodes| :: l.nodes[i].next.Some? ==> i < l.nodes[i].next.value < |l.nodes|
  }

  /** The node a walk along `next` from `id` ends at. */
  function Last<T>(l: LinkedList<T>, id: nat): (r: nat)
    requires Forward(l) && id < |l.nodes|
    ensures id <= r < |l.nodes| && l.nodes[r].next.None?
    decreases |l.nodes| - id
  {
    match l.nodes[id].next
    case None => id
    case Some(n) => Last(l, n)
  }

  /** The values met walking along `next` from `id`. */
  function WalkFrom<T>(l: LinkedList<T>, id: nat): (r: seq<T>)
    requires Forward(l) && id < |l.nodes|
    ensures |r| >= 1 && r[0] == l.nodes[id].data
    decreases |l.nodes| - id
  {
    match l.nodes[id].next
    case None => [l.nodes[id].data]
    case Some(n) => [l.nodes[id].data] + WalkFrom(l, n)
  }

  /** The values of the list, head first. */
  function Elements<T>(l: LinkedList<T>): (r: seq<T>)
    requires Forward(l)
    ensures |r| >= 1
  {
    WalkFrom(l, l.head)
  }

  /** `LinkedList::new`: one node. */
  function New<T>(t: T): (r: LinkedList<T>)
    ensures Forward(r) && Elements(r) == [t]
  {
    LinkedList([LNode(t, None)], 0)
  }

  /** The list with a new node holding `t` linked after the last node. */
  function Append<T>(l: LinkedList<T>, t: T): (r: LinkedList<T>)
    requires Forward(l)
    ensures Forward(r)
  {
    var last := Last(l, l.head);
    LinkedList(l.nodes[last := l.nodes[last].(next := Some(|l.nodes|))] + [LNode(t, None)], l.head)
  }

  /** Linking a new node after the last node reached from `id` extends the
      walk from `id` by its value. */
  lemma {:induction false} WalkAfterAppend<T>(l: LinkedList<T>, t: T, id: nat)
    requires Forward(l) && id < |l.nodes| && Last(l, id) == Last(l, l.head)
    ensures WalkFrom(Append(l, t), id) == WalkFrom(l, id) + [t]
    decreases |l.nodes| - id
  {
    var r := Append(l, t);
    if l.nodes[id].next.Some? {
      var n := l.nodes[id].next.value;
      WalkAfterAppend(l, t, n);
      assert r.nodes[id] == l.nodes[id];
    } else {
      assert r.nodes[|l.nodes|] == LNode(t, None);
    }
  }

  /** `append` adds `t` at the end and keeps every earlier value. */
  lemma AppendElements<T>(l: LinkedList<T>, t: T)
    requires Forward(l)
    ensures Elements(Append(l, t)) == Elements(l) + [t]
  {
    WalkAfterAppend(l, t, l.head);
  }

  /** `LinkedList::append`: walk from the head while the node has a `next`,
      then link a new node after the node reached. */
  method AppendWalk<T>(l: LinkedList<T>, t: T) returns (r: LinkedList<T>)
    requires Forward(l)
    ensures r == Append(l, t)
    ensures Forward(r) && Elements(r) == Elements(l) + [t]
  {
    var cur := l.head;
    while l.nodes[cur].next.Some?
      invariant cur < |l.nodes| && Last(l, cur) == Last(l, l.head)
      decreases |l.nodes| - cur
    {
      cur := l.nodes[cur].next.value;
    }
    r := LinkedList(l.nodes[cur := l.nodes[cur].(next := Some(|l.nodes|))] + [LNode(t, None)], l.head);
    AppendElements(l, t);
  }

  /** The state of `Iter`, `IterMut` and `IntoIter`: the handle of the next
      node to visit, if any. */
  datatype Cursor = Cursor(next: Option<nat>)

  /** `LinkedList::iter`, `iter_mut` and `into_iter`: start at the head. */
  function Iter<T>(l: LinkedList<T>): (c: Cursor)
    requires Forward(l)
    ensures c.next == Some(l.head)
  {
    Cursor(Some(l.head))
  }

  /** `next` of `Iter`, `IterMut` and `IntoIter`: yield the value of the node
      at the cursor and move the cursor to its `next`. */
  function Next<T>(l: LinkedList<T>, c: Cursor): (r: (Cursor, Option<T>))
    requires Forward(l) && (c.next.Some? ==> c.next.value < |l.nodes|)
    ensures r.1.Some? <==> c.next.Some?
    ensures c.next.Some? ==> r.1.value == WalkFrom(l, c.next.value)[0]
    ensures r.0.next.Some? ==> r.0.next.value < |l.nodes|
    ensures c.next.None? ==> r == (c, None)
    ensures c.next.Some? ==> r.0.next == l.nodes[c.next.value].next
  {
    match c.next
    case None => (c, None)
    case Some(id) => (Cursor(l.nodes[id].next), Some(l.nodes[id].data))
  }

  /** After `next` yields the value at the cursor, what is left to walk is
      the rest of the walk. */
  lemma NextWalksOn<T>(l: LinkedList<T>, id: nat)
    requires Forward(l) && id < |l.nodes|
    ensures var c := Next(l, Cursor(Some(id))).0;
      WalkFrom(l, id) == [l.nodes[id].data] + (if c.next.Some? then WalkFrom(l, c.next.value) else [])
  {
  }

  /** `n` calls to `next`. */
  function IterRun<T>(l: LinkedList<T>, c: Cursor, n: nat): (r: seq<Option<T>>)
    requires Forward(l) && (c.next.Some? ==> c.next.value < |l.nodes|)
    ensures |r| == n
    decreases n
  {
    if n == 0 then [] else [Next(l, c).1] + IterRun(l, Next(l, c).0, n - 1)
  }

  /** From the node `id` the iterator yields the values of the walk from
      `id`, each once, then `None`. */
  lemma {:induction false} IterFrom<T>(l: LinkedList<T>, id: nat)
    requires Forward(l) && id < |l.nodes|
    ensures IterRun(l, Cursor(Some(id)), |WalkFrom(l, id)| + 1) == Somes(WalkFrom(l, id)) + [None]
    decreases |l.nodes| - id
  {
    var w := WalkFrom(l, id);
    match l.nodes[id].next
    case None =>
      assert IterRun(l, Cursor(None), 1) == [None];
    case Some(n) =>
      IterFrom(l, n);
      assert Somes(w) + [None] == [Some(l.nodes[id].data)] + (Somes(WalkFrom(l, n)) + [None]);
  }

  /** The three iterators yield the elements in insertion order, each once,
      then `None`. */
  lemma IterYieldsElements<T>(l: LinkedList<T>)
    requires Forward(l)
    ensures IterRun(l, Iter(l), |Elements(l)| + 1) == Somes(Elements(l)) + [None]
  {
    IterFrom(l, l.head);
  }

  /** The test of `iters.rs`: after `new("first")` and appends of "second",
      "third", "fourth", the iterators yield those four values in order. */
  lemma LinkedListScenario()
    ensures var l := Append(Append(Append(New("first"), "second"), "third"), "fourth");
      IterRun(l, Iter(l), 5) == [Some("first"), Some("second"), Some("third"), Some("fourth"), None]
  {
    var l0 := New("first");
    AppendElements(l0, "second");
    var l1 := Append(l0, "second");
    AppendElements(l1, "third");
    var l2 := Append(l1, "third");
    AppendElements(l2, "fourth");
    var l3 := Append(l2, "fourth");
    IterYieldsElements(l3);
    assert Elements(l3) == ["first", "second", "third", "fourth"];
  }

  // ---------------------------------------------------------------------
  // Log lines and the per-user count of `usage`
  // ---------------------------------------------------------------------

  /** `str::split(sep)`: the pieces between the separators; `k` separators
      give `k + 1` pieces, empty ones included. */
  function Split(s: string, sep: char): (r: seq<string>)
    ensures |r| >= 1
    decreases |s|
  {
    if |s| == 0 then [""]
    else
      var rest := Split(s[1..], sep);
      if s[0] == sep then [""] + rest else [[s[0]] + rest[0]] + rest[1..]
  }

  /** The number of occurrences of `c` in `s`. */
  function Count(s: string, c: char): (n: nat)
    ensures n <= |s|
    decreases |s|
  {
    if |s| == 0 then 0 else (if s[0] == c then 1 else 0) + Count(s[1..], c)
  }

  /** The pieces joined back with the separator between them. */
  function Join(parts: seq<string>, sep: char): (s: string)
    requires |parts| >= 1
    decreases |parts|
  {
    if |parts| == 1 then parts[0] else parts[0] + [sep] + Join(parts[1..], sep)
  }

  /** Splitting gives one piece more than there are separators. */
  lemma {:induction false} SplitLength(s: string, sep: char)
    ensures |Split(s, sep)| == Count(s, sep) + 1
    decreases |s|
  {
    if |s| > 0 {
      SplitLength(s[1..], sep);
    }
  }

  /** No piece holds the separator. */
  lemma {:induction false} SplitPiecesClean(s: string, sep: char)
    ensures forall k | 0 <= k < |Split(s, sep)| :: Count(Split(s, sep)[k], sep) == 0
    decreases |s|
  {
    if |s| > 0 {
      SplitPiecesClean(s[1..], sep);
      var rest := Split(s[1..], sep);
      if s[0] != sep {
        assert ([s[0]] + rest[0])[1..] == rest[0];
        assert Count([s[0]] + rest[0], sep) == 0;
      }
    }
  }

  /** Joining the pieces gives the string back. */
  lemma {:induction false} SplitJoinBack(s: string, sep: char)
    ensures Join(Split(s, sep), sep) == s
    decreases |s|
  {
    if |s| > 0 {
      SplitJoinBack(s[1..], sep);
      var rest := Split(s[1..], sep);
      assert s == [s[0]] + s[1..];
      if s[0] == sep {
        assert Split(s, sep)[1..] == rest;
      } else if |rest| > 1 {
        assert Split(s, sep)[1..] == rest[1..];
        assert Join(rest, sep) == rest[0] + [sep] + Join(rest[1..], sep);
      }
    }
  }

  /** Splitting gives one piece more than there are separators, no piece
      holds the separator, and joining the pieces gives the string back. */
  lemma SplitJoin(s: string, sep: char)
    ensures |Split(s, sep)| == Count(s, sep) + 1
    ensures forall k | 0 <= k < |Split(s, sep)| :: Count(Split(s, sep)[k], sep) == 0
    ensures Join(Split(s, sep), sep) == s
  {
    SplitLength(s, sep);
    SplitPiecesClean(s, sep);
    SplitJoinBack(s, sep);
  }

  /** `LogEntry`. */
  datatype LogEntry = LogEntry(timestamp: string, username: string, action: string)

  /** The closure of `filter_map`: an unreadable line is dropped; a line is
      an entry exactly when splitting it on ',' gives three pieces. */
  function ParseLine(line: Option<string>): (r: Option<LogEntry>)
    ensures r.Some? <==> line.Some? && Count(line.value, ',') == 2
    ensures r.Some? ==> line.value == r.value.timestamp + "," + r.value.username + "," + r.value.action
    ensures r.Some? ==> Count(r.value.timestamp, ',') == 0 && Count(r.value.username, ',') == 0 && Count(r.value.action, ',') == 0
  {
    match line
    case None => None
    case Some(text) =>
      var parts := Split(text, ',');
      SplitJoin(text, ',');
      if |parts| == 3 then
        assert parts[1..][1..] == [parts[2]];
        assert Join(parts[1..], ',') == parts[1] + [','] + parts[2];
        assert Join(parts, ',') == parts[0] + [','] + (parts[1] + [','] + parts[2]);
        Some(LogEntry(parts[0], parts[1], parts[2]))
      else None
  }

  /** `lines().filter_map(..).collect()`: the entries of the lines that
      parse, in order. */
  function LogEntries(lines: seq<Option<string>>): (r: seq<LogEntry>)
    ensures |r| <= |lines|
    decreases |lines|
  {
    if |lines| == 0 then []
    else
      match ParseLine(lines[0])
      case None => LogEntries(lines[1..])
      case Some(e) => [e] + LogEntries(lines[1..])
  }

  /** Every entry comes from a line that parses, and every line that parses
      gives an entry. */
  lemma {:induction false} LogEntriesAreParsed(lines: seq<Option<string>>)
    ensures forall e | e in LogEntries(lines) :: exists k | 0 <= k < |lines| :: ParseLine(lines[k]) == Some(e)
    ensures forall k | 0 <= k < |lines| && ParseLine(lines[k]).Some? :: ParseLine(lines[k]).value in LogEntries(lines)
    decreases |lines|
  {
    if |lines| > 0 {
      LogEntriesAreParsed(lines[1..]);
      forall e | e in LogEntries(lines)
        ensures exists k | 0 <= k < |lines| :: ParseLine(lines[k]) == Some(e)
      {
        if e in LogEntries(lines[1..]) {
          var k :| 0 <= k < |lines[1..]| && ParseLine(lines[1..][k]) == Some(e);
          assert ParseLine(lines[k + 1]) == Some(e);
        } else {
          assert ParseLine(lines[0]) == Some(e);
        }
      }
      forall k | 0 <= k < |lines| && ParseLine(lines[k]).Some?
        ensures ParseLine(lines[k]).value in LogEntries(lines)
      {
        if k > 0 {
          assert lines[k] == lines[1..][k - 1];
        }
      }
    }
  }

  /** The entries of one line: its parse, if any. */
  lemma LogEntriesOne(line: Option<string>)
    ensures LogEntries([line]) == if ParseLine(line).Some? then [ParseLine(line).value] else []
  {
    assert [line][1..] == [];
  }

  /** `filter_map` works line by line: the entries of two runs of lines are
      the entries of the first followed by those of the second, so order and
      repetitions are kept. */
  lemma {:induction false} LogEntriesAppend(a: seq<Option<string>>, b: seq<Option<string>>)
    ensures LogEntries(a + b) == LogEntries(a) + LogEntries(b)
    decreases |a|
  {
    if |a| == 0 {
      assert a + b == b;
    } else {
      assert (a + b)[0] == a[0];
      assert (a + b)[1..] == a[1..] + b;
      LogEntriesAppend(a[1..], b);
    }
  }

  /** The number of lines whose entry belongs to `user`. */
  function LinesOf(lines: seq<Option<string>>, user: string): (n: nat)
    ensures n <= |lines|
    decreases |lines|
  {
    if |lines| == 0 then 0
    else (if ParseLine(lines[0]).Some? && ParseLine(lines[0]).value.username == user then 1 else 0) + LinesOf(lines[1..], user)
  }

  /** Each user has as many entries as there are lines that parse to an
      entry of theirs. */
  lemma {:induction false} LogEntriesPerUser(lines: seq<Option<string>>, user: string)
    ensures Occurrences(LogEntries(lines), user) == LinesOf(lines, user)
    decreases |lines|
  {
    if |lines| > 0 {
      LogEntriesPerUser(lines[1..], user);
      var rest := LogEntries(lines[1..]);
      match ParseLine(lines[0])
      case None =>
      case Some(e) =>
        assert ([e] + rest)[1..] == rest;
    }
  }

  /** The number of entries of `user`: the reference count. */
  function Occurrences(es: seq<LogEntry>, user: string): (n: nat)
    ensures n <= |es|
    decreases |es|
  {
    if |es| == 0 then 0 else (if es[0].username == user then 1 else 0) + Occurrences(es[1..], user)
  }

  /** The `fold` of `usage`: for each entry in order,
      `*acc.entry(username).or_insert(0) += 1`. */
  function CountUsers(acc: map<string, nat>, es: seq<LogEntry>): (r: map<string, nat>)
    decreases |es|
  {
    if |es| == 0 then acc
    else
      var u := es[0].username;
      CountUsers(acc[u := (if u in acc then acc[u] else 0) + 1], es[1..])
  }

  /** The fold adds each user's number of entries to what the map held, and
      a user is in the result exactly when it was in the map or has an
      entry. */
  lemma {:induction false} CountUsersAdds(acc: map<string, nat>, es: seq<LogEntry>, user: string)
    ensures user in CountUsers(acc, es) <==> user in acc || Occurrences(es, user) > 0
    ensures CountUsers(acc, es).Keys >= acc.Keys
    ensures user in CountUsers(acc, es) ==> CountUsers(acc, es)[user] == (if user in acc then acc[user] else 0) + Occurrences(es, user)
    decreases |es|
  {
    if |es| > 0 {
      var u := es[0].username;
      var acc' := acc[u := (if u in acc then acc[u] else 0) + 1];
      CountUsersAdds(acc', es[1..], user);
    }
  }

  /** `user_access_count`: a user is a key exactly when it has an entry, and
      its count is its number of entries. */
  lemma UserAccessCount(es: seq<LogEntry>, user: string)
    ensures user in CountUsers(map[], es) <==> Occurrences(es, user) > 0
    ensures user in CountUsers(map[], es) ==> CountUsers(map[], es)[user] == Occurrences(es, user)
  {
    CountUsersAdds(map[], es, user);
  }
}

=== FILE: mem_lists.dfy ===
/** The three lists of `mem.rs`: a singly linked list of boxed items
    appended at its tail, a doubly linked list of shared nodes found by
    walking to the tail, and a copy-on-write list whose `append` returns a
    new list; plus `NameLengthCow`, which records a name's byte length. */
module MemLists {
  import opened Wrappers

  // ---------------------------------------------------------------------
  // Singly linked list (`ListItem`, `SinglyLinkedList`)
  // ---------------------------------------------------------------------

  /** `ListItem<T>`: a value and the boxed item after it, if any. */
  datatype Item<T> = Item(data: T, next: Option<Item<T>>)

  /** `ListItem::new`: an item with nothing after it. */
  function NewItem<T>(x: T): (r: Item<T>)
    ensures Values(r) == [x]
  {
    Item(x, None)
  }

  /** The items reached from `i` by following `next`, `i` first. Every item
      but the last has a successor, which is the next item of the chain. */
  function Chain<T>(i: Item<T>): (r: seq<Item<T>>)
    ensures |r| >= 1 && r[0] == i && r[|r| - 1].next.None?
    ensures forall k | 0 <= k < |r| - 1 :: r[k].next == Some(r[k + 1])
    decreases i
  {
    match i.next
    case None => [i]
    case Some(n) => [i] + Chain(n)
  }

  /** The values of the items reached from `i`, in order. */
  function Values<T>(i: Item<T>): (r: seq<T>)
    ensures |r| >= 1 && r[0] == i.data
    decreases i
  {
    match i.next
    case None => [i.data]
    case Some(n) => [i.data] + Values(n)
  }

  /** `ListItem::mut_tail`: the item at the end of the chain, the only one
      of the chain without a successor. */
  function Tail<T>(i: Item<T>): (r: Item<T>)
    ensures r.next.None?
    ensures r == Chain(i)[|Chain(i)| - 1]
    ensures forall k | 0 <= k < |Chain(i)| && Chain(i)[k].next.None? :: Chain(i)[k] == r
    decreases i
  {
    match i.next
    case None => i
    case Some(n) => Tail(n)
  }

  /** `tail.next = Some(Box::new(ListItem::new(x)))` on the tail found by
      `mut_tail`: the chain gains one item holding `x` at its end, and every
      earlier item keeps its value. */
  function AppendItem<T>(i: Item<T>, x: T): (r: Item<T>)
    ensures Values(r) == Values(i) + [x]
    ensures Tail(r) == NewItem(x)
    decreases i
  {
    match i.next
    case None => Item(i.data, Some(NewItem(x)))
    case Some(n) => Item(i.data, Some(AppendItem(n, x)))
  }

  /** The values are those of the chain's items, in order. */
  lemma {:induction false} ValuesOfChain<T>(i: Item<T>)
    ensures |Values(i)| == |Chain(i)|
    ensures forall k | 0 <= k < |Chain(i)| :: Values(i)[k] == Chain(i)[k].data
    decreases i
  {
    if i.next.Some? {
      ValuesOfChain(i.next.value);
    }
  }

  /** Appending links the old tail to the new item and keeps the items before
      the old tail's link as they were. */
  lemma {:induction false} AppendLinksOldTail<T>(i: Item<T>, x: T)
    ensures |Chain(AppendItem(i, x))| == |Chain(i)| + 1
    ensures Chain(AppendItem(i, x))[|Chain(i)| - 1].next == Some(NewItem(x))
    ensures forall k | 0 <= k < |Chain(i)| :: Chain(AppendItem(i, x))[k].data == Chain(i)[k].data
    decreases i
  {
    if i.next.Some? {
      AppendLinksOldTail(i.next.value, x);
    }
  }

  /** `SinglyLinkedList<T>`: owns its head item. */
  datatype SinglyList<T> = SinglyList(head: Item<T>)

  /** `SinglyLinkedList::new`: a list of exactly one item. */
  function SinglyNew<T>(x: T): (r: SinglyList<T>)
    ensures Values(r.head) == [x] && |Chain(r.head)| == 1
  {
    SinglyList(NewItem(x))
  }

  /** `SinglyLinkedList::append`. */
  function SinglyAppend<T>(l: SinglyList<T>, x: T): (r: SinglyList<T>)
    ensures Values(r.head) == Values(l.head) + [x]
    ensures r.head.data == l.head.data
  {
    SinglyList(AppendItem(l.head, x))
  }

  /** The loop of `run_singlylist`: start at `head` and follow `next`
      (`ListItem::next`) until it is `None`, visiting every item. It ends,
      and visits the values in the order they were appended. */
  method Walk<T>(l: SinglyList<T>) returns (visited: seq<T>)
    ensures visited == Values(l.head)
  {
    var item := l.head;
    visited := [item.data];
    while item.next.Some?
      invariant |visited| >= 1 && visited[|visited| - 1] == item.data
      invariant visited[..|visited| - 1] + Values(item) == Values(l.head)
      decreases item
    {
      ghost var before := visited;
      item := item.next.value;
      visited := visited + [item.data];
      assert visited[..|visited| - 1] == before;
    }
    assert visited == visited[..|visited| - 1] + [item.data];
  }

  /** The values `run_singlylist` prints after `new("head")`, `append("middle")`,
      `append("tail")`. */
  lemma SinglyScenario()
    ensures Values(SinglyAppend(SinglyAppend(SinglyNew("head"), "middle"), "tail").head) == ["head", "middle", "tail"]
  {
  }

  // ---------------------------------------------------------------------
  // Copy-on-write singly linked list (`SinglyLinkedListCow`)
  // ---------------------------------------------------------------------

  /** `SinglyLinkedListCow<T>`: a head item held as a `Cow`. Values in this
      model are never shared mutably, so the owned and borrowed cases of the
      `Cow` are the same value. */
  datatype CowList<T> = CowList(head: Item<T>)

  /** `SinglyLinkedListCow::new`. */
  function CowNew<T>(x: T): (r: CowList<T>)
    ensures Values(r.head) == [x]
  {
    CowList(NewItem(x))
  }

  /** `SinglyLinkedListCow::append`: clone the list, append `x` at the tail
      of the clone (through `mut_tail`) and return the clone. The receiver
      is a value and is not touched. */
  function CowAppend<T>(l: CowList<T>, x: T): (r: CowList<T>)
    ensures Values(r.head) == Values(l.head) + [x]
  {
    var clone := l;
    CowList(AppendItem(clone.head, x))
  }

  /** Appending to the copy-on-write list and appending to the owning list
      give the same values. */
  lemma CowAgreesWithSingly<T>(x: T, ys: seq<T>)
    ensures Values(CowAppendAll(CowNew(x), ys).head) == Values(SinglyAppendAll(SinglyNew(x), ys).head)
    ensures Values(CowAppendAll(CowNew(x), ys).head) == [x] + ys
  {
    CowAppendAllValues(CowNew(x), ys);
    SinglyAppendAllValues(SinglyNew(x), ys);
  }

  /** Several appends to the copy-on-write list, in order. */
  function CowAppendAll<T>(l: CowList<T>, ys: seq<T>): (r: CowList<T>)
    decreases |ys|
  {
    if |ys| == 0 then l else CowAppendAll(CowAppend(l, ys[0]), ys[1..])
  }

  /** Several appends to the owning list, in order. */
  function SinglyAppendAll<T>(l: SinglyList<T>, ys: seq<T>): (r: SinglyList<T>)
    decreases |ys|
  {
    if |ys| == 0 then l else SinglyAppendAll(SinglyAppend(l, ys[0]), ys[1..])
  }

  /** Appending `ys` one by one adds them at the end in order. */
  lemma {:induction false} CowAppendAllValues<T>(l: CowList<T>, ys: seq<T>)
    ensures Values(CowAppendAll(l, ys).head) == Values(l.head) + ys
    decreases |ys|
  {
    if |ys| > 0 {
      CowAppendAllValues(CowAppend(l, ys[0]), ys[1..]);
      assert [ys[0]] + ys[1..] == ys;
    }
  }

  /** Appending `ys` one by one adds them at the end in order. */
  lemma {:induction false} SinglyAppendAllValues<T>(l: SinglyList<T>, ys: seq<T>)
    ensures Values(SinglyAppendAll(l, ys).head) == Values(l.head) + ys
    decreases |ys|
  {
    if |ys| > 0 {
      SinglyAppendAllValues(SinglyAppend(l, ys[0]), ys[1..]);
      assert [ys[0]] + ys[1..] == ys;
    }
  }

  // ---------------------------------------------------------------------
  // Doubly linked list of shared nodes (`Node`, `DoublyLinkedList`)
  // ---------------------------------------------------------------------

  /** `Node<T>`: the shared handles to the neighbours are indices into the
      arena of all nodes ever created. */
  datatype DNode<T> = DNode(prev: Option<nat>, data: T, next: Option<nat>)

  /** `DoublyLinkedList<T>`: the arena and the handle of the head. */
  datatype DList<T> = DList(nodes: seq<DNode<T>>, head: nat)

  /** Every handle is live, and following `next` moves to a later node, so
      a walk along `next` ends. */
  predicate ForwardLinks<T>(l: DList<T>)
  {
    && l.head < |l.nodes|
    && forall i | 0 <= i < |l.nodes| :: l.nodes[i].next.Some? ==> i < l.nodes[i].next.value < |l.nodes|
  }

  /** The shape every list built by `new` and `append` has: the nodes in
      arena order form the list, each linked to its neighbours. */
  ghost predicate Linear<T>(l: DList<T>)
  {
    && |l.nodes| >= 1 && l.head == 0
    && (forall i | 0 <= i < |l.nodes| :: l.nodes[i].next == (if i + 1 < |l.nodes| then Some(i + 1) else None))
    && (forall i | 0 <= i < |l.nodes| :: l.nodes[i].prev == (if i > 0 then Some(i - 1) else None))
  }

  /** `DoublyLinkedList::new`: one node, neither predecessor nor successor. */
  function DNew<T>(x: T): (r: DList<T>)
    ensures ForwardLinks(r) && Linear(r)
    ensures |r.nodes| == 1 && r.nodes[r.head].data == x
    ensures DValues(r) == [x]
  {
    DList([DNode(None, x, None)], 0)
  }

  /** `DoublyLinkedList::find_tail`: follow `next` from `id` until it is
      `None`. */
  function FindTail<T>(l: DList<T>, id: nat): (r: nat)
    requires ForwardLinks(l) && id < |l.nodes|
    ensures id <= r < |l.nodes| && l.nodes[r].next.None?
    decreases |l.nodes| - id
  {
    match l.nodes[id].next
    case None => id
    case Some(n) => FindTail(l, n)
  }

  /** On a list of the shape `new` and `append` build, the tail is the last
      node created, wherever the walk starts. */
  lemma {:induction false} FindTailLinear<T>(l: DList<T>, id: nat)
    requires ForwardLinks(l) && Linear(l) && id < |l.nodes|
    ensures FindTail(l, id) == |l.nodes| - 1
    decreases |l.nodes| - id
  {
    if id + 1 < |l.nodes| {
      FindTailLinear(l, id + 1);
    }
  }

  /** `DoublyLinkedList::append`: a new node whose `prev` is the tail, and the
      tail's `next` set to the new node. Nothing else changes. */
  function DAppend<T>(l: DList<T>, x: T): (r: DList<T>)
    requires ForwardLinks(l)
    ensures ForwardLinks(r) && r.head == l.head
    ensures |r.nodes| == |l.nodes| + 1
    ensures r.nodes[|l.nodes|] == DNode(Some(FindTail(l, l.head)), x, None)
    ensures r.nodes[FindTail(l, l.head)] == l.nodes[FindTail(l, l.head)].(next := Some(|l.nodes|))
    ensures forall i | 0 <= i < |l.nodes| && i != FindTail(l, l.head) :: r.nodes[i] == l.nodes[i]
  {
    var tail := FindTail(l, l.head);
    var newId := |l.nodes|;
    var nodes := l.nodes[tail := l.nodes[tail].(next := Some(newId))] + [DNode(Some(tail), x, None)];
    DList(nodes, l.head)
  }

  /** `DoublyLinkedList::head`. */
  function DHead<T>(l: DList<T>): T
    requires ForwardLinks(l)
  {
    l.nodes[l.head].data
  }

  /** `DoublyLinkedList::tail`: `find_tail` from the head. */
  function DTail<T>(l: DList<T>): T
    requires ForwardLinks(l)
  {
    l.nodes[FindTail(l, l.head)].data
  }

  /** On a list of the shape `new` and `append` build, `head` is the first
      value and `tail` the last. */
  lemma DEnds<T>(l: DList<T>)
    requires ForwardLinks(l) && Linear(l)
    ensures DHead(l) == DValues(l)[0]
    ensures DTail(l) == DValues(l)[|DValues(l)| - 1]
  {
    FindTailLinear(l, l.head);
  }

  /** The values of a list of the `Linear` shape, head first. */
  ghost function DValues<T>(l: DList<T>): (r: seq<T>)
  {
    seq(|l.nodes|, i requires 0 <= i < |l.nodes| => l.nodes[i].data)
  }

  /** `append` keeps the shape and adds its value at the end. */
  lemma DAppendLinear<T>(l: DList<T>, x: T)
    requires ForwardLinks(l) && Linear(l)
    ensures Linear(DAppend(l, x))
    ensures DValues(DAppend(l, x)) == DValues(l) + [x]
  {
    FindTailLinear(l, l.head);
    var r := DAppend(l, x);
    assert DValues(r) == DValues(l) + [x];
  }

  /** The test of `mem.rs`: after `new("first")`, `append("second")` and
      `append("third")`, the head holds "first" and the tail "third". */
  lemma DoublyScenario()
    ensures var l := DAppend(DAppend(DNew("first"), "second"), "third");
      DHead(l) == "first" && DTail(l) == "third"
  {
    var l0 := DNew("first");
    DAppendLinear(l0, "second");
    var l1 := DAppend(l0, "second");
    DAppendLinear(l1, "third");
    var l2 := DAppend(l1, "third");
    assert DValues(l2) == ["first", "second", "third"];
    DEnds(l2);
  }

  // ---------------------------------------------------------------------
  // `NameLengthCow`
  // ---------------------------------------------------------------------

  /** The UTF-8 encoding of one Unicode scalar value (section 3 of RFC 3629). */
  function Utf8Char(c: char): (r: seq<nat>)
    ensures 1 <= |r| <= 4
    ensures forall k | 0 <= k < |r| :: r[k] < 256
    ensures (c as int < 0x80) <==> |r| == 1
  {
    var n := c as int;
    if n < 0x80 then [n]
    else if n < 0x800 then [0xC0 + n / 0x40, 0x80 + n % 0x40]
    else if n < 0x1_0000 then [0xE0 + n / 0x1000, 0x80 + (n / 0x40) % 0x40, 0x80 + n % 0x40]
    else [0xF0 + n / 0x4_0000, 0x80 + (n / 0x1000) % 0x40, 0x80 + (n / 0x40) % 0x40, 0x80 + n % 0x40]
  }

  /** The UTF-8 encoding of a string, the bytes a Rust `str` holds. */
  function Utf8(s: string): (r: seq<nat>)
    ensures |s| <= |r| <= 4 * |s|
    decreases |s|
  {
    if |s| == 0 then [] else Utf8Char(s[0]) + Utf8(s[1..])
  }

  /** The number of UTF-8 bytes of one character, by its code point range. */
  function Utf8Width(c: char): (w: nat)
  {
    if c as int < 0x80 then 1
    else if c as int < 0x800 then 2
    else if c as int < 0x1_0000 then 3
    else 4
  }

  /** `str::len`: the byte length, summed over the characters. */
  function ByteLen(s: string): (n: nat)
    decreases |s|
  {
    if |s| == 0 then 0 else Utf8Width(s[0]) + ByteLen(s[1..])
  }

  /** `ByteLen` counts the bytes of the UTF-8 encoding. */
  lemma {:induction false} ByteLenIsUtf8Length(s: string)
    ensures ByteLen(s) == |Utf8(s)|
    decreases |s|
  {
    if |s| > 0 {
      ByteLenIsUtf8Length(s[1..]);
    }
  }

  /** A string of ASCII characters has one byte per character. */
  lemma {:induction false} AsciiByteLen(s: string)
    requires forall k | 0 <= k < |s| :: s[k] as int < 0x80
    ensures ByteLen(s) == |s|
    decreases |s|
  {
    if |s| > 0 {
      AsciiByteLen(s[1..]);
    }
  }

  /** `NameLengthCow`: a name and its length. */
  datatype NameLength = NameLength(name: string, length: nat)

  /** `NameLengthCow::new`: the length is `name.len()`, the byte length of
      the UTF-8 text, which is at least the number of characters. */
  function NewNameLength(name: string): (r: NameLength)
    ensures r.name == name
    ensures r.length == |Utf8(name)|
    ensures |name| <= r.length <= 4 * |name|
  {
    ByteLenIsUtf8Length(name);
    NameLength(name, ByteLen(name))
  }
}

=== FILE: merge_routes.dfy ===
/** Route composition, registration and login of web/merge_routes.rs.

    The `user` table is a map from username to the stored row (the query
    `select ... where username = ?` finds at most the row of that key).
    What the database reports for an insert, and the JWT encoder, are
    parameters. */
module MergeRoutes {
  import opened Wrappers
  import opened Http
  import opened Response

  // Routes

  datatype Method = Get | Post

  /** The three handlers that the routers mount. */
  datatype Handler = AuthorizeHandler | LoginHandler | UserListHandler

  /** One mounted route; `needsClaims` says whether the `Claims` extractor
      layer guards it. */
  datatype Route = Route(path: string, verb: Method, handler: Handler, needsClaims: bool)

  /** A router is its routes, in the order they were merged. */
  type Router = seq<Route>

  /** `handle_router`: one route mounted at "/api" followed by `path`. */
  function HandleRouter(path: string, verb: Method, handler: Handler): (r: Router)
    ensures |r| == 1 && r[0].path == "/api" + path
    ensures r[0].verb == verb && r[0].handler == handler && !r[0].needsClaims
  {
    [Route("/api" + path, verb, handler, false)]
  }

  /** `register`, `login` and `get_user_list` in api.rs. */
  function RegisterRoute(): Router { HandleRouter("/register", Post, AuthorizeHandler) }
  function LoginRoute(): Router { HandleRouter("/login", Post, LoginHandler) }
  function UserListRoute(): Router { HandleRouter("/user-list", Get, UserListHandler) }

  /** `.layer(from_extractor::<Claims>())` guards every route already in the
      router. */
  function WithClaims(r: Router): (g: Router)
    ensures |g| == |r|
    ensures forall k | 0 <= k < |r| :: g[k] == r[k].(needsClaims := true)
  {
    seq(|r|, k requires 0 <= k < |r| => r[k].(needsClaims := true))
  }

  /** `auth_init_router`: the user list, behind the `Claims` extractor. */
  function AuthInitRouter(): Router { WithClaims(UserListRoute()) }

  /** `init_router`: login and register, unguarded. */
  function InitRouter(): Router { LoginRoute() + RegisterRoute() }

  /** `routers`: both merged. */
  function Routers(): (r: Router)
  {
    AuthInitRouter() + InitRouter()
  }

  /** The route a request for `path` with `verb` reaches, if any. */
  function Lookup(r: Router, path: string, verb: Method): (found: Option<Route>)
    ensures found.Some? ==> found.value in r && found.value.path == path && found.value.verb == verb
    ensures found.None? ==> forall rt | rt in r :: rt.path != path || rt.verb != verb
  {
    if |r| == 0 then None
    else if r[0].path == path && r[0].verb == verb then Some(r[0])
    else Lookup(r[1..], path, verb)
  }

  /** The merged router, route by route. */
  lemma RoutersListed()
    ensures Routers() == [Route("/api/user-list", Get, UserListHandler, true),
                          Route("/api/login", Post, LoginHandler, false),
                          Route("/api/register", Post, AuthorizeHandler, false)]
  {
    assert "/api" + "/user-list" == "/api/user-list";
    assert "/api" + "/login" == "/api/login";
    assert "/api" + "/register" == "/api/register";
  }

  /** The mounted API: register and login are open POST routes, the user
      list is a GET route behind the `Claims` extractor, and nothing else is
      mounted. */
  lemma RoutesMounted()
    ensures Lookup(Routers(), "/api/register", Post) == Some(Route("/api/register", Post, AuthorizeHandler, false))
    ensures Lookup(Routers(), "/api/login", Post) == Some(Route("/api/login", Post, LoginHandler, false))
    ensures Lookup(Routers(), "/api/user-list", Get) == Some(Route("/api/user-list", Get, UserListHandler, true))
    ensures forall rt | rt in Routers() :: rt.path in {"/api/register", "/api/login", "/api/user-list"}
    ensures forall rt | rt in Routers() :: rt.needsClaims <==> rt.handler == UserListHandler
  {
    RoutersListed();
  }

  // Registration

  /** A row of the `user` table, and the registration request body. */
  datatype AuthPayload = AuthPayload(password: string, username: string, cred: string, email: string)

  /** The stored users, keyed by username. */
  type Store = map<string, AuthPayload>

  /** `AuthToken`: an access token and its type. */
  datatype AuthToken = AuthToken(accessToken: string, tokenType: string)

  /** `AuthToken::new`: the type is always "Bearer". */
  function NewAuthToken(accessToken: string): (t: AuthToken)
    ensures t.accessToken == accessToken && t.tokenType == "Bearer"
  {
    AuthToken(accessToken, "Bearer")
  }

  /** What the database reports for `servers::create`: rows affected, or an
      error message. */
  datatype InsertOutcome = Inserted(rows: nat) | DbError(message: string)

  /** Every row is stored under its own username. */
  predicate Keyed(store: Store) {
    forall u | u in store :: store[u].username == u
  }

  /** The registration request can be stored: both credentials present. */
  predicate Complete(p: AuthPayload) {
    p.username != "" && p.password != ""
  }

  /** `servers::show(username)`: the stored row, or an error. The query
      errs when no row has that name, and also when it fails for a reason of
      its own (`queryFails`); the handlers cannot tell the two apart. */
  function Show(store: Store, username: string, queryFails: bool): (r: Option<AuthPayload>)
    ensures r.Some? <==> !queryFails && username in store
    ensures r.Some? ==> r.value == store[username]
  {
    if queryFails || username !in store then None else Some(store[username])
  }

  /** `authorize` sees `username` as registered: the lookup finds a row and
      the row carries that username. */
  predicate Registered(store: Store, username: string, queryFails: bool) {
    Show(store, username, queryFails).Some? && Show(store, username, queryFails).value.username == username
  }

  /** `authorize`: the response and the store afterwards. An empty username
      is refused first, then an empty password; a username the lookup finds
      is answered with a tip and nothing is written; otherwise, a failed
      lookup included, the insert is attempted and succeeds only when it
      reports exactly one row. */
  function Authorize(store: Store, p: AuthPayload, queryFails: bool, insert: InsertOutcome): (r: (RespVO<AuthToken>, Store))
    ensures p.username == "" ==> r == (FromError("用户名不能为空！"), store)
    ensures p.username != "" && p.password == "" ==> r == (FromError("密码不能为空！"), store)
    ensures Complete(p) && Registered(store, p.username, queryFails) ==> r == (FromResultTip("用户名已注册！"), store)
    ensures r.0.code == Some(OK) <==> Complete(p) && (Registered(store, p.username, queryFails) || insert == Inserted(1))
    ensures r.1 != store ==> Complete(p) && !Registered(store, p.username, queryFails) && insert == Inserted(1)
    ensures Complete(p) && !Registered(store, p.username, queryFails) && insert == Inserted(1) ==>
      r == (FromResultTip("注册成功！"), store[p.username := p])
    ensures Complete(p) && !Registered(store, p.username, queryFails) && insert.Inserted? && insert.rows != 1 ==>
      r == (FromError("写入数据库失败！"), store)
    ensures Complete(p) && !Registered(store, p.username, queryFails) && insert.DbError? ==>
      r == (FromError(insert.message), store)
    ensures Keyed(store) ==> (Registered(store, p.username, queryFails) <==> !queryFails && p.username in store)
    ensures r.0.data.None?
    ensures Keyed(store) ==> Keyed(r.1)
  {
    if p.username == "" then (FromError("用户名不能为空！"), store)
    else if p.password == "" then (FromError("密码不能为空！"), store)
    else if Registered(store, p.username, queryFails) then (FromResultTip("用户名已注册！"), store)
    else match insert
      case Inserted(n) =>
        if n == 1 then (FromResultTip("注册成功！"), store[p.username := p])
        else (FromError("写入数据库失败！"), store)
      case DbError(m) => (FromError(m), store)
  }

  // Login

  /** `AuthPayToken`: the claims signed into a token. */
  datatype Claims = Claims(password: string, username: string, exp: Option<int>)

  /** The fixed expiry every token carries. */
  const TOKEN_EXP: int := 2000000000

  /** The claims `init_token` signs for a stored user. */
  function ClaimsFor(p: AuthPayload): (c: Claims)
    ensures c.username == p.username && c.password == p.password && c.exp == Some(TOKEN_EXP)
  {
    Claims(p.password, p.username, Some(TOKEN_EXP))
  }

  /** A JWT encoder: the token, or why it could not be made. */
  type Encoder = Claims -> Result<string, string>

  /** The panic of `Result::unwrap` on an `Err` value: the fixed text, then
      the error's `Debug` form. */
  function UnwrapPanic(debug: string): Panic
  {
    Panic("called `Result::unwrap()` on an `Err` value: " + debug)
  }

  /** The `Debug` form of `Json(RespVO::from_error(msg))`: axum's `Json` and
      `RespVO` both derive `Debug`. */
  function JsonErrorDebug(msg: string): string
  {
    "Json(RespVO { code: Some(400), msg: Some(\"" + msg + "\"), data: None })"
  }

  /** The panic of `init_token` when encoding fails: the error is mapped to
      `Json(RespVO::from_error("token创建失败！"))` before the `unwrap`. */
  function TokenPanic(): Panic
  {
    UnwrapPanic(JsonErrorDebug("token创建失败！"))
  }

  /** `init_token`: encode the user's claims; a failed encoding is unwrapped
      and panics. */
  function InitToken(p: AuthPayload, encode: Encoder): (r: Result<string, Panic>)
    ensures r.Ok? <==> encode(ClaimsFor(p)).Ok?
    ensures r.Ok? ==> r.value == encode(ClaimsFor(p)).value
    ensures r.Err? ==> r.error == TokenPanic()
  {
    match encode(ClaimsFor(p))
    case Ok(token) => Ok(token)
    case Err(_) => Err(TokenPanic())
  }

  /** The login request body. */
  datatype LoginPayload = LoginPayload(username: string, password: string)

  /** The login response body. */
  datatype LoginResponse = LoginResponse(username: string, accessToken: string, tokenType: string)

  /** Response headers by name. */
  type Headers = map<string, string>

  const COOKIE_NAME: string := "MERGE_TOKEN"
  const SET_COOKIE: string := "set-cookie"

  /** The Set-Cookie value for a token. */
  function Cookie(token: string): string {
    COOKIE_NAME + "=" + token + ";HTTPOnly"
  }

  /** A string `parse::<HeaderValue>()` accepts. */
  predicate ValidHeader(s: string) {
    forall k | 0 <= k < |s| :: HeaderChar(s[k])
  }

  /** The lookup finds the user a login request names, and the password
      matches. */
  predicate Accepts(store: Store, body: LoginPayload, queryFails: bool) {
    Show(store, body.username, queryFails).Some? && Show(store, body.username, queryFails).value.password == body.password
  }

  /** One of the two `unwrap`s of an accepted login fails for the stored
      row: the encoder refuses its claims, or the cookie holding the token is
      not a valid header value. */
  predicate UnwrapFails(row: AuthPayload, encode: Encoder) {
    encode(ClaimsFor(row)).Err? || !ValidHeader(Cookie(encode(ClaimsFor(row)).value))
  }

  /** In a keyed store, a successful login answers with the username that
      was asked for. */
  lemma LoginNamesRequester(store: Store, body: LoginPayload, queryFails: bool, encode: Encoder)
    requires Keyed(store)
    ensures var r := Login(store, body, queryFails, encode);
      r.Ok? && r.value.1.code == Some(OK) ==> r.value.1.data.value.username == body.username
  {
  }

  /** `login`: the headers and the response. A user the lookup does not find
      and a wrong password get an error and no cookie. Otherwise the token
      is made and set as a cookie; a failed encoding or a cookie that is not
      a valid header value panics on `unwrap`. */
  function Login(store: Store, body: LoginPayload, queryFails: bool, encode: Encoder): (r: Result<(Headers, RespVO<LoginResponse>), Panic>)
    ensures Show(store, body.username, queryFails).None? ==> r == Ok((map[], FromError("用户名无效！")))
    ensures Show(store, body.username, queryFails).Some? && !Accepts(store, body, queryFails) ==>
      r == Ok((map[], FromError("密码错误！")))
    ensures r.Err? <==> (Accepts(store, body, queryFails) && UnwrapFails(store[body.username], encode))
    ensures Accepts(store, body, queryFails) && encode(ClaimsFor(store[body.username])).Err? ==>
      r == Err(TokenPanic())
    ensures (Accepts(store, body, queryFails) && encode(ClaimsFor(store[body.username])).Ok? &&
             !ValidHeader(Cookie(encode(ClaimsFor(store[body.username])).value))) ==>
      r == Err(UnwrapPanic("InvalidHeaderValue"))
    ensures Accepts(store, body, queryFails) && r.Ok? ==> r.value.1.code == Some(OK)
    ensures r.Ok? && r.value.1.code != Some(OK) ==> r.value.0 == map[]
    ensures r.Ok? && r.value.1.code == Some(OK) ==>
      Accepts(store, body, queryFails) && r.value.1.data.Some? &&
      var resp := r.value.1.data.value;
      resp.username == store[body.username].username && resp.tokenType == "Bearer" &&
      encode(ClaimsFor(store[body.username])) == Ok(resp.accessToken) &&
      r.value.0 == map[SET_COOKIE := Cookie(resp.accessToken)]
  {
    match Show(store, body.username, queryFails)
    case None => Ok((map[], FromError("用户名无效！")))
    case Some(res) =>
      if body.password != res.password then Ok((map[], FromError("密码错误！")))
      else match InitToken(res, encode)
        case Err(p) => Err(p)
        case Ok(token) =>
          var cookie := Cookie(token);
          if !ValidHeader(cookie) then Err(UnwrapPanic("InvalidHeaderValue"))
          else
            var arg := NewAuthToken(token);
            Ok((map[SET_COOKIE := cookie], FromResult(LoginResponse(res.username, arg.accessToken, arg.tokenType))))
  }

  /** After a successful registration, logging in with the same credentials
      succeeds (when the lookup works and the encoder produces a header-safe
      token) and returns the registered username with a token for that
      user's claims. */
  lemma RegisterThenLogin(store: Store, p: AuthPayload, queryFails: bool, encode: Encoder)
    requires Keyed(store) && Complete(p) && p.username !in store
    requires encode(ClaimsFor(p)).Ok? && ValidHeader(Cookie(encode(ClaimsFor(p)).value))
    ensures Authorize(store, p, queryFails, Inserted(1)).0.code == Some(OK)
    ensures var after := Authorize(store, p, queryFails, Inserted(1)).1;
      var r := Login(after, LoginPayload(p.username, p.password), false, encode);
      r.Ok? && r.value.1.code == Some(OK) &&
      r.value.1.data == Some(LoginResponse(p.username, encode(ClaimsFor(p)).value, "Bearer"))
  {
    var after := Authorize(store, p, queryFails, Inserted(1)).1;
    assert after == store[p.username := p];
    assert after[p.username] == p;
  }

  /** A second registration of the same username writes nothing, whatever
      the database would report, as long as the lookup works; when it fails,
      the insert is attempted again. */
  lemma RegisterTwice(store: Store, p: AuthPayload, q: AuthPayload, insert: InsertOutcome)
    requires Complete(p) && p.username !in store
    requires Complete(q) && q.username == p.username
    ensures var after := Authorize(store, p, false, Inserted(1)).1;
      Authorize(after, q, false, insert) == (FromResultTip("用户名已注册！"), after)
    ensures var after := Authorize(store, p, false, Inserted(1)).1;
      Authorize(after, q, true, insert).0.code == Some(OK) <==> insert == Inserted(1)
  {
  }

  /** A wrong password after registration is refused with no cookie. */
  lemma WrongPasswordRefused(store: Store, p: AuthPayload, pw: string, encode: Encoder)
    requires Complete(p) && p.username !in store && pw != p.password
    ensures var after := Authorize(store, p, false, Inserted(1)).1;
      Login(after, LoginPayload(p.username, pw), false, encode) == Ok((map[], FromError("密码错误！")))
  {
    var after := Authorize(store, p, false, Inserted(1)).1;
    assert after[p.username] == p;
  }
}

=== FILE: observers.dfy ===
/** The observer registry of guide/observer.rs and the `Subject` half of
    guide/asyncer.rs.

    A subject keeps weak handles to its observers. A handle is modelled by
    the identity of the observer's allocation (what `Weak::ptr_eq`
    compares); whether that allocation is still alive is decided outside
    the subject and is passed in as the set `alive`. */
module Observers {

  /** The identity of an observer allocation. */
  type Handle = nat

  /** A subject: its registered weak handles, in registration order, and
      its state. Both source files use this same shape. */
  datatype Subject = Subject(observers: seq<Handle>, state: string)

  /** One call of `observe(subject)` on a live observer. */
  datatype Observation = Observation(observer: Handle, state: string)

  /** `Subject::new`: no observers and the given state. */
  function New(state: string): (s: Subject)
    ensures s.observers == [] && s.state == state
  {
    Subject([], state)
  }

  /** `Subject::state`. */
  function State(s: Subject): string {
    s.state
  }

  /** `attach`: push a weak handle; nothing else changes. */
  function Attach(s: Subject, o: Handle): (r: Subject)
    ensures r.state == s.state
    ensures |r.observers| == |s.observers| + 1 && r.observers[..|s.observers|] == s.observers
    ensures r.observers[|s.observers|] == o
  {
    Subject(s.observers + [o], s.state)
  }

  /** `Vec::retain(|f| !f.ptr_eq(o))`: keep every handle other than `o`. */
  function Retain(hs: seq<Handle>, o: Handle): (r: seq<Handle>)
    ensures |r| <= |hs| && o !in r
    ensures forall x | x in r :: x in hs
  {
    if |hs| == 0 then []
    else if hs[|hs| - 1] == o then Retain(hs[..|hs| - 1], o)
    else Retain(hs[..|hs| - 1], o) + [hs[|hs| - 1]]
  }

  /** `detach`: remove every handle identical to `o`. */
  function Detach(s: Subject, o: Handle): (r: Subject)
    ensures r.state == s.state && o !in r.observers
    ensures forall x | x in s.observers && x != o :: x in r.observers
  {
    RetainKeeps(s.observers, o);
    Subject(Retain(s.observers, o), s.state)
  }

  /** Every handle other than `o` survives `Retain`. */
  lemma {:induction false} RetainKeeps(hs: seq<Handle>, o: Handle)
    ensures forall x | x in hs && x != o :: x in Retain(hs, o)
  {
    if |hs| > 0 {
      var init := hs[..|hs| - 1];
      RetainKeeps(init, o);
      assert hs == init + [hs[|hs| - 1]];
    }
  }

  /** `Retain` works piece by piece, so it keeps the survivors in order. */
  lemma {:induction false} RetainAppend(a: seq<Handle>, b: seq<Handle>, o: Handle)
    ensures Retain(a + b, o) == Retain(a, o) + Retain(b, o)
    decreases |b|
  {
    if |b| == 0 {
      assert a + b == a;
    } else {
      var init := b[..|b| - 1];
      assert (a + b)[..|a + b| - 1] == a + init;
      assert (a + b)[|a + b| - 1] == b[|b| - 1];
      RetainAppend(a, init, o);
    }
  }

  /** `Retain` drops every copy of `o` and keeps every copy of the rest. */
  lemma {:induction false} RetainCounts(hs: seq<Handle>, o: Handle, x: Handle)
    ensures multiset(Retain(hs, o))[x] == if x == o then 0 else multiset(hs)[x]
  {
    if |hs| > 0 {
      var init := hs[..|hs| - 1];
      RetainCounts(init, o, x);
      assert hs == init + [hs[|hs| - 1]];
    }
  }

  /** Detaching an observer that was never attached changes nothing. */
  lemma {:induction false} RetainAbsent(hs: seq<Handle>, o: Handle)
    requires o !in hs
    ensures Retain(hs, o) == hs
  {
    if |hs| > 0 {
      var init := hs[..|hs| - 1];
      RetainAbsent(init, o);
      assert hs == init + [hs[|hs| - 1]];
    }
  }

  /** `detach` of an unregistered observer leaves the subject as it was. */
  lemma DetachUnregistered(s: Subject, o: Handle)
    requires o !in s.observers
    ensures Detach(s, o) == s
  {
    RetainAbsent(s.observers, o);
  }

  /** `detach` removes exactly the copies of `o`: the multiset of the
      other handles is unchanged. */
  lemma DetachCounts(s: Subject, o: Handle, x: Handle)
    ensures multiset(Detach(s, o).observers)[x] == if x == o then 0 else multiset(s.observers)[x]
  {
    RetainCounts(s.observers, o, x);
  }

  /** Attaching a new observer and detaching it again is a no-op. */
  lemma DetachUndoesAttach(s: Subject, o: Handle)
    requires o !in s.observers
    ensures Detach(Attach(s, o), o) == s
  {
    RetainAppend(s.observers, [o], o);
    RetainAbsent(s.observers, o);
    assert Retain([o], o) == Retain([], o);
  }

  /** `iter().flat_map(|o| o.upgrade())`: the handles whose observer is still
      alive, in registration order. */
  function Live(hs: seq<Handle>, alive: set<Handle>): (r: seq<Handle>)
    ensures |r| <= |hs|
    ensures forall x | x in r :: x in alive && x in hs
  {
    if |hs| == 0 then []
    else if hs[|hs| - 1] in alive then Live(hs[..|hs| - 1], alive) + [hs[|hs| - 1]]
    else Live(hs[..|hs| - 1], alive)
  }

  /** One `observe(subject)` per handle, in order. */
  function Notify(hs: seq<Handle>, state: string): (r: seq<Observation>)
    ensures |r| == |hs|
    ensures forall k | 0 <= k < |hs| :: r[k] == Observation(hs[k], state)
  {
    seq(|hs|, k requires 0 <= k < |hs| => Observation(hs[k], state))
  }

  /** The synchronous `update`: the observations it makes, in order. The
      subject is an input only, so `update` changes neither its state nor
      its handles. */
  function Update(s: Subject, alive: set<Handle>): (r: seq<Observation>)
    ensures |r| <= |s.observers|
    ensures forall n | n in r :: n.state == s.state && n.observer in alive && n.observer in s.observers
  {
    Notify(Live(s.observers, alive), s.state)
  }

  /** `Live` keeps every copy of a live handle and no copy of a dead one. */
  lemma {:induction false} LiveCounts(hs: seq<Handle>, alive: set<Handle>, x: Handle)
    ensures multiset(Live(hs, alive))[x] == if x in alive then multiset(hs)[x] else 0
  {
    if |hs| > 0 {
      var init := hs[..|hs| - 1];
      LiveCounts(init, alive, x);
      assert hs == init + [hs[|hs| - 1]];
    }
  }

  /** `Live` works piece by piece, so registration order is kept. */
  lemma {:induction false} LiveAppend(a: seq<Handle>, b: seq<Handle>, alive: set<Handle>)
    ensures Live(a + b, alive) == Live(a, alive) + Live(b, alive)
    decreases |b|
  {
    if |b| == 0 {
      assert a + b == a;
    } else {
      var init := b[..|b| - 1];
      assert (a + b)[..|a + b| - 1] == a + init;
      assert (a + b)[|a + b| - 1] == b[|b| - 1];
      LiveAppend(a, init, alive);
    }
  }

  /** An observation of handle `x` carries the subject's state, and the
      number of them is the number of copies of `x` in the handles. */
  lemma {:induction false} NotifyCounts(hs: seq<Handle>, state: string, x: Handle)
    ensures multiset(Notify(hs, state))[Observation(x, state)] == multiset(hs)[x]
  {
    if |hs| > 0 {
      var init := hs[..|hs| - 1];
      NotifyCounts(init, state, x);
      assert hs == init + [hs[|hs| - 1]];
      assert Notify(hs, state) == Notify(init, state) + [Observation(hs[|hs| - 1], state)];
    }
  }

  /** `update` observes each live registered observer once per registration
      and never observes a dead one. */
  lemma UpdateCounts(s: Subject, alive: set<Handle>, x: Handle)
    ensures multiset(Update(s, alive))[Observation(x, s.state)] == if x in alive then multiset(s.observers)[x] else 0
  {
    NotifyCounts(Live(s.observers, alive), s.state, x);
    LiveCounts(s.observers, alive, x);
  }

  /** `update` follows registration order: the observations for earlier
      registrations come first. */
  lemma UpdateInOrder(a: seq<Handle>, b: seq<Handle>, state: string, alive: set<Handle>)
    ensures Update(Subject(a + b, state), alive) == Update(Subject(a, state), alive) + Update(Subject(b, state), alive)
  {
    LiveAppend(a, b, alive);
  }

  /** A new subject observes nobody. */
  lemma NewNotifiesNobody(state: string, alive: set<Handle>)
    ensures Update(New(state), alive) == []
  {
  }

  /** The registry does not keep an observer alive: attaching a dead one
      adds no observation. */
  lemma AttachDeadObserver(s: Subject, o: Handle, alive: set<Handle>)
    requires o !in alive
    ensures Update(Attach(s, o), alive) == Update(s, alive)
  {
    UpdateInOrder(s.observers, [o], s.state, alive);
    assert Live([o], alive) == Live([], alive);
  }

  /** Attaching a live observer twice makes it observed two more times. */
  lemma AttachTwiceObservesTwice(s: Subject, o: Handle, alive: set<Handle>)
    requires o in alive
    ensures multiset(Update(Attach(Attach(s, o), o), alive))[Observation(o, s.state)]
         == multiset(Update(s, alive))[Observation(o, s.state)] + 2
  {
    var t := Attach(Attach(s, o), o);
    assert t.observers == s.observers + [o, o];
    UpdateCounts(t, alive, o);
    UpdateCounts(s, alive, o);
  }

  /** The demo in `run`: two live observers attached to a new subject are
      each observed once, in attach order, with the subject's state. */
  lemma ObserverScenario()
    ensures Update(Attach(Attach(New("some subject state"), 1), 2), {1, 2})
         == [Observation(1, "some subject state"), Observation(2, "some subject state")]
  {
    var s := Attach(Attach(New("some subject state"), 1), 2);
    assert s.observers == [1, 2];
    assert s.observers[..1] == [1];
    assert Live(s.observers, {1, 2}) == [1, 2];
  }

  // The asynchronous subject (asyncer.rs)

  /** The asynchronous `update` first collects the live observers, taking
      strong references, before it awaits anything. */
  function Snapshot(s: Subject, aliveAtCall: set<Handle>): (r: seq<Handle>)
    ensures |r| <= |s.observers|
    ensures forall x | x in r :: x in aliveAtCall && x in s.observers
  {
    Live(s.observers, aliveAtCall)
  }

  /** `join_all` polls one `observe` future per snapshot entry; they may
      finish in any order. `finished` is the order in which the futures
      complete: a rearrangement of the snapshot. The result lists the
      observations in that order, all of them done before `update`
      returns. */
  function AsyncUpdate(s: Subject, aliveAtCall: set<Handle>, finished: seq<Handle>): (r: seq<Observation>)
    requires multiset(finished) == multiset(Snapshot(s, aliveAtCall))
    ensures |r| == |Snapshot(s, aliveAtCall)|
    ensures forall n | n in r :: n.state == s.state && n.observer in aliveAtCall
  {
    var snap := Snapshot(s, aliveAtCall);
    assert |finished| == |multiset(finished)| == |multiset(snap)| == |snap|;
    forall k | 0 <= k < |finished|
      ensures finished[k] in aliveAtCall
    {
      assert finished[k] in multiset(snap);
    }
    Notify(finished, s.state)
  }

  /** Each snapshot entry is observed exactly once. */
  lemma AsyncObservesSnapshotOnce(s: Subject, aliveAtCall: set<Handle>, finished: seq<Handle>, x: Handle)
    requires multiset(finished) == multiset(Snapshot(s, aliveAtCall))
    ensures multiset(AsyncUpdate(s, aliveAtCall, finished))[Observation(x, s.state)] == multiset(Snapshot(s, aliveAtCall))[x]
  {
    NotifyCounts(finished, s.state, x);
  }

  /** Whatever the completion order, the asynchronous `update` makes the
      same observations as the synchronous one, as a multiset. */
  lemma AsyncMatchesSync(s: Subject, aliveAtCall: set<Handle>, finished: seq<Handle>)
    requires multiset(finished) == multiset(Snapshot(s, aliveAtCall))
    ensures multiset(AsyncUpdate(s, aliveAtCall, finished)) == multiset(Update(s, aliveAtCall))
  {
    var a := AsyncUpdate(s, aliveAtCall, finished);
    var u := Update(s, aliveAtCall);
    forall n: Observation
      ensures multiset(a)[n] == multiset(u)[n]
    {
      if n.state == s.state {
        AsyncObservesSnapshotOnce(s, aliveAtCall, finished, n.observer);
        NotifyCounts(Live(s.observers, aliveAtCall), s.state, n.observer);
        assert n == Observation(n.observer, s.state);
      } else {
        assert n !in a;
        assert n !in u;
      }
    }
  }
}

=== FILE: quicksort.dfy ===
/** The in-place quicksort of `quicksort.rs`: a Lomuto partition around the
    last element and a recursion on the two parts it returns. The slice is a
    `seq<int>`; every call returns the slice as it leaves it. */
module Quicksort {
  import opened Wrappers

  /** The elements of `s` that are at most `p`, in their order in `s`. */
  function Below(s: seq<int>, p: int): (r: seq<int>)
    ensures |r| <= |s|
    ensures forall x | x in r :: x <= p
  {
    if |s| == 0 then []
    else Below(s[..|s| - 1], p) + (if s[|s| - 1] <= p then [s[|s| - 1]] else [])
  }

  /** The elements of `s` that are greater than `p`, in their order in `s`. */
  function Above(s: seq<int>, p: int): (r: seq<int>)
    ensures |r| <= |s|
    ensures forall x | x in r :: x > p
  {
    if |s| == 0 then []
    else Above(s[..|s| - 1], p) + (if s[|s| - 1] > p then [s[|s| - 1]] else [])
  }

  /** `Below` and `Above` split `s`: together they hold exactly its elements. */
  lemma {:induction false} BelowAboveSplit(s: seq<int>, p: int)
    ensures multiset(Below(s, p)) + multiset(Above(s, p)) == multiset(s)
  {
    if |s| > 0 {
      var init, x := s[..|s| - 1], s[|s| - 1];
      BelowAboveSplit(init, p);
      assert s == init + [x];
    }
  }

  /** `Below` and `Above` of a prefix extended by the next element. */
  lemma SplitSnoc(s: seq<int>, i: nat, p: int)
    requires i < |s|
    ensures Below(s[..i + 1], p) == Below(s[..i], p) + (if s[i] <= p then [s[i]] else [])
    ensures Above(s[..i + 1], p) == Above(s[..i], p) + (if s[i] > p then [s[i]] else [])
  {
    assert s[..i + 1][..i] == s[..i];
  }

  /** `SplitSnoc` for an element greater than `p`. */
  lemma SplitSnocHigh(s: seq<int>, i: nat, p: int)
    requires i < |s| && s[i] > p
    ensures Below(s[..i + 1], p) == Below(s[..i], p)
    ensures multiset(Above(s[..i + 1], p)) == multiset(Above(s[..i], p)) + multiset{s[i]}
  {
    SplitSnoc(s, i, p);
    assert Below(s[..i], p) + [] == Below(s[..i], p);
  }

  /** The elements of `t[a..b + 1]` are those of `t[a..b]` and `t[b]`. */
  lemma SliceSnoc(t: seq<int>, a: nat, b: nat)
    requires a <= b < |t|
    ensures multiset(t[a..b + 1]) == multiset(t[a..b]) + multiset{t[b]}
  {
    assert t[a..b + 1] == t[a..b] + [t[b]];
  }

  /** `slice.swap(i, j)`. */
  function Swap(t: seq<int>, i: nat, j: nat): (r: seq<int>)
    requires i < |t| && j < |t|
    ensures |r| == |t| && r[i] == t[j] && r[j] == t[i]
    ensures forall k | 0 <= k < |t| && k != i && k != j :: r[k] == t[k]
    ensures multiset(r) == multiset(t)
  {
    t[i := t[j]][j := t[i]]
  }

  /** A swap of an element `x` at `i` into the first slot `j` of the block
      `t[j..i]`: `x` joins the prefix and the block moves one to the right. */
  lemma SwapIntoPrefix(t: seq<int>, j: nat, i: nat)
    requires j <= i < |t|
    ensures Swap(t, i, j)[..j + 1] == t[..j] + [t[i]]
    ensures multiset(Swap(t, i, j)[j + 1..i + 1]) == multiset(t[j..i])
    ensures Swap(t, i, j)[i + 1..] == t[i + 1..]
  {
    var u := Swap(t, i, j);
    assert u[..j + 1] == t[..j] + [t[i]];
    if j < i {
      assert u[j + 1..i + 1] == t[j + 1..i] + [t[j]];
      assert t[j..i] == [t[j]] + t[j + 1..i];
    }
  }

  /** The result of `partition`: the two sub-slices and the final
      `pivot_index`. */
  datatype Parted = Parted(left: seq<int>, right: seq<int>, pivotIndex: nat)

  /** What the loop of `partition` keeps after scanning `s[..i]`: the slots
      before `pi` hold the scanned elements at most `pv` in order, the slots
      from `pi` up to `i` the scanned elements greater than `pv`, and the rest
      is not yet touched. */
  ghost predicate Gathered(s: seq<int>, pv: int, t: seq<int>, pi: nat, i: nat)
  {
    && pi <= i <= |s| && |t| == |s|
    && (forall k | i <= k < |s| :: t[k] == s[k])
    && t[..pi] == Below(s[..i], pv)
    && multiset(t[pi..i]) == multiset(Above(s[..i], pv))
    && (forall k | pi <= k < i :: t[k] > pv)
  }

  /** One step of the loop on an element at most `pv`: it is swapped to the
      end of the prefix. */
  lemma GatherLow(s: seq<int>, pv: int, t: seq<int>, pi: nat, i: nat)
    requires Gathered(s, pv, t, pi, i) && i < |s| && t[i] <= pv
    ensures Gathered(s, pv, Swap(t, i, pi), pi + 1, i + 1)
  {
    SplitSnoc(s, i, pv);
    SwapIntoPrefix(t, pi, i);
    var u := Swap(t, i, pi);
    assert forall k | pi + 1 <= k < i + 1 :: u[k] == (if k == i then t[pi] else t[k]);
  }

  /** One step of the loop on an element greater than `pv`: it stays where
      it is, at the end of the block of greater elements. */
  lemma GatherHigh(s: seq<int>, pv: int, t: seq<int>, pi: nat, i: nat)
    requires Gathered(s, pv, t, pi, i) && i < |s| && t[i] > pv
    ensures Gathered(s, pv, t, pi, i + 1)
  {
    SplitSnocHigh(s, i, pv);
    SliceSnoc(t, pi, i);
  }

  /** When the scan has reached the end of the slice. */
  lemma GatheredAll(s: seq<int>, pv: int, t: seq<int>, pi: nat)
    requires Gathered(s, pv, t, pi, |s|)
    ensures t[..pi] == Below(s, pv)
    ensures multiset(t[pi..]) == multiset(Above(s, pv))
  {
    assert s[..|s|] == s;
    assert t[pi..] == t[pi..|s|];
  }

  /** The loop of `partition`: scanning left to right, every element at
      most `pv` is swapped into the next slot of a growing prefix. The prefix
      ends as the elements at most `pv` in their original order; the rest of
      the slice holds the other elements, all greater than `pv`. */
  method GatherBelow(s: seq<int>, pv: int) returns (t: seq<int>, pi: nat)
    ensures |t| == |s| && pi <= |s|
    ensures t[..pi] == Below(s, pv)
    ensures multiset(t[pi..]) == multiset(Above(s, pv))
    ensures forall k | pi <= k < |t| :: t[k] > pv
  {
    t := s;
    pi := 0;
    for i := 0 to |s|
      invariant Gathered(s, pv, t, pi, i)
    {
      if t[i] <= pv {
        GatherLow(s, pv, t, pi, i);
        t := Swap(t, i, pi);
        pi := pi + 1;
      } else {
        GatherHigh(s, pv, t, pi, i);
      }
    }
    GatheredAll(s, pv, t, pi);
  }

  /** The pivot is the last element, and it is at most itself: the gathered
      prefix is the earlier elements at most the pivot, then the pivot. */
  lemma BelowLast(s: seq<int>)
    requires |s| > 0
    ensures Below(s, s[|s| - 1]) == Below(s[..|s| - 1], s[|s| - 1]) + [s[|s| - 1]]
    ensures Above(s, s[|s| - 1]) == Above(s[..|s| - 1], s[|s| - 1])
  {
  }

  /** The closing `if pivot_index < len - 1 { swap(pivot_index, len - 1) }`. */
  function CloseSwap(t: seq<int>, pi: nat): (u: seq<int>)
    requires pi <= |t|
    ensures |u| == |t| && u[..pi] == t[..pi]
  {
    if pi < |t| - 1 then Swap(t, pi, |t| - 1) else t
  }

  /** The closing swap permutes the part after the pivot: it keeps its
      elements and, with them, their bound. */
  lemma SwapInTail(t: seq<int>, pi: nat, pv: int)
    requires 1 <= pi <= |t|
    requires forall k | pi <= k < |t| :: t[k] > pv
    ensures multiset(CloseSwap(t, pi)[pi..]) == multiset(t[pi..])
    ensures forall k | pi <= k < |t| :: CloseSwap(t, pi)[k] > pv
  {
    if pi < |t| - 1 {
      var u := Swap(t, pi, |t| - 1);
      assert t[..pi] + t[pi..] == t;
      assert u[..pi] + u[pi..] == u;
      assert u[..pi] == t[..pi];
    }
  }

  /** Splitting one before `pivot_index` when the slots up to it hold `lows`
      then the pivot: the left part is `lows` and the right part is the pivot
      followed by the greater elements. */
  lemma SplitBeforePivot(t: seq<int>, pi: nat, lows: seq<int>, pv: int, highs: seq<int>)
    requires 1 <= pi <= |t|
    requires t[..pi] == lows + [pv]
    requires multiset(t[pi..]) == multiset(highs)
    requires forall k | pi <= k < |t| :: t[k] > pv
    ensures t[..pi - 1] == lows
    ensures t[pi - 1..][0] == pv
    ensures multiset(t[pi - 1..][1..]) == multiset(highs)
  {
    assert t[..pi - 1] == t[..pi][..pi - 1];
    assert t[pi - 1..][1..] == t[pi..];
  }

  /** `partition`: the last element is the pivot; every element at most the
      pivot is swapped, in order, to the front, which puts the pivot last
      among them; the slice is split one before `pivot_index`. An empty slice
      panics: `slice.len() - 1` underflows (a debug build reports the
      overflow before the index is tried). */
  method Partition(s: seq<int>) returns (r: Result<Parted, Panic>)
    ensures r.Err? <==> |s| == 0
    ensures r.Ok? ==> var pv := s[|s| - 1];
      && r.value.pivotIndex >= 1
      && |r.value.left| == r.value.pivotIndex - 1
      && |r.value.left| + |r.value.right| == |s|
      && r.value.left == Below(s[..|s| - 1], pv)
      && |r.value.right| >= 1 && r.value.right[0] == pv
      && multiset(r.value.right[1..]) == multiset(Above(s[..|s| - 1], pv))
      && (forall k | 1 <= k < |r.value.right| :: r.value.right[k] > pv)
  {
    if |s| == 0 {
      return Err(Panic("attempt to subtract with overflow"));
    }
    var pv := s[|s| - 1];
    var t, pi := GatherBelow(s, pv);
    BelowLast(s);
    SwapInTail(t, pi, pv);
    var u := CloseSwap(t, pi);
    SplitBeforePivot(u, pi, Below(s[..|s| - 1], pv), pv, Above(s[..|s| - 1], pv));
    t := u;
    r := Ok(Parted(t[..pi - 1], t[pi - 1..], pi));
  }

  /** Ascending order. */
  predicate Sorted(s: seq<int>)
  {
    forall i, j | 0 <= i < j < |s| :: s[i] <= s[j]
  }

  /** An element at most `p` is kept by `Below`. */
  lemma {:induction false} BelowKeeps(s: seq<int>, p: int, k: nat)
    requires k < |s| && s[k] <= p
    ensures s[k] in Below(s, p)
  {
    if k < |s| - 1 {
      BelowKeeps(s[..|s| - 1], p, k);
    }
  }

  /** The second part of the termination measure of `_quicksort`: a slice
      whose first element is above its last (so the last, the pivot, may be
      its minimum) ranks above one whose first element is at most its last. */
  function Rank(s: seq<int>): (r: nat)
    ensures r <= 1
    ensures r == 0 ==> |s| < 2 || s[0] <= s[|s| - 1]
  {
    if |s| >= 2 && s[0] > s[|s| - 1] then 1 else 0
  }

  /** A slice of two or more elements is partitioned into two strictly
      smaller slices, or the right part is the whole slice, which happens
      only when the pivot is below every other element; the right part then
      starts with the pivot and ends above it, so its rank drops. */
  lemma PartitionShrinks(s: seq<int>, p: Parted)
    requires |s| >= 2
    requires |p.left| + |p.right| == |s| && |p.right| >= 1
    requires p.left == Below(s[..|s| - 1], s[|s| - 1])
    requires p.right[0] == s[|s| - 1]
    requires forall k | 1 <= k < |p.right| :: p.right[k] > s[|s| - 1]
    ensures |p.left| < |s|
    ensures |p.right| < |s| || (|p.right| == |s| && Rank(p.right) < Rank(s))
  {
    if |p.right| == |s| {
      var pv := s[|s| - 1];
      if s[0] <= pv {
        BelowKeeps(s[..|s| - 1], pv, 0);
        assert false;
      }
      assert p.right[|s| - 1] > pv;
    }
  }

  /** Two ascending slices, the first at most `pv` and the second at least
      `pv`, join into an ascending slice. */
  lemma SortedJoin(a: seq<int>, b: seq<int>, pv: int)
    requires Sorted(a) && Sorted(b)
    requires forall x | x in a :: x <= pv
    requires forall x | x in b :: x >= pv
    ensures Sorted(a + b)
  {
    forall i, j | 0 <= i < j < |a + b|
      ensures (a + b)[i] <= (a + b)[j]
    {
      if j < |a| {
      } else if i >= |a| {
        assert (a + b)[i] == b[i - |a|] && (a + b)[j] == b[j - |a|];
      } else {
        assert (a + b)[i] == a[i] && a[i] in a;
        assert (a + b)[j] == b[j - |a|] && b[j - |a|] in b;
      }
    }
  }

  /** A bound on every element of `s` holds of every element of a
      permutation of `s`. */
  lemma PermutedAtMost(s: seq<int>, t: seq<int>, hi: int)
    requires multiset(t) == multiset(s)
    requires forall k | 0 <= k < |s| :: s[k] <= hi
    ensures forall x | x in t :: x <= hi
  {
    forall x | x in t
      ensures x <= hi
    {
      assert x in multiset(s);
      var k :| 0 <= k < |s| && s[k] == x;
    }
  }

  /** The lower-bound twin of `PermutedAtMost`. */
  lemma PermutedAtLeast(s: seq<int>, t: seq<int>, lo: int)
    requires multiset(t) == multiset(s)
    requires forall k | 0 <= k < |s| :: lo <= s[k]
    ensures forall x | x in t :: lo <= x
  {
    forall x | x in t
      ensures lo <= x
    {
      assert x in multiset(s);
      var k :| 0 <= k < |s| && s[k] == x;
    }
  }

  /** The parts `partition` returns hold the slice's elements, the left one
      up to the pivot and the right one from it. */
  lemma PartsOfSlice(s: seq<int>, p: Parted)
    requires |s| >= 1
    requires p.left == Below(s[..|s| - 1], s[|s| - 1])
    requires |p.right| >= 1 && p.right[0] == s[|s| - 1]
    requires multiset(p.right[1..]) == multiset(Above(s[..|s| - 1], s[|s| - 1]))
    requires forall k | 1 <= k < |p.right| :: p.right[k] > s[|s| - 1]
    ensures multiset(p.left) + multiset(p.right) == multiset(s)
    ensures forall k | 0 <= k < |p.left| :: p.left[k] <= s[|s| - 1]
    ensures forall k | 0 <= k < |p.right| :: p.right[k] >= s[|s| - 1]
  {
    var pv := s[|s| - 1];
    BelowAboveSplit(s[..|s| - 1], pv);
    assert s == s[..|s| - 1] + [pv];
    assert p.right == [pv] + p.right[1..];
    forall k | 0 <= k < |p.left|
      ensures p.left[k] <= pv
    {
      assert p.left[k] in p.left;
    }
  }

  /** Sorting both parts and joining them sorts the slice. */
  lemma JoinSortedParts(s: seq<int>, p: Parted, left: seq<int>, right: seq<int>)
    requires |s| >= 1
    requires multiset(p.left) + multiset(p.right) == multiset(s)
    requires forall k | 0 <= k < |p.left| :: p.left[k] <= s[|s| - 1]
    requires forall k | 0 <= k < |p.right| :: p.right[k] >= s[|s| - 1]
    requires multiset(left) == multiset(p.left) && Sorted(left)
    requires multiset(right) == multiset(p.right) && Sorted(right)
    ensures multiset(left + right) == multiset(s)
    ensures Sorted(left + right)
  {
    var pv := s[|s| - 1];
    PermutedAtMost(p.left, left, pv);
    PermutedAtLeast(p.right, right, pv);
    SortedJoin(left, right, pv);
  }

  /** `_quicksort`: slices shorter than two are left alone; longer ones are
      partitioned and both parts sorted. The result is the input in ascending
      order. */
  method SortSlice(s: seq<int>) returns (r: seq<int>)
    ensures multiset(r) == multiset(s)
    ensures Sorted(r)
    ensures |s| < 2 ==> r == s
    decreases |s|, Rank(s)
  {
    if |s| < 2 {
      return s;
    }
    var parted := Partition(s);
    var p := parted.value;
    PartitionShrinks(s, p);
    var left := SortSlice(p.left);
    var right := SortSlice(p.right);
    PartsOfSlice(s, p);
    JoinSortedParts(s, p, left, right);
    r := left + right;
  }

  /** `quicksort` on a slice: `_quicksort` of the whole slice. */
  method Sort(s: seq<int>) returns (r: seq<int>)
    ensures multiset(r) == multiset(s) && Sorted(r)
  {
    r := SortSlice(s);
  }

  /** There is only one ascending arrangement of a multiset: quicksort agrees
      with every other sort. */
  lemma {:induction false} SortedUnique(a: seq<int>, b: seq<int>)
    requires Sorted(a) && Sorted(b) && multiset(a) == multiset(b)
    ensures a == b
    decreases |a|
  {
    if |a| == 0 {
      assert |multiset(b)| == 0;
    } else {
      assert |b| == |multiset(b)| == |a|;
      assert a[0] in multiset(b) && b[0] in multiset(a);
      assert a[0] == b[0] by {
        var i :| 0 <= i < |b| && b[i] == a[0];
        var j :| 0 <= j < |a| && a[j] == b[0];
        assert b[0] <= b[i] && a[0] <= a[j];
      }
      assert a == [a[0]] + a[1..] && b == [b[0]] + b[1..];
      assert multiset(a) == multiset{a[0]} + multiset(a[1..]);
      assert multiset(b) == multiset{a[0]} + multiset(b[1..]);
      assert multiset(a[1..]) == multiset(b[1..]) by {
        forall y
          ensures multiset(a[1..])[y] == multiset(b[1..])[y]
        {
          assert multiset(a)[y] == multiset(b)[y];
        }
      }
      SortedUnique(a[1..], b[1..]);
    }
  }
}

=== FILE: response.dfy ===
/** The JSON response envelope `RespVO` of common/response.rs: an optional
    status code, an optional message and optional data. */
module Response {
  import opened Wrappers
  import opened Http

  /** `RespVO<T>`. */
  datatype RespVO<T> = RespVO(code: Option<StatusCode>, msg: Option<string>, data: Option<T>)

  /** `from_result`: success with data. */
  function FromResult<T>(arg: T): (r: RespVO<T>)
    ensures r.code == Some(OK) && r.msg == Some("ops successful") && r.data == Some(arg)
  {
    RespVO(Some(OK), Some("ops successful"), Some(arg))
  }

  /** `from_result_tip`: success with a message and no data. */
  function FromResultTip<T>(arg: string): (r: RespVO<T>)
    ensures r.code == Some(OK) && r.msg == Some(arg) && r.data.None?
  {
    RespVO(Some(OK), Some(arg), None)
  }

  /** `from_error`: failure (400) with a message and no data. */
  function FromError<T>(arg: string): (r: RespVO<T>)
    ensures r.code == Some(BAD_REQUEST) && r.msg == Some(arg) && r.data.None?
  {
    RespVO(Some(BAD_REQUEST), Some(arg), None)
  }

  /** `from_error_info`: the given status with a message and no data. */
  function FromErrorInfo<T>(code: StatusCode, info: string): (r: RespVO<T>)
    ensures r.code == Some(code) && r.msg == Some(info) && r.data.None?
  {
    RespVO(Some(code), Some(info), None)
  }

  /** `from_error_infos`: failure (400) with a message and no data. */
  function FromErrorInfos<T>(info: string): (r: RespVO<T>)
    ensures r.code == Some(BAD_REQUEST) && r.msg == Some(info) && r.data.None?
  {
    RespVO(Some(BAD_REQUEST), Some(info), None)
  }

  /** What a client reads from an envelope: code 200 means success, with
      the data if any; any other code is a failure carrying the message. */
  function Outcome<T>(r: RespVO<T>): Result<Option<T>, string>
    requires r.code.Some? && r.msg.Some?
  {
    if r.code.value == OK then Ok(r.data) else Err(r.msg.value)
  }

  /** Every constructor fills in `code` and `msg`, and a client reads back
      exactly what was passed in: the data of a result, nothing from a tip,
      the message of an error. */
  lemma EnvelopesReadBack<T>(arg: T, text: string, code: StatusCode)
    ensures Outcome(FromResult(arg)) == Ok(Some(arg))
    ensures Outcome(FromResultTip<T>(text)) == Ok(None)
    ensures Outcome(FromError<T>(text)) == Err(text)
    ensures Outcome(FromErrorInfos<T>(text)) == Err(text)
    ensures Outcome(FromErrorInfo<T>(code, text)).Err? <==> code != OK
    ensures code != OK ==> Outcome(FromErrorInfo<T>(code, text)) == Err(text)
  {
  }

  /** `from_error` and `from_error_infos` build the same envelope, which is
      `from_error_info` with 400. */
  lemma ErrorConstructorsAgree<T>(text: string)
    ensures FromError<T>(text) == FromErrorInfos<T>(text) == FromErrorInfo<T>(BAD_REQUEST, text)
  {
  }
}

=== FILE: server.dfy ===
/** The request-level decisions of server.rs: the POST body check, user
    deletion, the JSON-or-form extractor and the error mapping of the
    timeout layer. Framework plumbing (routing, tracing, the listener) is
    not modelled. */
module Server {
  import opened Wrappers
  import opened Http
  import opened WebErrors

  /** Rust's `u64`. */
  newtype u64 = x: int | 0 <= x < 0x1_0000_0000_0000_0000

  /** `post_handler`: a body shorter than five bytes is a bad request;
      anything longer is accepted with "post done.". */
  function PostHandler(body: seq<bv8>): (r: Result<(StatusCode, string), AppError>)
    ensures r.Err? <==> |body| < 5
    ensures r.Err? ==> r.error == BadRequest
    ensures r.Ok? ==> r.value == (OK, "post done.")
  {
    if |body| < 5 then Err(BadRequest) else Ok((OK, "post done."))
  }

  /** The status a client sees from `post_handler`: 400 exactly for the
      short bodies, 200 otherwise. */
  lemma PostHandlerStatus(body: seq<bv8>)
    ensures (match PostHandler(body)
             case Ok((status, _)) => status
             case Err(e) => IntoResponse(e).status) == if |body| < 5 then BAD_REQUEST else OK
  {
  }

  /** The user record that `delete_user` echoes. */
  datatype User = User(id: u64, name: string, email: string)

  /** `perform_delete_user`: only user 1 cannot be deleted. */
  function PerformDeleteUser(id: u64): (r: Result<(), string>)
    ensures r.Err? <==> id == 1
    ensures r.Err? ==> r.error == "User cannot be deleted."
  {
    if id == 1 then Err("User cannot be deleted.") else Ok(())
  }

  /** `delete_user`: on success the id is echoed with a fixed name and
      e-mail; on failure the reason is reported with status 500. */
  function DeleteUser(id: u64): (r: Result<User, (StatusCode, string)>)
    ensures r.Ok? <==> PerformDeleteUser(id).Ok?
    ensures r.Ok? ==> r.value == User(id, "Deleted User", "deleted@user.com")
    ensures r.Err? ==> r.error.0 == INTERNAL_SERVER_ERROR && r.error.1 == "Failed to delete user: " + PerformDeleteUser(id).error
  {
    match PerformDeleteUser(id)
    case Ok(_) => Ok(User(id, "Deleted User", "deleted@user.com"))
    case Err(e) => Err((INTERNAL_SERVER_ERROR, "Failed to delete user: " + e))
  }

  /** Deleting fails for user 1 only, with the full message. */
  lemma DeleteUserOutcomes(id: u64)
    ensures DeleteUser(id).Err? <==> id == 1
    ensures DeleteUser(1) == Err((INTERNAL_SERVER_ERROR, "Failed to delete user: User cannot be deleted."))
  {
    assert "Failed to delete user: " + "User cannot be deleted." == "Failed to delete user: User cannot be deleted.";
  }

  // The JSON-or-form extractor

  const JSON: string := "application/json"
  const FORM: string := "application/x-www-form-urlencoded"

  /** `HeaderValue::to_str`: the header as text, when it is all visible
      ASCII. */
  function HeaderText(h: Option<string>): (r: Option<string>)
    ensures r.Some? <==> h.Some? && forall k | 0 <= k < |h.value| :: VisibleAscii(h.value[k])
    ensures r.Some? ==> r.value == h.value
  {
    if h.Some? && forall k | 0 <= k < |h.value| :: VisibleAscii(h.value[k]) then h else None
  }

  /** Which decoder the extractor picks. */
  datatype Decoder = UseJson | UseForm | Unsupported

  /** The content-type test of `JsonOrForm::from_request`: JSON is tried
      first, then form encoding; anything else, a missing header or one that
      is not visible ASCII is unsupported. */
  function ChooseDecoder(contentType: Option<string>): (d: Decoder)
    ensures d == UseJson <==> HeaderText(contentType).Some? && StartsWith(contentType.value, JSON)
    ensures d == UseForm <==> HeaderText(contentType).Some? && !StartsWith(contentType.value, JSON) && StartsWith(contentType.value, FORM)
  {
    match HeaderText(contentType)
    case None => Unsupported
    case Some(ct) =>
      if StartsWith(ct, JSON) then UseJson
      else if StartsWith(ct, FORM) then UseForm
      else Unsupported
  }

  /** No content type starts with both prefixes, so trying JSON first
      decides nothing that trying form first would decide differently. */
  lemma PrefixesExclusive(ct: string)
    ensures !(StartsWith(ct, JSON) && StartsWith(ct, FORM))
  {
    if StartsWith(ct, JSON) {
      assert ct[12] == ct[..|JSON|][12] == 'j';
      assert |FORM| <= |ct| ==> ct[..|FORM|][12] == 'j';
    }
  }

  /** `JsonOrForm::from_request`: the payload from the chosen decoder, that
      decoder's rejection, or 415 when no decoder applies. The decoders'
      own outcomes are parameters. */
  function JsonOrForm<T>(contentType: Option<string>, json: Result<T, StatusCode>, form: Result<T, StatusCode>): (r: Result<T, StatusCode>)
    ensures ChooseDecoder(contentType) == UseJson ==> r == json
    ensures ChooseDecoder(contentType) == UseForm ==> r == form
    ensures ChooseDecoder(contentType) == Unsupported ==> r == Err(UNSUPPORTED_MEDIA_TYPE)
  {
    match ChooseDecoder(contentType)
    case UseJson => json
    case UseForm => form
    case Unsupported => Err(UNSUPPORTED_MEDIA_TYPE)
  }

  /** The order of the two tests does not matter: testing form first gives
      the same decoder. */
  lemma DecoderOrderIrrelevant(ct: string)
    requires forall k | 0 <= k < |ct| :: VisibleAscii(ct[k])
    ensures ChooseDecoder(Some(ct)) == (if StartsWith(ct, FORM) then UseForm else if StartsWith(ct, JSON) then UseJson else Unsupported)
  {
    PrefixesExclusive(ct);
  }

  // The timeout layer

  /** The boxed error the timeout middleware may see. */
  datatype BoxError = Elapsed | Other(message: string)

  /** The `HandleErrorLayer` closure: a timeout becomes 408, any other error
      becomes 500 with its message. */
  function HandleError(e: BoxError): (r: Result<StatusCode, (StatusCode, string)>)
    ensures r.Ok? <==> e == Elapsed
    ensures r.Ok? ==> r.value == REQUEST_TIMEOUT
    ensures r.Err? ==> r.error == (INTERNAL_SERVER_ERROR, "Unhandled internal error: " + e.message)
  {
    match e
    case Elapsed => Ok(REQUEST_TIMEOUT)
    case Other(m) => Err((INTERNAL_SERVER_ERROR, "Unhandled internal error: " + m))
  }

  /** The status a client sees from the layer: 408 exactly for a timeout,
      500 for everything else; the body of a 500 gives back the error's own
      message, so distinct errors stay distinguishable. */
  lemma HandleErrorResponse(e: BoxError, f: BoxError)
    ensures (match HandleError(e) case Ok(st) => st case Err((st, _)) => st) == if e == Elapsed then REQUEST_TIMEOUT else INTERNAL_SERVER_ERROR
    ensures e.Other? && f.Other? && HandleError(e) == HandleError(f) ==> e == f
  {
    if e.Other? && f.Other? && HandleError(e) == HandleError(f) {
      var prefix := "Unhandled internal error: ";
      assert e.message == (prefix + e.message)[|prefix|..];
      assert f.message == (prefix + f.message)[|prefix|..];
    }
  }
}

=== FILE: web_errors.dfy ===
/** The application errors of web/errors.rs and the responses they turn
    into. */
module WebErrors {
  import opened Wrappers
  import opened Http

  datatype AppError = BadRequest | UserNotFound | InternalError

  /** A response with a status and a flat JSON object of string fields. */
  datatype ErrorResponse = ErrorResponse(status: StatusCode, body: map<string, string>)

  /** `AppError::into_response`: each variant has its status and a JSON body
      `{"error": message}`. */
  function IntoResponse(e: AppError): (r: ErrorResponse)
    ensures r.body.Keys == {"error"}
    ensures e == InternalError <==> r.status == INTERNAL_SERVER_ERROR
    ensures e == BadRequest <==> r.status == BAD_REQUEST
    ensures e == UserNotFound <==> r.status == NOT_FOUND
    ensures e == InternalError ==> r.body["error"] == "Internal Server Error"
    ensures e == BadRequest ==> r.body["error"] == "Bad Request"
    ensures e == UserNotFound ==> r.body["error"] == "User Not Found"
  {
    var (status, message) := match e
      case InternalError => (INTERNAL_SERVER_ERROR, "Internal Server Error")
      case BadRequest => (BAD_REQUEST, "Bad Request")
      case UserNotFound => (NOT_FOUND, "User Not Found");
    ErrorResponse(status, map["error" := message])
  }

  /** The error a client can recover from a status code. */
  function FromStatus(status: StatusCode): (r: Option<AppError>)
  {
    if status == BAD_REQUEST then Some(BadRequest)
    else if status == NOT_FOUND then Some(UserNotFound)
    else if status == INTERNAL_SERVER_ERROR then Some(InternalError)
    else None
  }

  /** The status alone identifies the error: distinct variants give
      distinct statuses, and the status maps back to the variant. */
  lemma StatusIdentifiesError(e: AppError, f: AppError)
    ensures FromStatus(IntoResponse(e).status) == Some(e)
    ensures e != f ==> IntoResponse(e).status != IntoResponse(f).status
  {
  }

  datatype MultipartError = NoName | InvalidValue | ReadError

  /** `Display for MultipartError`: one fixed message per variant. */
  function Display(e: MultipartError): (s: string)
    ensures e == NoName <==> s == "No named field in multipart"
    ensures e == InvalidValue <==> s == "Invalid value in multipart"
    ensures e == ReadError <==> s == "Reading multipart error"
  {
    match e
    case NoName => "No named field in multipart"
    case InvalidValue => "Invalid value in multipart"
    case ReadError => "Reading multipart error"
  }

  /** The message identifies the variant. */
  lemma DisplayInjective(e: MultipartError, f: MultipartError)
    ensures Display(e) == Display(f) ==> e == f
  {
  }
}

=== FILE: wrappers.dfy ===
/** Failure-carrying datatypes shared by every module of the model. */
module Wrappers {

  /** Rust's `Option<T>`: a value that may be absent. */
  datatype Option<+T> = None | Some(value: T)

  /** Rust's `Result<T, E>`: a success value or an error value. */
  datatype Result<+T, +E> = Ok(value: T) | Err(error: E)

  /** An abort of the running program (a Rust `panic!`, a failed `assert!`, an
      out-of-bounds index, an `unwrap` of `None`). */
  datatype Panic = Panic(reason: string)
}
